=== FILE: README.md ===
# brute: conflict resolution and anti-entropy replication, modelled in Dafny

This project models the core of brute, an eventually consistent key-item
store. It covers these parts:

- **Mergers.** The `Merger` contract and its two policies: last-write-wins,
  and the table merger (field-level last-write-wins under a row floor
  timestamp). It also covers `MergeUtil.Merge`, the fold that drives a
  merger. The policy `TableRows` is the table merger as the source writes
  it. `CorrectedTableRows` is the same merger with two fixes: a raised row floor
  counts as a change, and a row adopted by a merger that holds no row
  brings its floor (see Findings). Every store is modelled for any
  policy, so a store under `TableRows` behaves as the source does.
- **Stores.** The read-modify-write logic of the bbolt and Badger stores,
  including the Bolt write batch.
- **Update tracker.** The updater's logical clock, and the order in which a
  write touches the update log, the time vector and the store.
- **Update logs.** The Bolt update log (a table plus a time-ordered index)
  and the SQL update log and time vector.
- **Replication.** The replication server (`getSince`, `getVersion`) and the
  syncer that pulls from a peer.
- **HTTP binding.** The HTTP binding of a storage facade, with its status
  mapping in both directions.

The model is functional:

- Stores, logs and time vectors are values: sorted association lists for
  bbolt buckets, maps for Badger and SQL tables.
- Operations return the new value and the status the source returns.
- Streams and channels are sequences.
- Items are a datatype behind `Option`-returning decoders, so "does not
  decode" is a case the model handles.
- Times are integers counting nanoseconds, with 0 standing for Go's zero
  `time.Time`.
- Faults of the underlying engines (a failed lookup, a read transaction
  that cannot begin, a failed commit, a transport error) are boolean
  parameters.
- The wall clock is the parameter `now`.
- The generic parts take their collaborators as function values. The
  updater takes its log, time vector and store this way, the server its log
  scan and `Obtain`, and the syncer its facade's `Submit` together with
  `startBatch` and `finishBatch`.

Modules follow the source files:

- `Types`: bytes, times, `Option`, `tmMax`, update-log entries.
- `Items`: the item datatype and its decoders.
- `Lww` and `Table`: the two policies. `TableJoin` characterises the table
  merger's fold as a join, for convergence.
- `Merger`: the policy dispatch and `MergeUtil`.
- `Buckets`: bbolt's sorted buckets and `bytes.Compare`.
- `Bolt` and `Badger`: the stores.
- `Convergence`: replicas of a table-merged store.
- `Tsf`: the time prefix of the Bolt log's index keys.
- `BoltLog` and `SqlLog`: the update logs.
- `Updater`: the update tracker.
- `SyncServer` and `Syncer`: the replication server and client.
- `Streams`: decoding a msgpack stream up to its first error.
- `KvHttp`: the network binding.

Where the repository's own description and its code differ, the model
follows the code:

- The Bolt log's scan from `since` is inclusive (it seeks to the rendered
  `since`). The SQL log's scan is strict (`u_time > since`).
- An absent remote version does not make `SyncWith` skip the pull. Only a
  known remote version that is not after the cursor does.
- The updater takes its time from the clock before it queries the update
  log.
- `Table_Decode` reports nothing for a row without fields.
- Convergence holds for decoded values, not for bytes. `Table_Merger.Result`
  encodes a Go map with msgpack's default settings, so its key order is
  Go's map iteration order, and two equal rows can encode to different
  bytes. The model identifies an item with its decoded value. Its "differs"
  (the `Changed` promise) and its convergence lemmas are about values.

## Model

| member | source | states |
|---|---|---|
| Types.TmMax | replicator/httpi/syncer.go:35-38 | The later of two times, the first on a tie: never below either argument and equal to one of them. |
| Items.DecodeTime | datatypes/datatypes.go:40-45 | Only timestamped items and rows have a time; a row's time is its floor. |
| Items.EncodeTime | replicator/boltlog/boltlog.go:76-78 | A time written into the update log decodes back to itself and is never empty. |
| Lww.Init | datatypes/datatypes.go:37-46 | Init clears the changed flag and holds the seed; an undecodable seed gets the zero time. |
| Lww.Merge | datatypes/datatypes.go:48-56 | An undecodable item changes nothing; the held item is replaced only by a strictly later one, which sets changed; the held time never decreases. |
| Lww.Cleanup | datatypes/datatypes.go:66-68 | Cleanup drops the held item and keeps flag and time. |
| Lww.FoldSummarises | datatypes/datatypes.go:48-56 | After any fold the held time is the maximum of the seed's time and every decodable merged time, and the held item carries it. |
| Lww.StampIsMaximum | datatypes/datatypes.go:51-53 | The held time after a fold is at least every decodable merged time and the seed's. |
| Lww.ChangedIffLaterMerged | datatypes/datatypes.go:51-55 | Changed holds exactly when some merged item is strictly later than the seed. |
| Lww.ChangedIffResultDiffers | api/api.go:51-57 | The interface promise: Changed() holds iff Result() differs from the seed. |
| Lww.MergeIdempotent | api/api.go:30-34 | Merging again an item already folded in leaves the whole state unchanged. |
| Lww.ResultIsLatest | datatypes/datatypes.go:51-55 | For timestamped items, the result is an item of the list carrying the greatest time. |
| Lww.ResultOrderIndependent | api/api.go:30-34 | Any permutation of items with distinct timestamps merges to the same result. |
| Table.Init | datatypes/table.go:51-60 | Init clears all state; a decodable seed supplies fields and floor, an undecodable one leaves the nil row and zero floor. |
| Table.Combine | datatypes/table.go:69-90 | Per field the strictly newer of held and incoming wins, ties keep the held one, and nothing below the floor survives. |
| Table.MergeWith | datatypes/table.go:61-92 | An undecodable item is ignored; onto a nil row the incoming fields are adopted wholesale with changed set, the floor left alone as written and taken from the row when corrected; otherwise the floor becomes the later of the two and no kept field is below it. |
| Table.Cleanup | datatypes/table.go:100 | Cleanup drops the row and keeps flag and floor. |
| Table.OverlayThenPrune | datatypes/table.go:70-90 | The two loops in sequence leave exactly the combined fields, whatever the map iteration order. |
| Table.FlagMeansFieldsDiffer | datatypes/table.go:73-90 | The flag the two loops set means the held fields differ from the starting ones. |
| Table.VisitIncoming | datatypes/table.go:70-80 | The first loop stores each incoming field that is not below the floor and is new or strictly newer, and sets changed iff it stored one. |
| Table.CollectOlder | datatypes/table.go:81-86 | The second loop collects exactly the names whose fields are below the floor. |
| Table.DeleteNames | datatypes/table.go:87-90 | Deleting the collected names removes exactly them and sets changed iff there was one. |
| Table.MergeFields | datatypes/table.go:69-90 | The loops compute the combined fields and set changed iff the fields differ. |
| Table.Put | datatypes/table.go:107-114 | A put row has floor zero and every field stamped with the same time. |
| Table.Delete | datatypes/table.go:115-120 | A delete row has the fresh time as floor and no fields. |
| Table.Decode | datatypes/table.go:122-135 | Nothing unless found, readable, decodable and non-empty; otherwise exactly the field values by name. |
| Table.DecodePut | datatypes/table.go:107-135 | Reading back a put row gives its values; an empty put reads as nothing. |
| Table.DeleteDropsOlderFields | datatypes/table.go:81-90 | Merging a delete drops every field older than it and raises the floor. |
| Table.ChangedIffResultDiffersPair | api/api.go:51-57 | For the corrected merger and a decodable stored row, Changed() iff Result() differs from the seed. |
| Table.FloorRaiseUnreported | datatypes/table.go:69 | As written, merging a later delete raises the floor without setting changed, although the result differs from the seed. |
| Table.AsWrittenChangedIffFieldsDiffer | datatypes/table.go:61-92 | For a decodable stored row and any incoming item, the source's merger reports a change exactly when the result's fields differ from the stored row's, whatever happened to the floor. |
| Table.AsWrittenAgreesOnRow | datatypes/table.go:61-92 | From a decodable seed, after the same items, the source's merger and the corrected one hold the same floor and fields, so their results agree; the source's reports a change only when the corrected one does. |
| Table.ResumeFromResult | datatypes/table.go:51-92 | Re-reading a fold's result as the seed and merging the next item gives the same result as continuing the fold. |
| TableJoin.FoldIsJoin | datatypes/table.go:61-92 | Every fold of the corrected merger from a normalized seed ends in the join of all rows: the greatest floor and, per name, the newest field not below it. |
| TableJoin.AsWrittenFoldIsJoin | datatypes/table.go:61-92 | The source's merger ends in the same join. |
| TableJoin.JoinUnique | datatypes/table.go:61-92 | The join of a set of rows is unique. |
| TableJoin.ResultOrderIndependent | api/api.go:30-34 | Rows with distinct field timestamps merge to the same result in any order, under the corrected merger. |
| TableJoin.AsWrittenOrderIndependent | datatypes/table.go:61-92 | The same order independence for the source's merger, whose result agrees with the corrected one. |
| TableJoin.MergeIdempotent | api/api.go:30-34 | Merging again a row already folded in leaves the whole corrected merger state unchanged, the changed flag included. |
| TableJoin.AsWrittenMergeIdempotent | datatypes/table.go:61-92 | The same for the source's merger, its changed flag included. |
| TableJoin.FieldLevelExample | datatypes/table.go:69-90 | A row with floor 2 and a newer `a` replaces `a` and drops the older `b`. |
| Merger.Factory | utils/utils.go:33-37 | A fresh merger of each policy holds nothing. |
| Merger.Init | api/api.go:45-46 | Init keeps the policy and resets the state to the seed. |
| Merger.Merge | api/api.go:48-49 | Merge keeps the policy; `TableRows` merges with table.go's merger as written. |
| Merger.Cleanup | api/api.go:62-63 | Cleanup keeps the policy and drops the held item. |
| Merger.MergeAll | utils/utils.go:41-47 | Merging a list keeps the policy. |
| Merger.MergeItemsIsFold | utils/utils.go:38-52 | The first item goes to Init and the rest to Merge in list order, and Result and Changed are read before Cleanup. Under `TableRows` this is the source's fold, with its changed flag. |
| Merger.PoolIrrelevant | utils/utils.go:33-44 | For a non-empty list the outcome does not depend on which pooled merger is reused. |
| Merger.PooledAfterCleanup | utils/utils.go:48-51 | The merger returned to the pool is cleaned up and keeps its policy. |
| Merger.SingleItemLww | utils/utils.go:41-51 | A single item under last-write-wins comes back unchanged. |
| Merger.ChangedIffResultDiffers | api/api.go:51-57 | Under last-write-wins (any list) and the corrected table merger (stored pairs), changed iff the result differs from the first item. Under the source's table merger, changed iff the fields differ, so a floor-only raise goes unreported. |
| Merger.WriteIfChangedKeepsResult | backends/boltdb/bolt.go:49-53 | Writing only on a reported change keeps the merge result under last-write-wins and the corrected merger. Under the source's table merger it keeps the result only when the fields changed, and otherwise the stored row with its old floor. |
| Buckets.Get | backends/boltdb/bolt.go:45 | A bucket lookup returns the value stored under the key, if any. |
| Buckets.Seek | replicator/boltlog/boltlog.go:103 | The cursor seek lands on the first key not below the target. |
| Buckets.PutChecked | backends/boltdb/bolt.go:47 | A put succeeds exactly for a valid key and then maps the key to the value, all else unchanged. |
| Buckets.DeleteChecked | replicator/boltlog/boltlog.go:74 | A delete removes exactly the key. |
| Bolt.Stored | backends/boltdb/bolt.go:45 | A missing key reads as the empty item. |
| Bolt.StoredKeyValid | backends/boltdb/bolt.go:45-47 | A non-empty stored value sits under a valid key. |
| Bolt.SubmitTx | backends/boltdb/bolt.go:42-54 | The transaction stores the item onto an empty value, the merge only when it reports a change, and fails only on an invalid key. The merge is the policy's; under `TableRows` it is the source's table merger. |
| Bolt.Submit | backends/boltdb/bolt.go:40-56 | ok iff the store was writable and the key valid; on failure nothing changes; on success the key holds the absorbed value and no other key changes. The merge is the policy's; under `TableRows` it is the source's table merger. |
| Bolt.BucketOrEmpty | backends/boltdb/bolt.go:43 | A missing bucket counts as an empty one. |
| Bolt.Obtain | backends/boltdb/bolt.go:57-67 | Unreadable when the read transaction cannot begin (its error is dropped) or the bucket does not exist; otherwise ok iff the stored value is non-empty. |
| Bolt.Stream | backends/boltdb/bolt.go:68-78 | The cursor visits the pairs in ascending key order and stops at the first empty key; every pair of a well-formed bucket is visited once; a read transaction that cannot begin visits nothing. |
| Bolt.StartBatch | backends/boltdb/bolt.go:80-84 | A batch opens on the current pairs; a failed begin falls back to the plain store. |
| Bolt.BatchSubmitWith | backends/boltdb/bolt.go:93-106 | Returns true without writing when the merge reports no change; after a write, the status is `Put(...) != nil` as written or `== nil` corrected. The merge is the policy's; under `TableRows` it is the source's table merger. |
| Bolt.BatchSubmit | backends/boltdb/bolt.go:93-106 | With the corrected status, true iff the transaction holds the absorbed value. The merge is the policy's; under `TableRows` it is the source's table merger. |
| Bolt.FacadeSubmit | backends/boltdb/bolt.go:40-106 | Submitting through a facade keeps it a plain store or a batch and touches the store only when plain. |
| Bolt.FinishBatch | backends/boltdb/bolt.go:107-109 | A batch commits its transaction or, on error, leaves the store as before; the plain store finishes with no error. |
| Bolt.SubmitThenObtain | backends/boltdb/bolt.go:40-67 | A successful submit reads back the absorbed value. |
| Bolt.SubmitOntoAbsent | backends/boltdb/bolt.go:45-48 | A submit onto an absent key stores the item as given. |
| Bolt.SubmitLeavesOtherKeys | backends/boltdb/bolt.go:42-54 | A submit leaves every other key as it was. |
| Bolt.BatchStatusInverted | backends/boltdb/bolt.go:104 | As written, a successful batched write reports false. |
| Badger.SubmitWith | backends/badger/badger.go:57-74 | A missing key stores the item; an existing key gets the merge only on a change; a failed value read or commit changes nothing; no other key changes. The merge is the policy's; under `TableRows` it is the source's table merger. |
| Badger.Submit | backends/badger/badger.go:57-74 | With the lookup error returned, success means the key holds the absorbed value. The merge is the policy's; under `TableRows` it is the source's table merger. |
| Badger.Obtain | backends/badger/badger.go:75-86 | Not found is readable but not ok; another lookup error is unreadable; a failed value read is readable but not ok. |
| Badger.LookupErrorReportedAsSuccess | backends/badger/badger.go:64 | As written, a failed lookup reports success while the key stays unwritten. |
| Badger.SubmitThenObtain | backends/badger/badger.go:57-86 | With the lookup error returned, every reported success reads back. |
| Badger.EmptyValueIsMerged | backends/badger/badger.go:65-71 | Badger merges onto a stored empty value instead of replacing it. |
| Convergence.CorrectedStoreKeepsResult | backends/boltdb/bolt.go:49-53 | With the corrected table merger, a store keeps exactly the merge result of the stored row and the incoming item. |
| Convergence.AsWrittenRowStep | backends/boltdb/bolt.go:42-54 | With the table merger as written, a row is rewritten only when its fields change. |
| Convergence.CorrectedRowStep | backends/boltdb/bolt.go:42-54 | With the corrected merger, a row is always rewritten with the combined fields and the later floor. |
| Convergence.AsWrittenDiverges | datatypes/table.go:69 | Two replicas that receive a delete and an older put in different orders end with different rows. |
| Convergence.CorrectedConverges | datatypes/table.go:69-90 | With the corrected merger both orders of the example end in the same row. |
| Convergence.CorrectedReplayIsFold | backends/boltdb/bolt.go:42-54 | With the corrected merger, a store taking submits one at a time holds the merger's fold of the whole list. |
| Convergence.CorrectedConvergesAlways | datatypes/table.go:61-92 | With the corrected merger, a replica holding a normalized row ends in the same row whatever order the same submits arrive in, given distinct field timestamps. |
| Convergence.AdoptStep | datatypes/table.go:51-68 | A row submitted onto a stored value that is not a row replaces it: an empty value by the row itself; other bytes by the row's fields, under the row's floor when corrected and under the zero floor as written. |
| Convergence.AdoptionDropsFloor | datatypes/table.go:65-67 | As written, a replica holding undecodable bytes ends in different rows when it receives {floor 5, a@7} and {floor 0, b@3} in the two orders. |
| Convergence.CorrectedReplayFromNonRow | datatypes/table.go:51-92 | With the corrected merger, a store holding no row adopts the first row as it is and then holds the fold of the rest onto it. |
| Convergence.CorrectedConvergesFromNonRow | datatypes/table.go:51-92 | With the corrected merger, a replica holding no row (the empty store included) ends in the same row whatever order the same normalized rows arrive in, given distinct field timestamps. |
| Tsf.Format | replicator/boltlog/boltlog.go:31 | A rendered time is always as wide as the layout. |
| Tsf.Parse | replicator/boltlog/boltlog.go:106 | Only well-formed prefixes parse, and to a renderable time. |
| Tsf.ParseFormat | replicator/boltlog/boltlog.go:94-106 | Parsing a rendered time gives it back; an unrenderable time does not parse. |
| Tsf.FormatOrder | replicator/boltlog/boltlog.go:31 | Rendering preserves the order of times. |
| Tsf.MakeKey2 | replicator/boltlog/boltlog.go:43-47 | An index key is the rendered time followed by the key. |
| Tsf.MakeKey2Injective | replicator/boltlog/boltlog.go:43-47 | The key and the rendered time can be read back from an index key. |
| Tsf.MakeKey2Order | replicator/boltlog/boltlog.go:40-47 | Index keys order first by time. |
| Tsf.MakeKey2AgainstPrefix | replicator/boltlog/boltlog.go:94-103 | An index key sorts below the rendered `since` exactly when its time is earlier. |
| BoltLog.EmptyIsGood | replicator/boltlog/boltlog.go:37-40 | A log without buckets satisfies the table/index invariant. |
| BoltLog.LoggedTime | replicator/boltlog/boltlog.go:55-60 | The logged time is the decoded table value, if any. |
| BoltLog.Query | replicator/boltlog/boltlog.go:53-63 | A read transaction that cannot begin returns the error with the entry untouched; otherwise no error, Exist iff the table bucket exists and the value decodes, with the logged time; otherwise the time is left as given. |
| BoltLog.Update | replicator/boltlog/boltlog.go:64-89 | ok iff the batch succeeds; on success the table maps the key to the change, the old index entry is removed and the new one added, and Exist is set; on failure nothing changes. |
| BoltLog.UpdatePreservesConsistency | replicator/boltlog/boltlog.go:64-84 | Update keeps each logged key with exactly one index entry, carrying the table's time. |
| BoltLog.UpdateKeepsGood | replicator/boltlog/boltlog.go:64-89 | A good log stays good through every update. |
| BoltLog.Emit | replicator/boltlog/boltlog.go:106-111 | The time comes from the prefix, else from the table, else the entry is skipped; every entry has Exist set. |
| BoltLog.ScanEach | replicator/boltlog/boltlog.go:103-112 | When every index entry emits, the scan emits one entry per index entry in order. |
| BoltLog.ReadAllIsTail | replicator/boltlog/boltlog.go:92-116 | A scan of a good log emits, in order, the index entries from the seek on. |
| BoltLog.ReadAllSound | replicator/boltlog/boltlog.go:92-116 | Every key reported is logged, with its logged time, at or after `since`. |
| BoltLog.ReadAllComplete | replicator/boltlog/boltlog.go:94-103 | Every key logged at or after `since` is reported: the scan is inclusive. |
| BoltLog.ReadAllOrdered | replicator/boltlog/boltlog.go:103 | Entries come in ascending time order, no key twice. |
| SqlLog.SqlArg | replicator/sqllog/sqllog.go:38-44 | "$" followed by the name for ql and PostgreSQL, "?" otherwise. |
| SqlLog.SqlType | replicator/sqllog/sqllog.go:45-58 | Only PostgreSQL renames, and only three names. |
| SqlLog.Subst | replicator/sqllog/sqllog.go:59-81 | `a-N` and `t-T` first, then `aN`, then `now` and `unique`; any other name expands to nothing. |
| SqlLog.ArgumentPlaceholder | replicator/sqllog/sqllog.go:68-72 | `aN` is the N-th numbered argument for ql and PostgreSQL, `?` otherwise. |
| SqlLog.FirstArgument | replicator/sqllog/sqllog.go:41 | `a1` is `$1` for ql and PostgreSQL. |
| SqlLog.ColumnTypes | replicator/sqllog/sqllog.go:45-58 | The column types per dialect. |
| SqlLog.UnknownNameIsEmpty | replicator/sqllog/sqllog.go:59-81 | A name expands to nothing exactly when it is not understood or is the bare `t-`. |
| SqlLog.Query | replicator/sqllog/sqllog.go:156-163 | Exist iff a row is found; no rows is not an error and leaves the time as given. |
| SqlLog.Update | replicator/sqllog/sqllog.go:164-171 | UPDATE when Exist (silently nothing when the row is missing), INSERT otherwise (refused when the row exists). |
| SqlLog.QueryThenUpdate | replicator/sqllog/sqllog.go:156-171 | Querying first and passing on the flag always writes the row. |
| SqlLog.StaleExistLosesWrite | replicator/sqllog/sqllog.go:124-131 | A stale Exist flag loses the write without an error. |
| SqlLog.ReadAllAsync | replicator/sqllog/sqllog.go:173-187 | Exactly the scannable rows strictly after `since` are sent, each with Exist set; a query error is returned. |
| Updater.Tick | replicator/updater/updater.go:55-60 | The new time is past the clock's value and at least the wall clock, and the clock takes it. |
| Updater.TicksIncrease | replicator/updater/updater.go:57-58 | Successive times strictly increase for any wall-clock readings. |
| Updater.Submit | replicator/updater/updater.go:79-95 | The clock stays advanced whatever fails; Exist is set once the writeback succeeds; the store is touched only then. |
| Updater.WriteOrder | replicator/updater/updater.go:68-95 | The store is reached only after the log update and the writeback both succeeded; any earlier failure returns false with the store untouched. |
| Updater.Init | replicator/updater/updater.go:52-54 | The clock starts from the time vector's entry and knows whether it exists; a failing read is returned as the error and leaves the zero clock marked as not existing. |
| Updater.SqlSubmit | replicator/updater/updater.go:61-95 | Over the source's Badger store without faults, the log and the vector both get the fresh time, the store gets the absorbed item, and the clock's Exist flag stays true to the vector. |
| Updater.LookupErrorLogsUnwrittenKey | backends/badger/badger.go:62-64 | Over the source's Badger store, a failed lookup reports success and the log records the key at the fresh time, but the store is unchanged. |
| Updater.FailedBumpAdvancesClock | replicator/updater/updater.go:80-83 | A failed log update still consumes the time. |
| Streams.Frames | replicator/httpi/syncer.go:102-104 | The decode loop reads every frame up to the first that does not decode. |
| Streams.FramesOfWire | network/httpi/httpi.go:129-135 | An intact stream decodes to what was sent; a garbled one to what came before the damage. |
| SyncServer.Serve | replicator/httpi/httpi.go:67-70 | A tuple carries the entry's key and time, found = ok && readable, and no item when not found. |
| SyncServer.GetSince | replicator/httpi/httpi.go:43-73 | 400 for a bad `since`, 500 for a failed scan, otherwise one tuple per entry in log order, cut at the first encode error. |
| SyncServer.GetVersion | replicator/httpi/httpi.go:74-83 | The node's own Exist and Value; a failed query reports absent at the zero time. |
| SyncServer.ServedFromBolt | replicator/httpi/httpi.go:55-72 | Over a good Bolt log and store, a pull reports exactly the keys logged at or after `since`, with their times, found iff stored non-empty. |
| Syncer.Unbatched | replicator/httpi/syncer.go:47-54 | A facade without batching starts as itself and finishes without error. |
| Syncer.GetVersion | replicator/httpi/syncer.go:62-76 | An error on transport or decode, nil for exist=false, the time for exist=true. |
| Syncer.VersionRoundTrip | replicator/httpi/syncer.go:62-76 | Asking a peer for its version reads its own time-vector entry. |
| Syncer.Step | replicator/httpi/syncer.go:105-109 | A found tuple is submitted; one not found counts as applied. |
| Syncer.Applied | replicator/httpi/syncer.go:102-111 | One applied flag per tuple. |
| Syncer.PullCursor | replicator/httpi/syncer.go:110 | The cursor after a pull is the maximum of the start and the changes of the applied tuples. |
| Syncer.Sync | replicator/httpi/syncer.go:77-116 | A query error returns with nothing done; a known remote version not after the cursor skips; a transport error returns; the vector changes only at the node and never backwards. |
| Syncer.SyncWritesCursor | replicator/httpi/syncer.go:86-115 | Without faults a pull past the staleness check writes the maximum of the old cursor and every applied change. |
| Syncer.FinishFailureKeepsCursor | replicator/httpi/syncer.go:113-114 | A failed finish returns without writing the cursor. |
| Syncer.SyncWith | replicator/httpi/syncer.go:77-116 | The decode loop computes the same outcome as the reference `Sync`. |
| Syncer.BatchedPullKeepsCursor | backends/boltdb/bolt.go:104 | As written, a pull into a Bolt batch commits the item but leaves the cursor at zero. |
| Syncer.BatchedPullAdvancesCursor | replicator/httpi/syncer.go:105-115 | With the corrected status the same pull advances the cursor to the tuple's change. |
| Syncer.BatchedPull | replicator/httpi/syncer.go:99-115 | The steps of a one-tuple pull into a fresh Bolt batch. |
| KvHttp.ServeObtain | network/httpi/httpi.go:40-56 | 400 for a bad key before the facade is asked; 500 when unreadable; 404 when not found; 200 with the item otherwise. |
| KvHttp.ServeSubmit | network/httpi/httpi.go:57-74 | 400 for a bad key or body before the facade is touched; 202 iff the facade accepts the pair, 500 otherwise. |
| KvHttp.ClientSubmit | network/httpi/httpi.go:101-107 | ok exactly when the reply is 202. |
| KvHttp.ClientObtain | network/httpi/httpi.go:108-121 | 200 gives the body, found and readable; 404 readable only; anything else or a transport error neither. |
| KvHttp.ObtainRoundTrip | network/httpi/httpi.go:46-55 | Through the client, readable is preserved, ok too whenever readable, and a found item arrives unchanged. |
| KvHttp.BadKeyUnreadable | network/httpi/httpi.go:41-45 | A key the server cannot decode reads as unreadable. |
| KvHttp.SubmitRoundTrip | network/httpi/httpi.go:68-73 | The client reports success iff the server's facade accepted the pair. |
| KvHttp.ClientStream | network/httpi/httpi.go:122-136 | Nothing on a transport error; otherwise every pair up to the first decode error. |
| KvHttp.StreamRoundTrip | network/httpi/httpi.go:80-83 | The client calls back on exactly the pairs the server wrote, in order. |

## Left out

- Concurrency is not modelled: goroutines, the channels of `ReadAllAsync` and `getSince`, mutexes, the 64-way lock sharding of the updater, and `sync.Pool` reuse. Every operation is one atomic step, and a stream is a finite sequence.
- The liveness quirk is not modelled. When the Bolt index bucket is missing, `ReadAllAsync` returns without closing its channel. The model returns an empty sequence.
- Storage engines are modelled only by their values. bbolt buckets become sorted association lists. Badger and SQL tables become maps. Transactions, `Mutate`, the DDL strings, `Extract`, `os.Expand`, and Badger's `Stream` iterator are left out.
- Engine limits are reduced to one rule. A bbolt key must be non-empty and at most 32768 bytes. The value-size limit is not modelled.
- Wire formats are not modelled: msgpack encoding of items, tuples and times, and base64url keys. Decoding is an `Option`, and the model assumes that encoding followed by decoding is the identity. An item is identified with its decoded value, so the byte-level differences between encodings of one row (Go's map iteration order in `Table_Merger.Result`) are not modelled, and no lemma promises byte-identical replicas.
- HTTP plumbing is not modelled: routers, URLs, `http.Client`, headers, and redirects.
- The calendar rendering of the Bolt log's `TSF` layout is replaced. The model renders whole seconds from time zero in the fourteen digits and nanoseconds in the nine. Order and round trip are preserved for times below 10^14 seconds. Other times render as bytes that do not parse.
- Updater.Submit: concurrent `time()` calls are not modelled. In the source, another submit can advance the clock between `time()` and `writeback()`.
- Updater.Submit: the delegations `Obtain` and `Stream` have no separate member, because they return the store's results unchanged.
- SyncServer.GetSince: a failed write to the response is modelled only as the cut point `failsAt`.
- SqlLog.ReadAllAsync: its ensures state membership, not the order of the rows. The SQL query has no ORDER BY, so the order is the database's.
- BoltLog.ReadAllAsync: requires every index key to be at least as long as the time prefix. A shorter key makes the source's `k[:len(TSF)]` panic (boltlog.go:106); a log built only through `Update` has none (`BoltLog.GoodIndexPrefixed`), so the panic is not modelled.
- BoltLog.ReadAllAsync: the model's keys are immutable values. In the source, each entry sends `Key: v` (boltlog.go:111). `v` is bbolt memory that is valid only inside the read transaction, while the copy `nv` made at lines 104-105 is never used. Whether a receiver sees a stale or reused buffer is not modelled.
- TableJoin.ResultOrderIndependent: requires the first row of both orders to be normalized. An undecodable or unnormalized first item is not covered; under the source's merger an undecodable one breaks order independence (see Findings).
- TableJoin.AsWrittenOrderIndependent: requires the first row of both orders to be normalized, as above; with an undecodable first item the source's merger is not order independent.
- TableJoin.MergeIdempotent: requires a normalized seed.
- TableJoin.AsWrittenMergeIdempotent: requires a normalized seed. From an undecodable seed the source's merger is not idempotent: a row adopted at the zero floor and merged again takes its own floor.
- Convergence.CorrectedConvergesAlways: covers a replica that starts from a normalized row. A replica that starts from no row is covered by `CorrectedConvergesFromNonRow`, which needs every submitted row normalized. A replica that starts from an unnormalized row is not covered.
- Table.AsWrittenAgreesOnRow: requires a decodable seed. From an undecodable one the corrected merger adopts the first row's floor and the source's does not, so the two differ.
- Bolt.Obtain: the model's item is an immutable value. In the source, `bkt.Get` returns bbolt memory that is valid only inside the `View` transaction (bolt.go:58-65), and callers use the item after it returns. Whether a caller sees a reused buffer is not modelled.
- Badger.Obtain: as for Bolt: `elem.Value()` returns Badger memory valid only inside the `View` transaction (badger.go:76-84), and the item is used after it returns. This is not modelled.
- SqlLog.Update: times are exact nanoseconds. Under PostgreSQL the `timestamp` column (sqllog.go:52) keeps microseconds, so two submits within one microsecond log equal `u_time`, and the strict `u_time > since` scan and the syncer's staleness check can then skip a write. This rounding is not modelled.
- The replicator interface definitions (`replicator.go`) are not part of this model. `LogEntry` and the time-vector entry stand in for them.

## Findings

| source | as written | input that shows it | evidently intended | confidence | as-written member | corrected member |
|---|---|---|---|---|---|---|
| datatypes/table.go:69 | Raising the row floor does not set `changed`, so a store that writes only on a change keeps the old floor | Stored row {floor 1, a@5}, then `Table_Delete` at 2, then a put of b@1: the replica keeps b, but the same two rows in the other order drop it | A floor raise counts as a change, so the store writes the merged row and replicas converge from a stored normalized row | high, not executed | Convergence.AsWrittenDiverges | Convergence.CorrectedConvergesAlways |
| datatypes/table.go:65-67 | A row merged onto a merger that holds no row is adopted without its floor, so the merger keeps the zero floor `Init` left | A key holding bytes that are not a row, then the rows {floor 5, a@7} and {floor 0, b@3}: one order stores {floor 0, a@7, b@3}, the other {floor 5, a@7} | The adopted row brings its floor (`t.dts = dts`), so the store holds the first row as it is and replicas converge from it | medium, not executed | Convergence.AdoptionDropsFloor | Convergence.CorrectedConvergesFromNonRow |
| backends/boltdb/bolt.go:104 | `ok = bkt.Put(key,item)!=nil` reports false when the put succeeds | Any valid key submitted into an open batch: the item is written and committed, but false is returned, so `SyncWith` does not advance its cursor | `== nil`, so success is reported as success | high, not executed | Syncer.BatchedPullKeepsCursor | Syncer.BatchedPullAdvancesCursor |
| backends/badger/badger.go:64 | After a lookup error other than "not found", the transaction returns nil, so `Submit` reports success without writing | A submit whose `txn.Get` fails: ok is true, but the key still reads as absent | Return the error, so a success always reads back | medium, not executed | Badger.LookupErrorReportedAsSuccess | Badger.SubmitThenObtain |

=== FILE: badger.dfy ===
/**
  The Badger-backed store (`Badger`): one read-modify-write transaction per
  submit. Unlike the Bolt store it merges with whatever value the key holds,
  an empty one included, and it tells a missing key apart from a failed
  lookup.
 */
module Badger {
  import opened Types
  import opened Items
  import Merger

  /**
    The faults a call may meet: `lookupFails` is an error of `txn.Get` other
    than "key not found", `valueFails` an error reading the value, and
    `commitFails` a failed commit of pending writes.
   */
  datatype Faults = Faults(lookupFails: bool, valueFails: bool, commitFails: bool)

  const NoFaults := Faults(false, false, false)

  /**
    `Badger.Submit`; `corrected` selects what a failed lookup returns: the
    source's `return nil` (false) or the error itself (true). A transaction
    with no pending writes commits without error.
   */
  function SubmitWith(p: Merger.Policy, db: map<Bytes, Item>, key: Bytes, item: Item, f: Faults, corrected: bool): (r: (map<Bytes, Item>, bool))
    ensures !r.1 ==> r.0 == db
    ensures forall k :: k != key ==> (k in r.0 <==> k in db) && (k in db ==> r.0[k] == db[k])
    ensures key !in db && !f.lookupFails ==> r == (if f.commitFails then (db, false) else (db[key := item], true))
    ensures key in db && !f.lookupFails && !f.valueFails && !f.commitFails ==>
      r == (db[key := Merger.WriteIfChanged(p, db[key], item)], true)
    ensures f.lookupFails ==> r == (db, !corrected)
  {
    if f.lookupFails then (db, !corrected)
    else if key !in db then
      if f.commitFails then (db, false) else (db[key := item], true)
    else if f.valueFails then (db, false)
    else
      var (m, ch) := Merger.MergePair(p, db[key], item);
      if !ch then
        assert db[key := db[key]] == db;
        (db, true)
      else if f.commitFails then (db, false)
      else (db[key := m], true)
  }

  /** The source's `Badger.Submit`: a failed lookup is reported as success. */
  function SubmitAsWritten(p: Merger.Policy, db: map<Bytes, Item>, key: Bytes, item: Item, f: Faults): (map<Bytes, Item>, bool)
  {
    SubmitWith(p, db, key, item, f, false)
  }

  /** `Badger.Submit` returning the lookup error: success means the key holds the absorbed value. */
  function Submit(p: Merger.Policy, db: map<Bytes, Item>, key: Bytes, item: Item, f: Faults): (r: (map<Bytes, Item>, bool))
    ensures r.1 ==> !f.lookupFails
    ensures r.1 ==> key in r.0 && r.0[key] == (if key in db then Merger.WriteIfChanged(p, db[key], item) else item)
  {
    SubmitWith(p, db, key, item, f, true)
  }

  /**
    `Badger.Obtain`: a missing key is readable but not found; a failed lookup
    is unreadable; a failed value read is readable but not ok. A stored empty
    value counts as found.
   */
  function Obtain(db: map<Bytes, Item>, key: Bytes, f: Faults): (r: Read)
    ensures r.readable <==> !f.lookupFails
    ensures r.ok <==> !f.lookupFails && key in db && !f.valueFails
    ensures r.ok ==> r.item == db[key]
    ensures !r.ok ==> r.item == Nil
  {
    if f.lookupFails then Read(Nil, false, false)
    else if key !in db then Read(Nil, false, true)
    else if f.valueFails then Read(Nil, false, true)
    else Read(db[key], true, true)
  }

  /**
    The source's submit reports success after a failed lookup although the
    item was never written: the key still reads as absent.
   */
  lemma LookupErrorReportedAsSuccess(p: Merger.Policy, key: Bytes, item: Item)
    ensures var (db', ok) := SubmitAsWritten(p, map[], key, item, Faults(true, false, false));
      ok && !Obtain(db', key, NoFaults).ok
  {
  }

  /** With the lookup error returned, a reported success is always readable back. */
  lemma SubmitThenObtain(p: Merger.Policy, db: map<Bytes, Item>, key: Bytes, item: Item, f: Faults)
    requires Submit(p, db, key, item, f).1
    ensures var r := Obtain(Submit(p, db, key, item, f).0, key, NoFaults);
      r.ok && r.item == (if key in db then Merger.WriteIfChanged(p, db[key], item) else item)
  {
  }

  /**
    Unlike Bolt, an empty stored value is merged rather than replaced: under
    last-write-wins an item without a timestamp never overwrites it.
   */
  lemma EmptyValueIsMerged(key: Bytes)
    ensures Submit(Merger.LastWriteWins, map[key := Nil], key, Opaque([7]), NoFaults).0[key] == Nil
  {
    Merger.MergeItemsIsFold(Merger.LastWriteWins, None, [Nil, Opaque([7])]);
    assert [Opaque([7])][..0] == [];
  }
}

=== FILE: bolt.dfy ===
/**
  The bbolt-backed store (`Bolt`, `BoltBatch`): every pair lives in the
  bucket `kvpairs`. A submit merges the incoming item with the stored one in
  a write transaction; a read reports whether the bucket exists at all; a
  batch keeps one write transaction open until `FinishBatch` commits it.
 */
module Bolt {
  import opened Types
  import opened Items
  import opened Buckets
  import Merger

  /** The pairs of `kvpairs`; None until a write transaction has created the bucket. */
  datatype Db = Db(pairs: Option<seq<Entry<Item>>>)

  ghost predicate Wf(db: Db)
  {
    db.pairs.Some? ==> WfBucket(db.pairs.value)
  }

  /** `bkt.Get(key)`: the stored value, or nil (the empty item) when the key is absent. */
  function Stored(es: seq<Entry<Item>>, key: Bytes): (v: Item)
    ensures v == (if key in View(es) then View(es)[key] else Nil)
  {
    match Get(es, key)
    case Some(v) => v
    case None => Nil
  }

  /** A key that holds a non-empty value was once accepted by `Put`. */
  lemma StoredKeyValid(es: seq<Entry<Item>>, key: Bytes)
    requires WfBucket(es)
    ensures !IsEmpty(Stored(es, key)) ==> ValidKey(key)
  {
    ViewKeys(es);
  }

  /**
    The write transaction of `Bolt.Submit` on the bucket `es` (created empty if
    missing): None when it returns an error and bbolt rolls it back.
   */
  function SubmitTx(p: Merger.Policy, es: seq<Entry<Item>>, key: Bytes, item: Item): (r: Option<seq<Entry<Item>>>)
    requires WfBucket(es)
    ensures r.Some? <==> ValidKey(key)
    ensures r.Some? ==> WfBucket(r.value)
    ensures r.Some? ==> View(r.value) == View(es)[key := Merger.Absorb(p, Stored(es, key), item)]
  {
    var v := Stored(es, key);
    if IsEmpty(v) then PutChecked(es, key, item)
    else
      StoredKeyValid(es, key);
      var (r, ch) := Merger.MergePair(p, v, item);
      if ch then PutChecked(es, key, r)
      else
        assert View(es)[key := v] == View(es);
        Some(es)
  }

  /**
    `Bolt.Submit`: `writable` is false when bbolt cannot run a write
    transaction at all (a read-only or failing database). On success only the
    submitted key changes, and it holds the stored value absorbed with the item.
   */
  function Submit(p: Merger.Policy, db: Db, key: Bytes, item: Item, writable: bool): (r: (Db, bool))
    requires Wf(db)
    ensures Wf(r.0)
    ensures r.1 <==> writable && ValidKey(key)
    ensures !r.1 ==> r.0 == db
    ensures r.1 ==> r.0.pairs.Some?
    ensures r.1 ==> Contents(r.0.pairs) == Contents(db.pairs)[key := Merger.Absorb(p, Stored(BucketOrEmpty(db), key), item)]
  {
    if !writable then (db, false)
    else
      var es := BucketOrEmpty(db);
      match SubmitTx(p, es, key, item)
      case None => (db, false)
      case Some(b) => (Db(Some(b)), true)
  }

  /** `CreateBucketIfNotExists`: the bucket, or a fresh empty one. */
  function BucketOrEmpty(db: Db): (es: seq<Entry<Item>>)
    requires Wf(db)
    ensures WfBucket(es) && View(es) == Contents(db.pairs)
  {
    match db.pairs
    case Some(es) => es
    case None => []
  }

  /**
    `Bolt.Obtain`: unreadable when the read transaction cannot begin (its error
    is dropped, `viewOk` false) or the bucket does not exist; otherwise the
    stored value, with `ok` saying whether it is non-empty.
   */
  function Obtain(db: Db, key: Bytes, viewOk: bool): (r: Read)
    ensures r.readable <==> viewOk && db.pairs.Some?
    ensures r.ok <==> r.readable && key in Contents(db.pairs) && !IsEmpty(Contents(db.pairs)[key])
    ensures r.item == (if viewOk && key in Contents(db.pairs) then Contents(db.pairs)[key] else Nil)
  {
    if !viewOk then Read(Nil, false, false)
    else match db.pairs
    case None => Read(Nil, false, false)
    case Some(es) =>
      var v := Stored(es, key);
      Read(v, !IsEmpty(v), true)
  }

  /**
    `Bolt.Stream`: walk the cursor from the first pair and stop at the end or at
    the first empty key. On a bucket bbolt built, every pair is visited once, in
    ascending key order. A read transaction that cannot begin (`viewOk`
    false) visits nothing, and its error is dropped.
   */
  method Stream(db: Db, viewOk: bool) returns (out: seq<Entry<Item>>)
    ensures !viewOk || db.pairs.None? ==> out == []
    ensures viewOk && db.pairs.Some? ==> |out| <= |db.pairs.value| && out == db.pairs.value[..|out|]
    ensures forall i :: 0 <= i < |out| ==> |out[i].key| != 0
    ensures viewOk && db.pairs.Some? && |out| < |db.pairs.value| ==> |db.pairs.value[|out|].key| == 0
    ensures viewOk && Wf(db) && db.pairs.Some? ==> out == db.pairs.value
  {
    out := [];
    if !viewOk || db.pairs.None? {
      return;
    }
    var es := db.pairs.value;
    var i := 0;
    while i < |es| && |es[i].key| != 0
      invariant 0 <= i <= |es|
      invariant out == es[..i]
      invariant forall j :: 0 <= j < i ==> |es[j].key| != 0
    {
      out := out + [es[i]];
      i := i + 1;
    }
    if i < |es| {
      assert !ValidKey(es[i].key);
    }
  }

  /**
    A facade the syncer may hold: the plain store, or a batch with its open
    write transaction's view of the bucket.
   */
  datatype Facade = Plain(db: Db) | Batch(db: Db, tx: Option<seq<Entry<Item>>>)

  ghost predicate WfFacade(f: Facade)
  {
    Wf(f.db) && (f.Batch? ==> Wf(Db(f.tx)))
  }

  /** `Bolt.StartBatch`: open a write transaction, or fall back to the plain store. */
  function StartBatch(db: Db, beginOk: bool): (f: Facade)
    requires Wf(db)
    ensures WfFacade(f)
    ensures f.db == db
    ensures f.Batch? <==> beginOk
    ensures f.Batch? ==> f.tx == db.pairs
  {
    if beginOk then Batch(db, db.pairs) else Plain(db)
  }

  /**
    `BoltBatch.Submit` inside the open transaction `tx`. `correct` selects the
    status: false gives the source's `Put(...) != nil`, true gives `== nil`.
    A merge that reports no change returns true without writing.
   */
  function BatchSubmitWith(p: Merger.Policy, tx: Option<seq<Entry<Item>>>, key: Bytes, item: Item, correct: bool): (r: (Option<seq<Entry<Item>>>, bool))
    requires Wf(Db(tx))
    ensures r.0.Some? && WfBucket(r.0.value)
    ensures ValidKey(key) ==> Contents(r.0) == Contents(tx)[key := Merger.Absorb(p, Stored(BucketOrEmpty(Db(tx)), key), item)]
    ensures !ValidKey(key) ==> Contents(r.0) == Contents(tx)
    ensures var v := Stored(BucketOrEmpty(Db(tx)), key);
      var kept := !IsEmpty(v) && !Merger.MergePair(p, v, item).1;
      r.1 <==> if correct then ValidKey(key) else !ValidKey(key) || kept
  {
    var es := BucketOrEmpty(Db(tx));
    var v := Stored(es, key);
    var (w, ch) := if IsEmpty(v) then (item, true) else Merger.MergePair(p, v, item);
    if !ch then
      StoredKeyValid(es, key);
      assert View(es)[key := v] == View(es);
      (Some(es), true)
    else
      match PutChecked(es, key, w)
      case Some(b) => (Some(b), correct)
      case None => (Some(es), !correct)
  }

  /** The source's `BoltBatch.Submit`: it reports the opposite of whether `Put` succeeded. */
  function BatchSubmitAsWritten(p: Merger.Policy, tx: Option<seq<Entry<Item>>>, key: Bytes, item: Item): (r: (Option<seq<Entry<Item>>>, bool))
    requires Wf(Db(tx))
  {
    BatchSubmitWith(p, tx, key, item, false)
  }

  /** `BoltBatch.Submit` with the status corrected: true iff the transaction holds the absorbed value. */
  function BatchSubmit(p: Merger.Policy, tx: Option<seq<Entry<Item>>>, key: Bytes, item: Item): (r: (Option<seq<Entry<Item>>>, bool))
    requires Wf(Db(tx))
    ensures r.1 <==> ValidKey(key)
    ensures r.1 ==> Contents(r.0) == Contents(tx)[key := Merger.Absorb(p, Stored(BucketOrEmpty(Db(tx)), key), item)]
  {
    StoredKeyValid(BucketOrEmpty(Db(tx)), key);
    BatchSubmitWith(p, tx, key, item, true)
  }

  /**
    Submitting through a facade: the plain store runs its own transaction, a
    batch writes into the open one. `fixed` selects the corrected batch status.
   */
  function FacadeSubmit(p: Merger.Policy, f: Facade, key: Bytes, item: Item, writable: bool, fixed: bool): (r: (Facade, bool))
    requires WfFacade(f)
    ensures WfFacade(r.0)
    ensures r.0.Batch? <==> f.Batch?
    ensures r.0.db == f.db || f.Plain?
  {
    match f
    case Plain(db) =>
      var (db', ok) := Submit(p, db, key, item, writable);
      (Plain(db'), ok)
    case Batch(db, tx) =>
      var (tx', ok) := BatchSubmitWith(p, tx, key, item, fixed);
      (Batch(db, tx'), ok)
  }

  /**
    `finishBatch`: a batch commits its transaction (or, when `commitOk` is
    false, rolls it back and reports the error); the plain store has nothing to
    finish. Returns the store and whether there was no error.
   */
  function FinishBatch(f: Facade, commitOk: bool): (r: (Db, bool))
    requires WfFacade(f)
    ensures Wf(r.0)
    ensures f.Plain? ==> r == (f.db, true)
    ensures f.Batch? && commitOk ==> r == (Db(f.tx), true)
    ensures f.Batch? && !commitOk ==> r == (f.db, false)
  {
    match f
    case Plain(db) => (db, true)
    case Batch(db, tx) => if commitOk then (Db(tx), true) else (db, false)
  }

  /** A submit that succeeds and is read back returns what the key now holds. */
  lemma SubmitThenObtain(p: Merger.Policy, db: Db, key: Bytes, item: Item)
    requires Wf(db) && ValidKey(key)
    ensures var (db', ok) := Submit(p, db, key, item, true);
      var v := Merger.Absorb(p, Stored(BucketOrEmpty(db), key), item);
      ok && Obtain(db', key, true) == Read(v, !IsEmpty(v), true)
  {
  }

  /** Submitting onto an absent key stores the item exactly as given. */
  lemma SubmitOntoAbsent(p: Merger.Policy, db: Db, key: Bytes, item: Item)
    requires Wf(db) && ValidKey(key) && key !in Contents(db.pairs)
    ensures Obtain(Submit(p, db, key, item, true).0, key, true).item == item
  {
  }

  /** Other keys read the same before and after a submit, successful or not. */
  lemma SubmitLeavesOtherKeys(p: Merger.Policy, db: Db, key: Bytes, item: Item, writable: bool, other: Bytes, viewOk: bool)
    requires Wf(db) && other != key
    ensures Obtain(Submit(p, db, key, item, writable).0, other, viewOk).item == Obtain(db, other, viewOk).item
  {
  }

  /**
    The inverted status of `BoltBatch.Submit`: a valid key written into an
    open batch reports false although the transaction now holds the item.
   */
  lemma BatchStatusInverted(p: Merger.Policy, key: Bytes, item: Item)
    requires ValidKey(key)
    ensures var (tx', ok) := BatchSubmitAsWritten(p, Some([]), key, item);
      !ok && Contents(tx') == map[key := item]
  {
    assert View<Item>([]) == map[];
  }
}

=== FILE: boltlog.dfy ===
/**
  The Bolt update log (`BoltLocalUpdateLog`): two buckets in one database.
  The table maps each key to the encoded time of its latest local write; the
  index maps `makeKey2(time, key)` back to the key, so walking the index in
  key order walks the log in time order.
 */
module BoltLog {
  import opened Types
  import opened Items
  import opened Buckets
  import opened Tsf

  /** The two buckets; each is None until the first `Update` creates it. */
  datatype Log = Log(table: Option<seq<Entry<Item>>>, index: Option<seq<Entry<Bytes>>>)

  ghost predicate Wf(log: Log)
  {
    && (log.table.Some? ==> WfBucket(log.table.value))
    && (log.index.Some? ==> WfBucket(log.index.value))
  }

  /**
    The table/index pair agrees: every logged key holds a decodable time and
    has an index entry under that time pointing back to it, and every index
    entry is the entry of its key's current time. So each key has exactly one
    index entry.
   */
  ghost predicate Consistent(t: map<Bytes, Item>, ix: map<Bytes, Bytes>)
  {
    && (forall k :: k in t ==> DecodeTime(t[k]).Some?)
    && (forall k :: k in t ==> MakeKey2(TimeOrZero(t[k]), k) in ix && ix[MakeKey2(TimeOrZero(t[k]), k)] == k)
    && (forall ik :: ik in ix ==> ix[ik] in t && ik == MakeKey2(TimeOrZero(t[ix[ik]]), ix[ik]))
  }

  ghost predicate Good(log: Log)
  {
    Wf(log) && Consistent(Contents(log.table), Contents(log.index))
  }

  const Empty: Log := Log(None, None)

  lemma EmptyIsGood()
    ensures Good(Empty)
  {
  }

  /** The time a table value decodes to, if any; a missing key reads as nil. */
  function LoggedTime(table: Option<seq<Entry<Item>>>, key: Bytes): (r: Option<Time>)
    ensures r.Some? ==> table.Some? && key in Contents(table) && r == DecodeTime(Contents(table)[key])
    ensures table.Some? && key in Contents(table) ==> r == DecodeTime(Contents(table)[key])
  {
    match table
    case None => None
    case Some(es) =>
      match Get(es, key)
      case Some(v) => DecodeTime(v)
      case None => None
  }

  /**
    `Query`: `exist` says whether the table holds a decodable time for the key;
    when it does, `change` is that time, otherwise `change` is left as given.
    A read transaction that cannot begin (`viewFails`) returns its error and
    leaves the entry exactly as given.
   */
  function Query(log: Log, q: LogEntry, viewFails: bool): (r: (LogEntry, bool))
    ensures r.1 <==> viewFails
    ensures viewFails ==> r.0 == q
    ensures r.0.key == q.key
    ensures !viewFails ==> (r.0.exist <==> LoggedTime(log.table, q.key).Some?)
    ensures !viewFails && r.0.exist ==> r.0.change == LoggedTime(log.table, q.key).value
    ensures !viewFails && !r.0.exist ==> r.0.change == q.change
  {
    if viewFails then (q, true)
    else match LoggedTime(log.table, q.key)
    case Some(t) => (q.(change := t, exist := true), false)
    case None => (q.(exist := false), false)
  }

  /** The maps an `Update` of `key` to `change` leaves behind, when it succeeds. */
  ghost function UpdatedTable(t: map<Bytes, Item>, key: Bytes, change: Time): map<Bytes, Item>
  {
    t[key := EncodeTime(change)]
  }

  ghost function UpdatedIndex(t: map<Bytes, Item>, ix: map<Bytes, Bytes>, key: Bytes, change: Time): map<Bytes, Bytes>
  {
    var stale := if key in t && DecodeTime(t[key]).Some? then ix - {MakeKey2(TimeOrZero(t[key]), key)} else ix;
    stale[MakeKey2(change, key) := key]
  }

  /** The result of `Update`: the buckets, the entry handed back, and whether no error occurred. */
  datatype Updated = Updated(log: Log, entry: LogEntry, ok: bool)

  /**
    `Update`, one batched write transaction: drop the index entry of the key's
    old time, index the new time, then store the new time in the table. Any
    refused `Put` rolls the whole transaction back. `writable` is false when
    the database cannot run the transaction. Only on success is `exist` set.
   */
  function Update(log: Log, q: LogEntry, writable: bool): (r: Updated)
    requires Wf(log)
    ensures Wf(r.log)
    ensures r.ok <==> writable && ValidKey(q.key) && ValidKey(MakeKey2(q.change, q.key))
    ensures !r.ok ==> r.log == log && r.entry == q
    ensures r.ok ==> r.entry == q.(exist := true)
    ensures r.ok ==> Contents(r.log.table) == UpdatedTable(Contents(log.table), q.key, q.change)
    ensures r.ok ==> Contents(r.log.index) == UpdatedIndex(Contents(log.table), Contents(log.index), q.key, q.change)
  {
    if !writable then Updated(log, q, false)
    else
      var t := match log.table case Some(es) => es case None => [];
      var ix := match log.index case Some(es) => es case None => [];
      var ix1 := match LoggedTime(log.table, q.key)
        case Some(prev) => DeleteChecked(ix, MakeKey2(prev, q.key))
        case None => ix;
      match PutChecked(ix1, MakeKey2(q.change, q.key), q.key)
      case None => Updated(log, q, false)
      case Some(ix2) =>
        match PutChecked(t, q.key, EncodeTime(q.change))
        case None => Updated(log, q, false)
        case Some(t2) => Updated(Log(Some(t2), Some(ix2)), q.(exist := true), true)
  }

  /** `Update` keeps the table and the index in agreement. */
  lemma UpdatePreservesConsistency(t: map<Bytes, Item>, ix: map<Bytes, Bytes>, key: Bytes, change: Time)
    requires Consistent(t, ix)
    ensures Consistent(UpdatedTable(t, key, change), UpdatedIndex(t, ix, key, change))
  {
    var t', ix' := UpdatedTable(t, key, change), UpdatedIndex(t, ix, key, change);
    var added := MakeKey2(change, key);
    assert TimeOrZero(t'[key]) == change;
    forall k | k in t'
      ensures MakeKey2(TimeOrZero(t'[k]), k) in ix' && ix'[MakeKey2(TimeOrZero(t'[k]), k)] == k
    {
      if k != key {
        var ik := MakeKey2(TimeOrZero(t[k]), k);
        assert ik in ix && ix[ik] == k;
        if key in t {
          if ik == MakeKey2(TimeOrZero(t[key]), key) {
            MakeKey2Injective(TimeOrZero(t[k]), k, TimeOrZero(t[key]), key);
          }
        }
        if ik == added {
          MakeKey2Injective(TimeOrZero(t[k]), k, change, key);
        }
      }
    }
    forall ik | ik in ix'
      ensures ix'[ik] in t' && ik == MakeKey2(TimeOrZero(t'[ix'[ik]]), ix'[ik])
    {
      if ik != added {
        assert ik in ix;
        var k := ix[ik];
        assert ix'[ik] == k;
      }
    }
  }

  /** A successful `Update` of a good log leaves a good log that holds the new time. */
  lemma UpdateKeepsGood(log: Log, q: LogEntry, writable: bool)
    requires Good(log)
    ensures var r := Update(log, q, writable);
      && Good(r.log)
      && (r.ok ==> Query(r.log, LogEntry(q.key, 0, false), false) == (LogEntry(q.key, q.change, true), false))
  {
    var r := Update(log, q, writable);
    if r.ok {
      UpdatePreservesConsistency(Contents(log.table), Contents(log.index), q.key, q.change);
    }
  }

  /** Every index key is long enough to hold a time prefix (shorter ones would make the scan panic). */
  ghost predicate PrefixedKeys(es: seq<Entry<Bytes>>)
  {
    forall i :: 0 <= i < |es| ==> |es[i].key| >= Width
  }

  /**
    One index entry as the scan reports it: the time parsed from the key's
    prefix, or, when that fails, the key's time in the table; None (skipped)
    when neither is available.
   */
  function Emit(table: Option<seq<Entry<Item>>>, e: Entry<Bytes>): (r: Option<LogEntry>)
    requires |e.key| >= Width
    ensures r.Some? ==> r.value.key == e.value && r.value.exist
  {
    match Parse(e.key[..Width])
    case Some(t) => Some(LogEntry(e.value, t, true))
    case None =>
      match LoggedTime(table, e.value)
      case Some(t) => Some(LogEntry(e.value, t, true))
      case None => None
  }

  /** The cursor loop from a position on: stop at the end or at an empty key. */
  function Scan(table: Option<seq<Entry<Item>>>, es: seq<Entry<Bytes>>): seq<LogEntry>
    requires PrefixedKeys(es)
  {
    if |es| == 0 || |es[0].key| == 0 then []
    else
      var rest := Scan(table, es[1..]);
      match Emit(table, es[0])
      case Some(e) => [e] + rest
      case None => rest
  }

  /**
    `ReadAllAsync(since, ...)`: seek the index to the rendered `since`, then
    scan. No index yet means nothing to send. The channel becomes a sequence.
   */
  function ReadAllAsync(log: Log, since: Time): seq<LogEntry>
    requires log.index.Some? ==> PrefixedKeys(log.index.value)
    requires Wf(log)
  {
    match log.index
    case None => []
    case Some(es) =>
      var start := Seek(es, Format(since));
      assert PrefixedKeys(es[start..]) by {
        forall i | 0 <= i < |es[start..]| ensures |es[start..][i].key| >= Width {
          assert es[start..][i] == es[start + i];
        }
      }
      Scan(log.table, es[start..])
  }

  /** Every time the table holds fits the 24-byte layout. */
  ghost predicate TimesInRange(t: map<Bytes, Item>)
  {
    forall k :: k in t ==> InRange(TimeOrZero(t[k]))
  }

  /** In a good log every index key starts with a rendered time. */
  lemma GoodIndexPrefixed(log: Log)
    requires Good(log) && log.index.Some?
    ensures PrefixedKeys(log.index.value)
  {
    var es := log.index.value;
    forall i | 0 <= i < |es|
      ensures |es[i].key| >= Width
    {
      ViewKeys(es);
      var ix := Contents(log.index);
      assert es[i].key in ix;
      var k := ix[es[i].key];
      assert es[i].key == MakeKey2(TimeOrZero(Contents(log.table)[k]), k);
    }
  }

  /** What a good log's index entry at position `i` says: its key and the key's time. */
  lemma IndexEntryAt(log: Log, i: int)
    requires Good(log) && log.index.Some? && 0 <= i < |log.index.value|
    ensures var e := log.index.value[i];
      var t := Contents(log.table);
      && e.value in t
      && e.key == MakeKey2(TimeOrZero(t[e.value]), e.value)
  {
    ViewAt(log.index.value, i);
  }

  /** With in-range times, each index entry of a good log is reported with its table time. */
  lemma EmitGood(log: Log, i: int)
    requires Good(log) && TimesInRange(Contents(log.table)) && log.index.Some? && 0 <= i < |log.index.value|
    ensures |log.index.value[i].key| >= Width
    ensures log.index.value[i].value in Contents(log.table)
    ensures var e := log.index.value[i];
      Emit(log.table, e) == Some(LogEntry(e.value, TimeOrZero(Contents(log.table)[e.value]), true))
  {
    IndexEntryAt(log, i);
    var e := log.index.value[i];
    ParseFormat(TimeOrZero(Contents(log.table)[e.value]));
  }

  /** Over entries that all emit and have non-empty keys, the scan emits each in turn. */
  lemma {:induction false} ScanEach(table: Option<seq<Entry<Item>>>, es: seq<Entry<Bytes>>)
    requires PrefixedKeys(es)
    requires forall i :: 0 <= i < |es| ==> Emit(table, es[i]).Some?
    ensures |Scan(table, es)| == |es|
    ensures forall i :: 0 <= i < |es| ==> Scan(table, es)[i] == Emit(table, es[i]).value
    decreases |es|
  {
    if |es| > 0 {
      assert forall i :: 1 <= i < |es| ==> es[1..][i - 1] == es[i];
      ScanEach(table, es[1..]);
    }
  }

  /** The scan of a good log emits, position by position, the index entries from the seek on. */
  lemma ReadAllIsTail(log: Log, since: Time)
    requires Good(log) && TimesInRange(Contents(log.table)) && InRange(since) && log.index.Some?
    ensures PrefixedKeys(log.index.value)
    ensures var es := log.index.value;
      var start := Seek(es, Format(since));
      var out := ReadAllAsync(log, since);
      var t := Contents(log.table);
      && |out| == |es| - start
      && forall i :: 0 <= i < |out| ==>
           es[start + i].value in t && out[i] == LogEntry(es[start + i].value, TimeOrZero(t[es[start + i].value]), true)
           && TimeOrZero(t[es[start + i].value]) >= since
  {
    GoodIndexPrefixed(log);
    var es := log.index.value;
    var t := Contents(log.table);
    var start := Seek(es, Format(since));
    var tail := es[start..];
    forall i | 0 <= i < |tail|
      ensures tail[i].value in t
      ensures Emit(log.table, tail[i]) == Some(LogEntry(tail[i].value, TimeOrZero(t[tail[i].value]), true))
      ensures TimeOrZero(t[tail[i].value]) >= since
    {
      assert tail[i] == es[start + i];
      EmitGood(log, start + i);
      IndexEntryAt(log, start + i);
      MakeKey2AgainstPrefix(TimeOrZero(t[tail[i].value]), tail[i].value, since);
    }
    ScanEach(log.table, tail);
    assert ReadAllAsync(log, since) == Scan(log.table, tail);
  }

  /** Every key the scan reports is logged, at or after `since`, with its logged time. */
  lemma ReadAllSound(log: Log, since: Time)
    requires Good(log) && TimesInRange(Contents(log.table)) && InRange(since) && log.index.Some?
    ensures PrefixedKeys(log.index.value)
    ensures var out := ReadAllAsync(log, since);
      var t := Contents(log.table);
      forall i :: 0 <= i < |out| ==>
        out[i].exist && out[i].key in t && out[i].change == TimeOrZero(t[out[i].key]) && out[i].change >= since
  {
    ReadAllIsTail(log, since);
  }

  /** Every key logged at or after `since` is reported. */
  lemma ReadAllComplete(log: Log, since: Time)
    requires Good(log) && TimesInRange(Contents(log.table)) && InRange(since) && log.index.Some?
    ensures PrefixedKeys(log.index.value)
    ensures var out := ReadAllAsync(log, since);
      var t := Contents(log.table);
      forall k :: k in t && TimeOrZero(t[k]) >= since ==> exists i :: 0 <= i < |out| && out[i].key == k
  {
    ReadAllIsTail(log, since);
    var es := log.index.value;
    var t := Contents(log.table);
    var start := Seek(es, Format(since));
    var out := ReadAllAsync(log, since);
    forall k | k in t && TimeOrZero(t[k]) >= since
      ensures exists i :: 0 <= i < |out| && out[i].key == k
    {
      var p := IndexPositionOf(log, k);
      MakeKey2AgainstPrefix(TimeOrZero(t[k]), k, since);
      assert p >= start;
      assert out[p - start].key == es[p].value;
    }
  }

  /** Where a logged key sits in a good log's index. */
  lemma IndexPositionOf(log: Log, k: Bytes) returns (p: int)
    requires Good(log) && log.index.Some? && k in Contents(log.table)
    ensures 0 <= p < |log.index.value|
    ensures log.index.value[p].key == MakeKey2(TimeOrZero(Contents(log.table)[k]), k)
    ensures log.index.value[p].value == k
  {
    var es := log.index.value;
    var ik := MakeKey2(TimeOrZero(Contents(log.table)[k]), k);
    assert ik in View(es);
    ViewKeys(es);
    p :| 0 <= p < |es| && es[p].key == ik;
    ViewAt(es, p);
  }

  /** The scan reports in ascending time order, and no key twice. */
  lemma ReadAllOrdered(log: Log, since: Time)
    requires Good(log) && TimesInRange(Contents(log.table)) && InRange(since) && log.index.Some?
    ensures PrefixedKeys(log.index.value)
    ensures var out := ReadAllAsync(log, since);
      forall i, j :: 0 <= i < j < |out| ==> out[i].change <= out[j].change && out[i].key != out[j].key
  {
    ReadAllIsTail(log, since);
    var es := log.index.value;
    var t := Contents(log.table);
    var start := Seek(es, Format(since));
    var out := ReadAllAsync(log, since);
    forall i, j | 0 <= i < j < |out|
      ensures out[i].change <= out[j].change && out[i].key != out[j].key
    {
      var a, b := start + i, start + j;
      IndexEntryAt(log, a);
      IndexEntryAt(log, b);
      var ta, tb := TimeOrZero(t[es[a].value]), TimeOrZero(t[es[b].value]);
      assert Less(es[a].key, es[b].key);
      if tb < ta {
        MakeKey2Order(tb, es[b].value, ta, es[a].value);
        LessAsymmetric(es[b].key, es[a].key);
      }
      if es[a].value == es[b].value {
        SortedKeysUnique(es, a, b);
      }
    }
  }
}

=== FILE: bucket.dfy ===
/**
  A bbolt bucket as the stores use it: key/value entries kept in ascending
  order of their keys under `bytes.Compare`, with point lookups, writes,
  deletes and the cursor's `Seek`. Entries are a sorted association list; its
  `View` is the map from keys to values the bucket holds.
 */
module Buckets {
  import opened Types

  /** `bytes.Compare(a, b) < 0`: lexicographic order, a proper prefix first. */
  predicate Less(a: Bytes, b: Bytes)
    decreases |a|
  {
    if |a| == 0 then |b| > 0
    else if |b| == 0 then false
    else if a[0] != b[0] then a[0] < b[0]
    else Less(a[1..], b[1..])
  }

  lemma {:induction false} LessIrreflexive(a: Bytes)
    ensures !Less(a, a)
    decreases |a|
  {
    if |a| > 0 {
      LessIrreflexive(a[1..]);
    }
  }

  lemma {:induction false} LessAsymmetric(a: Bytes, b: Bytes)
    ensures Less(a, b) ==> !Less(b, a)
    decreases |a|
  {
    if |a| > 0 && |b| > 0 && a[0] == b[0] {
      LessAsymmetric(a[1..], b[1..]);
    }
  }

  lemma {:induction false} LessTransitive(a: Bytes, b: Bytes, c: Bytes)
    requires Less(a, b) && Less(b, c)
    ensures Less(a, c)
    decreases |a|
  {
    if |a| > 0 && a[0] == b[0] && b[0] == c[0] {
      LessTransitive(a[1..], b[1..], c[1..]);
    }
  }

  lemma {:induction false} LessTotal(a: Bytes, b: Bytes)
    ensures a == b || Less(a, b) || Less(b, a)
    decreases |a|
  {
    if |a| > 0 && |b| > 0 && a[0] == b[0] {
      LessTotal(a[1..], b[1..]);
      if a[1..] == b[1..] {
        assert a == [a[0]] + a[1..] && b == [b[0]] + b[1..];
      }
    }
  }

  /** A common prefix does not change the order of two keys. */
  lemma {:induction false} LessCommonPrefix(p: Bytes, a: Bytes, b: Bytes)
    ensures Less(p + a, p + b) <==> Less(a, b)
    decreases |p|
  {
    if |p| > 0 {
      assert (p + a)[1..] == p[1..] + a;
      assert (p + b)[1..] == p[1..] + b;
      LessCommonPrefix(p[1..], a, b);
    } else {
      assert p + a == a && p + b == b;
    }
  }

  /** Two keys with ordered prefixes of one length are ordered whatever follows. */
  lemma {:induction false} LessPrefixDecides(p: Bytes, q: Bytes, a: Bytes, b: Bytes)
    requires |p| == |q| && Less(p, q)
    ensures Less(p + a, q + b)
    decreases |p|
  {
    if p[0] == q[0] {
      assert (p + a)[1..] == p[1..] + a;
      assert (q + b)[1..] == q[1..] + b;
      LessPrefixDecides(p[1..], q[1..], a, b);
    }
  }

  datatype Entry<V> = Entry(key: Bytes, value: V)

  /** bbolt's `MaxKeySize`: longer keys, and empty ones, are refused by `Put`. */
  const MaxKeySize: nat := 32768

  predicate ValidKey(k: Bytes)
  {
    0 < |k| <= MaxKeySize
  }

  /** Keys strictly ascending: the order a bbolt cursor walks a bucket in. */
  ghost predicate Sorted<V>(es: seq<Entry<V>>)
  {
    forall i, j :: 0 <= i < j < |es| ==> Less(es[i].key, es[j].key)
  }

  /** The bucket's contents as a map; the first entry of a key wins. */
  function View<V>(es: seq<Entry<V>>): (m: map<Bytes, V>)
    decreases |es|
  {
    if |es| == 0 then map[]
    else View(es[1..])[es[0].key := es[0].value]
  }

  /** The map's keys are exactly the entries' keys. */
  lemma {:induction false} ViewKeys<V>(es: seq<Entry<V>>)
    ensures forall i :: 0 <= i < |es| ==> es[i].key in View(es)
    ensures forall k :: k in View(es) ==> exists i :: 0 <= i < |es| && es[i].key == k
    decreases |es|
  {
    if |es| > 0 {
      ViewKeys(es[1..]);
      assert forall i :: 1 <= i < |es| ==> es[i] == es[1..][i - 1];
      forall k | k in View(es)
        ensures exists i :: 0 <= i < |es| && es[i].key == k
      {
        if k != es[0].key {
          var j :| 0 <= j < |es[1..]| && es[1..][j].key == k;
          assert es[j + 1].key == k;
        }
      }
    }
  }

  /** The map a bucket holds; a bucket not yet created holds nothing. */
  function Contents<V>(b: Option<seq<Entry<V>>>): map<Bytes, V>
  {
    match b
    case Some(es) => View(es)
    case None => map[]
  }

  /** `bkt.Get(key)`: the value under the key, if any. */
  function Get<V>(es: seq<Entry<V>>, k: Bytes): (r: Option<V>)
    ensures r == (if k in View(es) then Some(View(es)[k]) else None)
    decreases |es|
  {
    if |es| == 0 then None
    else if es[0].key == k then Some(es[0].value)
    else Get(es[1..], k)
  }

  /** `bkt.Put(key, value)` on a valid key: insert in key order, or overwrite in place. */
  function Put<V>(es: seq<Entry<V>>, k: Bytes, v: V): (r: seq<Entry<V>>)
    ensures |r| > 0
    decreases |es|
  {
    if |es| == 0 then [Entry(k, v)]
    else if es[0].key == k then [Entry(k, v)] + es[1..]
    else if Less(k, es[0].key) then [Entry(k, v)] + es
    else [es[0]] + Put(es[1..], k, v)
  }

  /** Every entry of `r` is an entry of `es` or carries key `k`. */
  ghost predicate FromOrKey<V>(r: seq<Entry<V>>, es: seq<Entry<V>>, k: Bytes)
  {
    forall i :: 0 <= i < |r| ==> r[i].key == k || r[i] in es
  }

  /** Every key of `es` lies strictly above `lo`. */
  ghost predicate Above<V>(es: seq<Entry<V>>, lo: Bytes)
  {
    forall i :: 0 <= i < |es| ==> Less(lo, es[i].key)
  }

  lemma SortedCons<V>(e: Entry<V>, es: seq<Entry<V>>)
    requires Sorted(es) && Above(es, e.key)
    ensures Sorted([e] + es)
  {
    assert forall i :: 1 <= i < |[e] + es| ==> ([e] + es)[i] == es[i - 1];
  }

  lemma SortedTail<V>(es: seq<Entry<V>>)
    requires Sorted(es) && |es| > 0
    ensures Sorted(es[1..]) && Above(es[1..], es[0].key)
  {
    assert forall i :: 0 <= i < |es[1..]| ==> es[1..][i] == es[i + 1];
  }

  /** A bucket of entries from a list above `lo`, or under a key above `lo`, stays above `lo`. */
  lemma AboveFrom<V>(r: seq<Entry<V>>, es: seq<Entry<V>>, k: Bytes, lo: Bytes)
    requires FromOrKey(r, es, k) && Above(es, lo) && Less(lo, k)
    ensures Above(r, lo)
  {
    forall i | 0 <= i < |r|
      ensures Less(lo, r[i].key)
    {
      if r[i].key != k {
        var j :| 0 <= j < |es| && es[j] == r[i];
      }
    }
  }

  lemma {:induction false} PutSorted<V>(es: seq<Entry<V>>, k: Bytes, v: V)
    requires Sorted(es)
    ensures Sorted(Put(es, k, v))
    ensures FromOrKey(Put(es, k, v), es, k)
    decreases |es|
  {
    if |es| == 0 {
    } else if es[0].key == k {
      SortedTail(es);
      SortedCons(Entry(k, v), es[1..]);
      assert forall i :: 1 <= i < |es| ==> es[1..][i - 1] == es[i];
    } else if Less(k, es[0].key) {
      forall i | 0 <= i < |es|
        ensures Less(k, es[i].key)
      {
        if i > 0 {
          LessTransitive(k, es[0].key, es[i].key);
        }
      }
      SortedCons(Entry(k, v), es);
    } else {
      LessTotal(k, es[0].key);
      SortedTail(es);
      PutSorted(es[1..], k, v);
      var tail := Put(es[1..], k, v);
      AboveFrom(tail, es[1..], k, es[0].key);
      SortedCons(es[0], tail);
      forall i | 0 <= i < |tail| && tail[i].key != k
        ensures tail[i] in es
      {
        var j :| 0 <= j < |es[1..]| && es[1..][j] == tail[i];
        assert es[j + 1] == tail[i];
      }
      var r := [es[0]] + tail;
      forall i | 0 <= i < |r|
        ensures r[i].key == k || r[i] in es
      {
        if i > 0 {
          assert r[i] == tail[i - 1];
        }
      }
    }
  }

  lemma {:induction false} PutView<V>(es: seq<Entry<V>>, k: Bytes, v: V)
    ensures View(Put(es, k, v)) == View(es)[k := v]
    decreases |es|
  {
    if |es| == 0 {
    } else if es[0].key == k {
      assert ([Entry(k, v)] + es[1..])[1..] == es[1..];
    } else if Less(k, es[0].key) {
      assert ([Entry(k, v)] + es)[1..] == es;
    } else {
      var tail := Put(es[1..], k, v);
      assert ([es[0]] + tail)[1..] == tail;
      PutView(es[1..], k, v);
      var m := View(es[1..]);
      assert View(es) == m[es[0].key := es[0].value];
      assert View(Put(es, k, v)) == m[k := v][es[0].key := es[0].value];
    }
  }

  /** `bkt.Delete(key)`: drop the key's entry; deleting a missing key is not an error. */
  function Delete<V>(es: seq<Entry<V>>, k: Bytes): (r: seq<Entry<V>>)
    ensures |r| <= |es|
    decreases |es|
  {
    if |es| == 0 then []
    else if es[0].key == k then Delete(es[1..], k)
    else [es[0]] + Delete(es[1..], k)
  }

  lemma {:induction false} DeleteSorted<V>(es: seq<Entry<V>>, k: Bytes)
    requires Sorted(es)
    ensures Sorted(Delete(es, k))
    ensures forall i :: 0 <= i < |Delete(es, k)| ==> Delete(es, k)[i] in es
    decreases |es|
  {
    if |es| > 0 {
      SortedTail(es);
      DeleteSorted(es[1..], k);
      var tail := Delete(es[1..], k);
      forall i | 0 <= i < |tail|
        ensures tail[i] in es
      {
        var j :| 0 <= j < |es[1..]| && es[1..][j] == tail[i];
        assert es[j + 1] == tail[i];
      }
      if es[0].key != k {
        LessIrreflexive(es[0].key);
        assert FromOrKey(tail, es[1..], k);
        forall i | 0 <= i < |tail|
          ensures Less(es[0].key, tail[i].key)
        {
          var j :| 0 <= j < |es[1..]| && es[1..][j] == tail[i];
        }
        SortedCons(es[0], tail);
        assert forall i :: 1 <= i < |[es[0]] + tail| ==> ([es[0]] + tail)[i] == tail[i - 1];
      }
    }
  }

  lemma {:induction false} DeleteView<V>(es: seq<Entry<V>>, k: Bytes)
    ensures View(Delete(es, k)) == View(es) - {k}
    decreases |es|
  {
    if |es| > 0 {
      DeleteView(es[1..], k);
      var m := View(es[1..]);
      assert View(es) == m[es[0].key := es[0].value];
      if es[0].key != k {
        var tail := Delete(es[1..], k);
        assert ([es[0]] + tail)[1..] == tail;
        assert View(Delete(es, k)) == (m - {k})[es[0].key := es[0].value];
      }
    }
  }

  /**
    `cursor.Seek(key)`: the position of the first entry whose key is not below
    `k`; the entries from there on are the ones a scan from `k` visits.
   */
  function Seek<V>(es: seq<Entry<V>>, k: Bytes): (i: nat)
    requires Sorted(es)
    ensures i <= |es|
    ensures forall j :: 0 <= j < i ==> Less(es[j].key, k)
    ensures forall j :: i <= j < |es| ==> !Less(es[j].key, k)
    decreases |es|
  {
    if |es| == 0 then 0
    else if !Less(es[0].key, k) then
      forall j | 1 <= j < |es|
        ensures !Less(es[j].key, k)
      {
        LessTotal(es[0].key, k);
        if es[0].key != k {
          LessTransitive(k, es[0].key, es[j].key);
        }
        LessAsymmetric(k, es[j].key);
      }
      0
    else
      var i := Seek(es[1..], k);
      assert forall j :: 1 <= j < |es| ==> es[j] == es[1..][j - 1];
      i + 1
  }

  /** In a sorted bucket each key has exactly one entry. */
  lemma SortedKeysUnique<V>(es: seq<Entry<V>>, i: int, j: int)
    requires Sorted(es) && 0 <= i < |es| && 0 <= j < |es| && es[i].key == es[j].key
    ensures i == j
  {
    if i != j {
      LessIrreflexive(es[i].key);
    }
  }

  /** In a sorted bucket the map holds every entry's own value. */
  lemma {:induction false} ViewAt<V>(es: seq<Entry<V>>, i: int)
    requires Sorted(es) && 0 <= i < |es|
    ensures es[i].key in View(es) && View(es)[es[i].key] == es[i].value
    decreases |es|
  {
    if i > 0 {
      assert es[1..][i - 1] == es[i];
      ViewAt(es[1..], i - 1);
      assert Less(es[0].key, es[i].key);
      LessIrreflexive(es[0].key);
    }
  }

  /** A bucket bbolt itself could have built: sorted, every key one `Put` accepts. */
  ghost predicate WfBucket<V>(es: seq<Entry<V>>)
  {
    Sorted(es) && forall i :: 0 <= i < |es| ==> ValidKey(es[i].key)
  }

  /** `bkt.Put` with bbolt's key check: None (an error, nothing written) on a refused key. */
  function PutChecked<V>(es: seq<Entry<V>>, key: Bytes, v: V): (r: Option<seq<Entry<V>>>)
    requires WfBucket(es)
    ensures r.Some? <==> ValidKey(key)
    ensures r.Some? ==> WfBucket(r.value) && View(r.value) == View(es)[key := v]
  {
    if ValidKey(key) then
      PutSorted(es, key, v);
      PutView(es, key, v);
      var r := Put(es, key, v);
      assert forall i :: 0 <= i < |r| ==> ValidKey(r[i].key);
      Some(r)
    else None
  }

  /** `bkt.Delete` on a bucket bbolt built keeps it one. */
  function DeleteChecked<V>(es: seq<Entry<V>>, key: Bytes): (r: seq<Entry<V>>)
    requires WfBucket(es)
    ensures WfBucket(r) && View(r) == View(es) - {key}
  {
    DeleteSorted(es, key);
    DeleteView(es, key);
    Delete(es, key)
  }
}

=== FILE: convergence.dfy ===
/**
  What a store holds after a sequence of submits under a table merger. A
  store writes a merge result only when the merger reports a change. Under
  the source's merger a merge that raises the row floor but keeps the fields
  reports no change and is lost, and a row adopted onto a stored value that
  is not a row loses its floor; so two replicas that receive the same rows
  in different orders can disagree. Under the corrected merger every order
  ends in the same row.
 */
module Convergence {
  import opened Types
  import opened Items
  import Table
  import TableJoin
  import Merger

  /**
    The value a Bolt store holds under one key after the submits `items`,
    front to back, under policy `p`. It follows Bolt's rule, which replaces an
    empty stored value; Badger merges onto it instead, so the two agree only
    while the stored value is a row.
   */
  function Replay(p: Merger.Policy, stored: Item, items: seq<Item>): Item
    decreases |items|
  {
    if |items| == 0 then stored
    else Replay(p, Merger.Absorb(p, stored, items[0]), items[1..])
  }

  /**
    With the corrected merger a store keeps exactly the merge result of its
    stored row and the incoming item: no merge is lost.
   */
  lemma CorrectedStoreKeepsResult(stored: Item, incoming: Item)
    requires DecodeRow(stored).Some?
    ensures Merger.Absorb(Merger.CorrectedTableRows, stored, incoming) == Table.Result(Table.Fold(stored, [incoming]))
  {
    Merger.WriteIfChangedKeepsResult(Merger.CorrectedTableRows, stored, incoming);
    Merger.MergeItemsIsFold(Merger.CorrectedTableRows, None, [stored, incoming]);
    assert [stored, incoming][1..] == [incoming];
  }

  /** One submit of a row onto a stored row with the source's merger: written only when the fields change. */
  lemma AsWrittenRowStep(f0: Time, m0: map<string, Field>, f1: Time, m1: map<string, Field>)
    ensures var floor := TmMax(f0, f1);
      var m := Table.Combine(m0, m1, floor);
      Merger.Absorb(Merger.TableRows, Tabular(Row(f0, m0)), Tabular(Row(f1, m1))) == if m != m0 then Tabular(Row(floor, m)) else Tabular(Row(f0, m0))
  {
    var s, x := Tabular(Row(f0, m0)), Tabular(Row(f1, m1));
    Merger.MergeItemsIsFold(Merger.TableRows, None, [s, x]);
    assert [s, x][1..] == [x];
    assert [x][..0] == [];
    assert Table.FoldAsWritten(s, [x]) == Table.MergeAsWritten(Table.Init(s), x);
  }

  /** One corrected submit of a row onto a stored row: the merge result is always kept. */
  lemma CorrectedRowStep(f0: Time, m0: map<string, Field>, f1: Time, m1: map<string, Field>)
    ensures var floor := TmMax(f0, f1);
      Merger.Absorb(Merger.CorrectedTableRows, Tabular(Row(f0, m0)), Tabular(Row(f1, m1))) == Tabular(Row(floor, Table.Combine(m0, m1, floor)))
  {
    CorrectedStoreKeepsResult(Tabular(Row(f0, m0)), Tabular(Row(f1, m1)));
    assert [Tabular(Row(f1, m1))][..0] == [];
  }

  /** The field maps of the example below, merged under the floors it meets. */
  lemma ExampleFields(ma: map<string, Field>, mb: map<string, Field>, mab: map<string, Field>)
    requires ma == map["a" := Field(5, [])]
    requires mb == map["b" := Field(1, [])]
    requires mab == map["a" := Field(5, []), "b" := Field(1, [])]
    ensures Table.Combine(ma, map[], 2) == ma
    ensures Table.Combine(ma, mb, 1) == mab
    ensures Table.Combine(mab, map[], 2) == ma
    ensures Table.Combine(ma, mb, 2) == ma
  {
    assert "a" != "b";
    var c1 := Table.Combine(ma, map[], 2);
    assert c1.Keys == ma.Keys;
    var c2 := Table.Combine(ma, mb, 1);
    assert c2.Keys == mab.Keys;
    var c3 := Table.Combine(mab, map[], 2);
    assert c3.Keys == ma.Keys;
    var c4 := Table.Combine(ma, mb, 2);
    assert c4.Keys == ma.Keys;
  }

  /**
    A replica holding {floor 1, a@5} receives a delete at 2 and a put of b@1.
    With the source's merger the order decides the outcome: delete first
    loses the raised floor, so the older b survives; put first drops b.
   */
  lemma AsWrittenDiverges()
    ensures var s := Tabular(Row(1, map["a" := Field(5, [])]));
      var d := Table.Delete(2);
      var b := Tabular(Row(0, map["b" := Field(1, [])]));
      && Replay(Merger.TableRows, s, [d, b]) == Tabular(Row(1, map["a" := Field(5, []), "b" := Field(1, [])]))
      && Replay(Merger.TableRows, s, [b, d]) == Tabular(Row(2, map["a" := Field(5, [])]))
  {
    var ma, mb := map["a" := Field(5, [])], map["b" := Field(1, [])];
    var mab := map["a" := Field(5, []), "b" := Field(1, [])];
    ExampleFields(ma, mb, mab);
    var s, d, b := Tabular(Row(1, ma)), Table.Delete(2), Tabular(Row(0, mb));
    var sab := Tabular(Row(1, mab));
    AsWrittenRowStep(1, ma, 2, map[]);
    AsWrittenRowStep(1, ma, 0, mb);
    AsWrittenRowStep(1, mab, 2, map[]);
    assert "b" in mab && "b" !in ma;
    assert Replay(Merger.TableRows, s, [d, b]) == Replay(Merger.TableRows, s, [b]);
    assert Replay(Merger.TableRows, s, [b, d]) == Replay(Merger.TableRows, sab, [d]);
  }

  /**
    With the corrected merger, a store that starts from a row and takes the
    submits `items` one at a time ends holding the merger's fold of the
    whole list.
   */
  lemma {:induction false} CorrectedReplayIsFold(seed: Item, done: seq<Item>, items: seq<Item>)
    requires seed.Tabular?
    ensures Replay(Merger.CorrectedTableRows, Table.Result(Table.Fold(seed, done)), items) == Table.Result(Table.Fold(seed, done + items))
    decreases |items|
  {
    if |items| == 0 {
      assert done + items == done;
    } else {
      var x := items[0];
      var r := Table.Result(Table.Fold(seed, done));
      CorrectedStoreKeepsResult(r, x);
      Table.ResumeFromResult(seed, done, x);
      assert Merger.Absorb(Merger.CorrectedTableRows, r, x) == Table.Result(Table.Fold(seed, done + [x]));
      assert done + items == (done + [x]) + items[1..];
      CorrectedReplayIsFold(seed, done + [x], items[1..]);
    }
  }

  /**
    Convergence with the corrected merger: a replica holding a normalized row
    ends in the same row whatever order it receives the same submits in,
    provided no two rows hold different fields under one name and timestamp.
   */
  lemma CorrectedConvergesAlways(s: Item, xs: seq<Item>, ys: seq<Item>)
    requires TableJoin.Normalized(s) && multiset(xs) == multiset(ys)
    requires TableJoin.DistinctFieldStamps([s] + xs)
    ensures Replay(Merger.CorrectedTableRows, s, xs) == Replay(Merger.CorrectedTableRows, s, ys)
  {
    assert Table.Result(Table.Fold(s, [])) == s;
    CorrectedReplayIsFold(s, [], xs);
    CorrectedReplayIsFold(s, [], ys);
    assert [] + xs == xs && [] + ys == ys;
    var a, b := [s] + xs, [s] + ys;
    assert a[1..] == xs && b[1..] == ys;
    assert multiset(a) == multiset(b);
    TableJoin.ResultOrderIndependent(a, b);
  }

  /** The example above, with the corrected merger: both orders leave the replica at {floor 2, a@5}. */
  lemma CorrectedConverges()
    ensures var s := Tabular(Row(1, map["a" := Field(5, [])]));
      var d := Table.Delete(2);
      var b := Tabular(Row(0, map["b" := Field(1, [])]));
      && Replay(Merger.CorrectedTableRows, s, [d, b]) == Tabular(Row(2, map["a" := Field(5, [])]))
      && Replay(Merger.CorrectedTableRows, s, [b, d]) == Tabular(Row(2, map["a" := Field(5, [])]))
  {
    var ma, mb := map["a" := Field(5, [])], map["b" := Field(1, [])];
    var mab := map["a" := Field(5, []), "b" := Field(1, [])];
    ExampleFields(ma, mb, mab);
    var s, d, b := Tabular(Row(1, ma)), Table.Delete(2), Tabular(Row(0, mb));
    var sab, s2 := Tabular(Row(1, mab)), Tabular(Row(2, ma));
    CorrectedRowStep(1, ma, 2, map[]);
    CorrectedRowStep(1, ma, 0, mb);
    CorrectedRowStep(1, mab, 2, map[]);
    CorrectedRowStep(2, ma, 0, mb);
    assert Replay(Merger.CorrectedTableRows, s, [d, b]) == Replay(Merger.CorrectedTableRows, s2, [b]);
    assert Replay(Merger.CorrectedTableRows, s, [b, d]) == Replay(Merger.CorrectedTableRows, sab, [d]);
  }

  /**
    A row submitted onto a stored value that is not a row: the empty value is
    replaced, and any other is replaced by the row's fields, under the
    row's own floor when corrected and under the zero floor as written.
   */
  lemma AdoptStep(p: Merger.Policy, j: Item, f: Time, m: map<string, Field>)
    requires p != Merger.LastWriteWins && DecodeRow(j).None?
    ensures Merger.Absorb(p, j, Tabular(Row(f, m))) == Tabular(Row(if p == Merger.CorrectedTableRows || IsEmpty(j) then f else 0, m))
  {
    var x := Tabular(Row(f, m));
    if !IsEmpty(j) {
      Merger.MergeItemsIsFold(p, None, [j, x]);
      assert [j, x][1..] == [x];
      assert [x][..0] == [];
    }
  }

  /** The field maps of the example below, merged under the floors it meets. */
  lemma AdoptionFields(ma: map<string, Field>, mb: map<string, Field>, mab: map<string, Field>)
    requires ma == map["a" := Field(7, [1])]
    requires mb == map["b" := Field(3, [2])]
    requires mab == map["a" := Field(7, [1]), "b" := Field(3, [2])]
    ensures Table.Combine(ma, mb, 0) == mab
    ensures Table.Combine(mb, ma, 5) == ma
  {
    assert "a" != "b";
    var c1 := Table.Combine(ma, mb, 0);
    assert c1.Keys == mab.Keys;
    var c2 := Table.Combine(mb, ma, 5);
    assert c2.Keys == ma.Keys;
  }

  /**
    A replica holding bytes that are not a row receives {floor 5, a@7} and
    {floor 0, b@3}. With the source's merger the first row is adopted at
    floor zero, so b survives when it comes second and is dropped when it
    comes first.
   */
  lemma AdoptionDropsFloor()
    ensures var j := Opaque([9]);
      var r := Tabular(Row(5, map["a" := Field(7, [1])]));
      var b := Tabular(Row(0, map["b" := Field(3, [2])]));
      && Replay(Merger.TableRows, j, [r, b]) == Tabular(Row(0, map["a" := Field(7, [1]), "b" := Field(3, [2])]))
      && Replay(Merger.TableRows, j, [b, r]) == Tabular(Row(5, map["a" := Field(7, [1])]))
  {
    var ma, mb := map["a" := Field(7, [1])], map["b" := Field(3, [2])];
    var mab := map["a" := Field(7, [1]), "b" := Field(3, [2])];
    AdoptionFields(ma, mb, mab);
    var j, r, b := Opaque([9]), Tabular(Row(5, ma)), Tabular(Row(0, mb));
    var ja, jb := Tabular(Row(0, ma)), Tabular(Row(0, mb));
    AdoptStep(Merger.TableRows, j, 5, ma);
    AdoptStep(Merger.TableRows, j, 0, mb);
    AsWrittenRowStep(0, ma, 0, mb);
    AsWrittenRowStep(0, mb, 5, ma);
    assert "a" in mab && "a" !in mb;
    assert Replay(Merger.TableRows, j, [r, b]) == Replay(Merger.TableRows, ja, [b]);
    assert Replay(Merger.TableRows, j, [b, r]) == Replay(Merger.TableRows, jb, [r]);
  }

  /**
    With the corrected merger, a store holding no row (empty, or bytes that
    do not decode) adopts the first row as it is and then holds the fold of
    the rest onto it.
   */
  lemma CorrectedReplayFromNonRow(s: Item, xs: seq<Item>)
    requires DecodeRow(s).None? && |xs| > 0 && xs[0].Tabular?
    ensures Replay(Merger.CorrectedTableRows, s, xs) == Table.Result(Table.Fold(xs[0], xs[1..]))
  {
    AdoptStep(Merger.CorrectedTableRows, s, xs[0].row.dts, xs[0].row.fields);
    assert Table.Result(Table.Fold(xs[0], [])) == xs[0];
    CorrectedReplayIsFold(xs[0], [], xs[1..]);
    assert [] + xs[1..] == xs[1..];
  }

  /**
    Convergence with the corrected merger from a store holding no row, the
    empty store included: normalized rows with distinct field timestamps
    leave the replica in the same row whatever order they arrive in.
   */
  lemma CorrectedConvergesFromNonRow(s: Item, xs: seq<Item>, ys: seq<Item>)
    requires DecodeRow(s).None? && multiset(xs) == multiset(ys)
    requires forall x :: x in xs ==> TableJoin.Normalized(x)
    requires TableJoin.DistinctFieldStamps(xs)
    ensures Replay(Merger.CorrectedTableRows, s, xs) == Replay(Merger.CorrectedTableRows, s, ys)
  {
    TableJoin.SameRows(xs, ys);
    if |xs| > 0 {
      assert xs[0] in xs && ys[0] in ys;
      CorrectedReplayFromNonRow(s, xs);
      CorrectedReplayFromNonRow(s, ys);
      TableJoin.ResultOrderIndependent(xs, ys);
    }
  }
}

=== FILE: items.dfy ===
/**
  Items: the opaque values stored under keys, seen through the decoders the
  mergers apply to them. An item is a write and a record at the same time; the
  bytes themselves are not modelled, only what the msgpack decoders read.
 */
module Items {
  import opened Types

  /** One field of a table row: its own write time and an opaque value. */
  datatype Field = Field(ts: Time, value: Bytes)

  /** A decoded table row: the row's floor timestamp and its fields by name. */
  datatype Row = Row(dts: Time, fields: map<string, Field>)

  /**
    The shapes an item can have.
    - `Nil`: the empty byte string (a missing value reads as this).
    - `Stamped`: a msgpack timestamp followed by a last-write-wins payload.
    - `Tabular`: an encoded table row; its encoding starts with the floor time.
    - `Opaque`: any other byte string, which neither decoder accepts.
   */
  datatype Item =
    | Nil
    | Stamped(ts: Time, body: Bytes)
    | Tabular(row: Row)
    | Opaque(bytes: Bytes)

  /**
    `len(item) == 0`. The source has one empty value, the zero-length byte
    slice; it is `Nil` where a store reports a missing key and `Opaque([])`
    where an empty value was written, and the emptiness tests treat the two
    alike through this predicate.
   */
  predicate IsEmpty(i: Item)
  {
    i.Nil? || (i.Opaque? && |i.bytes| == 0)
  }

  /**
    Reading a msgpack timestamp from the start of the item. A row's encoding
    begins with its floor time, so a row decodes to that time.
   */
  function DecodeTime(i: Item): (r: Option<Time>)
    ensures IsEmpty(i) ==> r.None?
  {
    match i
    case Stamped(t, _) => Some(t)
    case Tabular(row) => Some(row.dts)
    case _ => None
  }

  /** The timestamp an item carries, or the zero time when it has none. */
  function TimeOrZero(i: Item): Time
  {
    match DecodeTime(i)
    case Some(t) => t
    case None => 0
  }

  /** `msgpack.Unmarshal(item, &dts, &m)`: only an encoded row decodes. */
  function DecodeRow(i: Item): (r: Option<Row>)
    ensures r.Some? ==> i == Tabular(r.value)
  {
    match i
    case Tabular(row) => Some(row)
    case _ => None
  }

  /** The encoding of a bare timestamp, as the update log stores it. */
  function EncodeTime(t: Time): (i: Item)
    ensures DecodeTime(i) == Some(t)
    ensures !IsEmpty(i)
  {
    Stamped(t, [])
  }

  /**
    What a storage facade's `Obtain` returns: `ok` false means no item was
    found, `readable` false that the store could not be read.
   */
  datatype Read = Read(item: Item, ok: bool, readable: bool)
}

=== FILE: kvhttp.dfy ===
/**
  The HTTP binding of a storage facade (`network/httpi`): a server that maps
  a facade's `Obtain` and `Submit` outcomes to status codes, and a client
  that is itself a storage facade, mapping the status codes back. The key in
  the URL is base64url without padding; its decoding is the parameter `key`
  (None when it fails). A transport error is a reply of None.
 */
module KvHttp {
  import opened Types
  import opened Items
  import opened Buckets
  import opened Streams

  /** A response: its status code and, for 200, the item as body. */
  datatype Response = Response(status: int, body: Item)

  const BadRequest := 400
  const Found := 200
  const NotFound := 404
  const Accepted := 202
  const Failed := 500

  /**
    `obtgain`: 400 for a key that does not decode (the facade is not asked),
    500 when the store is unreadable, 404 when it has no item, otherwise 200
    with the item.
   */
  function ServeObtain(key: Option<Bytes>, obtain: Bytes -> Read): (r: Response)
    ensures key.None? ==> r.status == BadRequest
    ensures key.Some? ==> (r.status == Failed <==> !obtain(key.value).readable)
    ensures key.Some? ==> (r.status == NotFound <==> obtain(key.value).readable && !obtain(key.value).ok)
    ensures key.Some? ==> (r.status == Found <==> obtain(key.value).readable && obtain(key.value).ok)
    ensures r.status == Found ==> r.body == obtain(key.value).item
    ensures r.status != Found ==> r.body == Nil
  {
    match key
    case None => Response(BadRequest, Nil)
    case Some(k) =>
      var x := obtain(k);
      if !x.readable then Response(Failed, Nil)
      else if !x.ok then Response(NotFound, Nil)
      else Response(Found, x.item)
  }

  /**
    `submit`: 400 for a key that does not decode or a body that cannot be
    read, both before the facade is touched; 202 when the facade accepts the
    pair, 500 when it does not.
   */
  function ServeSubmit<F>(submit: (F, Bytes, Item) -> (F, bool), api: F, key: Option<Bytes>, body: Option<Item>): (r: (F, Response))
    ensures key.None? || body.None? ==> r == (api, Response(BadRequest, Nil))
    ensures key.Some? && body.Some? ==> r.0 == submit(api, key.value, body.value).0
    ensures key.Some? && body.Some? ==> (r.1.status == Accepted <==> submit(api, key.value, body.value).1)
    ensures r.1.status in {BadRequest, Accepted, Failed}
  {
    if key.None? || body.None? then (api, Response(BadRequest, Nil))
    else
      var (api', ok) := submit(api, key.value, body.value);
      (api', Response(if ok then Accepted else Failed, Nil))
  }

  /** `Client.Submit`: ok exactly when the reply is 202. */
  function ClientSubmit(reply: Option<Response>): (ok: bool)
    ensures ok <==> reply.Some? && reply.value.status == Accepted
  {
    reply.Some? && reply.value.status == Accepted
  }

  /**
    `Client.Obtain`: 200 reads the body as the item (found, readable); 404 is
    readable but not found; any other status or a transport error is neither.
   */
  function ClientObtain(reply: Option<Response>): (r: Read)
    ensures r.ok ==> r.readable
    ensures r.ok <==> reply.Some? && reply.value.status == Found
    ensures r.readable <==> reply.Some? && reply.value.status in {Found, NotFound}
    ensures r.item == if r.ok then reply.value.body else Nil
  {
    match reply
    case None => Read(Nil, false, false)
    case Some(resp) =>
      if resp.status == Found then Read(resp.body, true, true)
      else if resp.status == NotFound then Read(Nil, false, true)
      else Read(Nil, false, false)
  }

  /**
    Obtaining through the client reads what the server's facade read:
    `readable` is kept, `ok` is kept whenever the store was readable, and a
    found item arrives unchanged.
   */
  lemma ObtainRoundTrip(obtain: Bytes -> Read, key: Bytes)
    ensures var x := obtain(key);
      var r := ClientObtain(Some(ServeObtain(Some(key), obtain)));
      && r.readable == x.readable
      && (x.readable ==> r.ok == x.ok)
      && (r.ok ==> r.item == x.item)
  {
  }

  /** A key the server cannot decode reads as unreadable through the client. */
  lemma BadKeyUnreadable(obtain: Bytes -> Read)
    ensures ClientObtain(Some(ServeObtain(None, obtain))) == Read(Nil, false, false)
  {
  }

  /** Submitting through the client succeeds exactly when the server's facade accepted the pair. */
  lemma SubmitRoundTrip<F>(submit: (F, Bytes, Item) -> (F, bool), api: F, key: Bytes, item: Item)
    ensures var (api', resp) := ServeSubmit(submit, api, Some(key), Some(item));
      && ClientSubmit(Some(resp)) == submit(api, key, item).1
      && api' == submit(api, key, item).0
  {
  }

  /**
    `Client.Stream`: nothing on a transport error; otherwise every pair up to
    the first that does not decode.
   */
  function ClientStream(response: Option<seq<Option<Entry<Item>>>>): (pairs: seq<Entry<Item>>)
    ensures response.None? ==> pairs == []
    ensures response.Some? ==> pairs == Frames(response.value)
  {
    match response
    case None => []
    case Some(frames) => Frames(frames)
  }

  /**
    The server writes the facade's pairs in the order the facade streams them;
    a client reading an intact body calls back on exactly those pairs, in that
    order, and a body cut short by a garbled frame yields the pairs before it.
   */
  lemma StreamRoundTrip(pairs: seq<Entry<Item>>, rest: seq<Option<Entry<Item>>>)
    ensures ClientStream(Some(Wire(pairs))) == pairs
    ensures ClientStream(Some(Wire(pairs) + [None] + rest)) == pairs
  {
    FramesOfWire(pairs, rest);
  }
}

=== FILE: lww.dfy ===
/**
  Last-write-wins merging (`LastWriteWins`): the merger keeps the item with the
  strictly latest embedded timestamp; an item whose timestamp cannot be decoded
  is ignored, and on a tie the item already held stays.
 */
module Lww {
  import opened Types
  import opened Items

  /** The merger's fields: `changed`, `updated` and `item`. */
  datatype State = State(changed: bool, updated: Time, item: Item)

  /** A freshly allocated merger, as `LWW_Factory` returns it. */
  const Fresh: State := State(false, 0, Nil)

  /** `Init`: forget everything and hold the seed item, unchanged. */
  function Init(item: Item): (s: State)
    ensures !s.changed && s.item == item
    ensures s.updated == TimeOrZero(item)
  {
    State(false, TimeOrZero(item), item)
  }

  /** `Merge`: adopt the item only if its timestamp is strictly later. */
  function Merge(s: State, item: Item): (r: State)
    ensures DecodeTime(item).None? ==> r == s
    ensures r.updated >= s.updated
    ensures r.item == s.item || r.item == item
    ensures r.changed <==> s.changed || (DecodeTime(item).Some? && s.updated < DecodeTime(item).value)
    ensures r.item != s.item ==> r.updated > s.updated && DecodeTime(item) == Some(r.updated)
  {
    match DecodeTime(item)
    case None => s
    case Some(t) => if s.updated < t then State(true, t, item) else s
  }

  function Changed(s: State): bool { s.changed }

  function Result(s: State): Item { s.item }

  /** `Cleanup` drops the held item but keeps the other fields. */
  function Cleanup(s: State): (r: State)
    ensures r.item == Nil && r.changed == s.changed && r.updated == s.updated
  {
    s.(item := Nil)
  }

  /** The merger after `Init(seed)` and one `Merge` per item of `rest`, in order. */
  function Fold(seed: Item, rest: seq<Item>): State
    decreases |rest|
  {
    if |rest| == 0 then Init(seed)
    else Merge(Fold(seed, rest[..|rest| - 1]), rest[|rest| - 1])
  }

  /** Some item of `rest` carries a timestamp strictly after `t`. */
  ghost predicate SomeLater(rest: seq<Item>, t: Time)
  {
    exists i :: 0 <= i < |rest| && DecodeTime(rest[i]).Some? && DecodeTime(rest[i]).value > t
  }

  /**
    What a fold has computed: `updated` is the greatest of the seed's time and
    every decodable time merged; the held item is the seed while nothing was
    replaced, and otherwise a merged item carrying exactly `updated`.
   */
  ghost predicate Summarises(seed: Item, rest: seq<Item>, s: State)
  {
    && s.updated >= TimeOrZero(seed)
    && (forall i :: 0 <= i < |rest| && DecodeTime(rest[i]).Some? ==> DecodeTime(rest[i]).value <= s.updated)
    && (if s.changed then
          s.updated > TimeOrZero(seed)
          && exists i :: 0 <= i < |rest| && s.item == rest[i] && DecodeTime(rest[i]) == Some(s.updated)
        else
          s.item == seed && s.updated == TimeOrZero(seed))
  }

  lemma {:induction false} FoldSummarises(seed: Item, rest: seq<Item>)
    ensures Summarises(seed, rest, Fold(seed, rest))
    decreases |rest|
  {
    if |rest| > 0 {
      var front := rest[..|rest| - 1];
      var x := rest[|rest| - 1];
      FoldSummarises(seed, front);
      var s := Fold(seed, front);
      var r := Merge(s, x);
      assert forall i :: 0 <= i < |front| ==> rest[i] == front[i];
      if r.changed && !s.changed {
        assert r.item == rest[|rest| - 1];
      } else if r.changed {
        if r.item == s.item {
          var i :| 0 <= i < |front| && s.item == front[i] && DecodeTime(front[i]) == Some(s.updated);
          assert rest[i] == front[i];
        } else {
          assert r.item == rest[|rest| - 1];
        }
      }
    }
  }

  /**
    The held timestamp after any fold is the maximum of the seed's timestamp
    (zero when undecodable) and every decodable merged timestamp.
   */
  lemma StampIsMaximum(seed: Item, rest: seq<Item>)
    ensures var s := Fold(seed, rest);
      && s.updated >= TimeOrZero(seed)
      && (forall i :: 0 <= i < |rest| && DecodeTime(rest[i]).Some? ==> DecodeTime(rest[i]).value <= s.updated)
      && (s.updated == TimeOrZero(seed) || exists i :: 0 <= i < |rest| && DecodeTime(rest[i]) == Some(s.updated))
  {
    FoldSummarises(seed, rest);
  }

  /** `Changed` is true iff some merged item was strictly later than the seed. */
  lemma ChangedIffLaterMerged(seed: Item, rest: seq<Item>)
    ensures Fold(seed, rest).changed <==> SomeLater(rest, TimeOrZero(seed))
  {
    FoldSummarises(seed, rest);
    var s := Fold(seed, rest);
    if s.changed {
      var i :| 0 <= i < |rest| && s.item == rest[i] && DecodeTime(rest[i]) == Some(s.updated);
      assert DecodeTime(rest[i]).value > TimeOrZero(seed);
    }
  }

  /** The interface's promise: `Changed()` iff `Result()` differs from the seed. */
  lemma ChangedIffResultDiffers(seed: Item, rest: seq<Item>)
    ensures Changed(Fold(seed, rest)) <==> Result(Fold(seed, rest)) != seed
  {
    FoldSummarises(seed, rest);
    var s := Fold(seed, rest);
    if s.changed {
      var i :| 0 <= i < |rest| && s.item == rest[i] && DecodeTime(rest[i]) == Some(s.updated);
      assert TimeOrZero(s.item) == s.updated > TimeOrZero(seed);
    }
  }

  /** Merging an item that was already folded in leaves the merger as it was. */
  lemma MergeIdempotent(seed: Item, rest: seq<Item>, x: Item)
    requires x == seed || x in rest
    ensures Fold(seed, rest + [x]) == Fold(seed, rest)
  {
    FoldSummarises(seed, rest);
    assert (rest + [x])[..|rest|] == rest;
    if x != seed {
      var i :| 0 <= i < |rest| && rest[i] == x;
    }
  }

  /** Every item of the list carries a decodable timestamp. */
  ghost predicate AllStamped(items: seq<Item>)
  {
    forall x :: x in items ==> DecodeTime(x).Some?
  }

  /** Two different items of the list never carry the same timestamp. */
  ghost predicate DistinctStamps(items: seq<Item>)
  {
    forall x, y :: x in items && y in items && x != y ==> TimeOrZero(x) != TimeOrZero(y)
  }

  /**
    With decodable, pairwise-distinct timestamps, the merge of a list is its
    item with the greatest timestamp.
   */
  lemma ResultIsLatest(items: seq<Item>)
    requires |items| > 0 && AllStamped(items)
    ensures var r := Result(Fold(items[0], items[1..]));
      && r in items
      && forall x :: x in items ==> TimeOrZero(x) <= TimeOrZero(r)
  {
    var seed, rest := items[0], items[1..];
    FoldSummarises(seed, rest);
    var s := Fold(seed, rest);
    assert forall x :: x in items ==> x == seed || x in rest;
    if s.changed {
      var i :| 0 <= i < |rest| && s.item == rest[i] && DecodeTime(rest[i]) == Some(s.updated);
      assert TimeOrZero(s.item) == s.updated;
    }
    forall x | x in items
      ensures TimeOrZero(x) <= TimeOrZero(s.item)
    {
      if x != seed {
        var i :| 0 <= i < |rest| && rest[i] == x;
      }
    }
  }

  /**
    Order independence: reordering the items, seed included, does not change
    the merged result when all timestamps decode and differ pairwise.
   */
  lemma ResultOrderIndependent(xs: seq<Item>, ys: seq<Item>)
    requires |xs| > 0 && multiset(xs) == multiset(ys)
    requires AllStamped(xs) && DistinctStamps(xs)
    ensures Result(Fold(xs[0], xs[1..])) == Result(Fold(ys[0], ys[1..]))
  {
    assert forall x :: x in xs <==> x in multiset(xs);
    assert forall x :: x in ys <==> x in multiset(ys);
    assert |ys| == |multiset(ys)| == |multiset(xs)| == |xs|;
    ResultIsLatest(xs);
    ResultIsLatest(ys);
    var a, b := Result(Fold(xs[0], xs[1..])), Result(Fold(ys[0], ys[1..]));
    assert TimeOrZero(a) <= TimeOrZero(b) && TimeOrZero(b) <= TimeOrZero(a);
  }
}

=== FILE: merger.dfy ===
/**
  The merger interface (`Merger`, `MergerFactory`) and the fold that drives one
  (`MergeUtil.Merge`): draw a merger from the pool (or make a fresh one), `Init`
  it with the first item, `Merge` every other item in list order, read
  `Changed()` and `Result()`, `Cleanup()` and return the merger to the pool.
  The merge policy is fixed per store: last-write-wins or table rows.
  `TableRows` is the source's table merger; `CorrectedTableRows` is the same
  merger with the fix that a raised row floor counts as a change.
 */
module Merger {
  import opened Types
  import opened Items
  import Lww
  import Table

  datatype Policy = LastWriteWins | TableRows | CorrectedTableRows

  /**
    A merger of some policy, with its internal state; `corrected` tells the
    two table mergers apart.
   */
  datatype State = LwwState(lww: Lww.State) | TableState(table: Table.State, corrected: bool)

  function PolicyOf(s: State): Policy
  {
    match s
    case LwwState(_) => LastWriteWins
    case TableState(_, corrected) => if corrected then CorrectedTableRows else TableRows
  }

  /** `MergerFactory`: a freshly allocated merger of the policy. */
  function Factory(p: Policy): (s: State)
    ensures PolicyOf(s) == p
  {
    match p
    case LastWriteWins => LwwState(Lww.Fresh)
    case TableRows => TableState(Table.Fresh, false)
    case CorrectedTableRows => TableState(Table.Fresh, true)
  }

  /** `Init` clears every field, so the new state depends on the item alone. */
  function Init(p: Policy, item: Item): (s: State)
    ensures PolicyOf(s) == p
  {
    match p
    case LastWriteWins => LwwState(Lww.Init(item))
    case TableRows => TableState(Table.Init(item), false)
    case CorrectedTableRows => TableState(Table.Init(item), true)
  }

  function Merge(s: State, item: Item): (r: State)
    ensures PolicyOf(r) == PolicyOf(s)
  {
    match s
    case LwwState(l) => LwwState(Lww.Merge(l, item))
    case TableState(t, c) => TableState(Table.MergeWith(t, item, c), c)
  }

  function Changed(s: State): bool
  {
    match s
    case LwwState(l) => Lww.Changed(l)
    case TableState(t, _) => Table.Changed(t)
  }

  function Result(s: State): Item
  {
    match s
    case LwwState(l) => Lww.Result(l)
    case TableState(t, _) => Table.Result(t)
  }

  function Cleanup(s: State): (r: State)
    ensures PolicyOf(r) == PolicyOf(s)
  {
    match s
    case LwwState(l) => LwwState(Lww.Cleanup(l))
    case TableState(t, c) => TableState(Table.Cleanup(t), c)
  }

  /** `Merge` every item of `items` into `s`, in list order. */
  function MergeAll(s: State, items: seq<Item>): (r: State)
    ensures PolicyOf(r) == PolicyOf(s)
    decreases |items|
  {
    if |items| == 0 then s
    else MergeAll(Merge(s, items[0]), items[1..])
  }

  /** What `MergeUtil.Merge` returns, and the merger it puts back into the pool. */
  datatype Outcome = Outcome(result: Item, changed: bool, pooled: State)

  /**
    `MergeUtil.Merge(items...)`: `pooled` is the merger the pool hands out
    (None when the pool is empty and the factory is called). With no items,
    `Init` is never called and the pooled merger's leftovers are returned.
   */
  function MergeItems(p: Policy, pooled: Option<State>, items: seq<Item>): Outcome
    requires pooled.Some? ==> PolicyOf(pooled.value) == p
  {
    var m := match pooled case Some(s) => s case None => Factory(p);
    var m' := if |items| == 0 then m else MergeAll(Init(p, items[0]), items[1..]);
    Outcome(Result(m'), Changed(m'), Cleanup(m'))
  }

  /** The two-item merge the stores perform: stored value first, incoming item second. */
  function MergePair(p: Policy, stored: Item, incoming: Item): (Item, bool)
  {
    var o := MergeItems(p, None, [stored, incoming]);
    (o.result, o.changed)
  }

  /**
    `MergeAll` walks the list front to back while the policies' folds are
    stated back to front; both merge the items in the same order.
   */
  lemma {:induction false} MergeAllLww(l: Lww.State, seed: Item, done: seq<Item>, items: seq<Item>)
    requires l == Lww.Fold(seed, done)
    ensures MergeAll(LwwState(l), items) == LwwState(Lww.Fold(seed, done + items))
    decreases |items|
  {
    if |items| == 0 {
      assert done + items == done;
    } else {
      var done' := done + [items[0]];
      assert done'[..|done'| - 1] == done;
      assert done + items == done' + items[1..];
      MergeAllLww(Lww.Merge(l, items[0]), seed, done', items[1..]);
    }
  }

  /** The table fold of either table merger. */
  function TableFold(corrected: bool, seed: Item, rest: seq<Item>): Table.State
  {
    if corrected then Table.Fold(seed, rest) else Table.FoldAsWritten(seed, rest)
  }

  lemma {:induction false} MergeAllTable(t: Table.State, corrected: bool, seed: Item, done: seq<Item>, items: seq<Item>)
    requires t == TableFold(corrected, seed, done)
    ensures MergeAll(TableState(t, corrected), items) == TableState(TableFold(corrected, seed, done + items), corrected)
    decreases |items|
  {
    if |items| == 0 {
      assert done + items == done;
    } else {
      var done' := done + [items[0]];
      assert done'[..|done'| - 1] == done;
      assert done + items == done' + items[1..];
      MergeAllTable(Table.MergeWith(t, items[0], corrected), corrected, seed, done', items[1..]);
    }
  }

  /**
    For a non-empty list, `MergeUtil.Merge` returns the policy's fold of the
    items, whichever merger the pool handed out: `Init` resets all state.
   */
  lemma MergeItemsIsFold(p: Policy, pooled: Option<State>, items: seq<Item>)
    requires pooled.Some? ==> PolicyOf(pooled.value) == p
    requires |items| > 0
    ensures var o := MergeItems(p, pooled, items);
      match p
      case LastWriteWins =>
        o.result == Lww.Result(Lww.Fold(items[0], items[1..])) && o.changed == Lww.Changed(Lww.Fold(items[0], items[1..]))
      case TableRows =>
        o.result == Table.Result(Table.FoldAsWritten(items[0], items[1..])) && o.changed == Table.Changed(Table.FoldAsWritten(items[0], items[1..]))
      case CorrectedTableRows =>
        o.result == Table.Result(Table.Fold(items[0], items[1..])) && o.changed == Table.Changed(Table.Fold(items[0], items[1..]))
  {
    assert [] + items[1..] == items[1..];
    match p
    case LastWriteWins => MergeAllLww(Lww.Init(items[0]), items[0], [], items[1..]);
    case TableRows => MergeAllTable(Table.Init(items[0]), false, items[0], [], items[1..]);
    case CorrectedTableRows => MergeAllTable(Table.Init(items[0]), true, items[0], [], items[1..]);
  }

  /** The pooled merger cannot leak into a merge of a non-empty list. */
  lemma PoolIrrelevant(p: Policy, a: Option<State>, b: Option<State>, items: seq<Item>)
    requires a.Some? ==> PolicyOf(a.value) == p
    requires b.Some? ==> PolicyOf(b.value) == p
    requires |items| > 0
    ensures MergeItems(p, a, items).result == MergeItems(p, b, items).result
    ensures MergeItems(p, a, items).changed == MergeItems(p, b, items).changed
  {
    MergeItemsIsFold(p, a, items);
    MergeItemsIsFold(p, b, items);
  }

  /** The merger goes back to the pool cleaned up; under LWW it no longer holds an item. */
  lemma PooledAfterCleanup(p: Policy, pooled: Option<State>, items: seq<Item>)
    requires pooled.Some? ==> PolicyOf(pooled.value) == p
    ensures var o := MergeItems(p, pooled, items);
      && PolicyOf(o.pooled) == p
      && (o.pooled.LwwState? ==> o.pooled.lww.item == Nil)
      && (o.pooled.TableState? ==> o.pooled.table.current.None?)
  {
  }

  /** A single item under last-write-wins comes back as it is, unchanged. */
  lemma SingleItemLww(pooled: Option<State>, x: Item)
    requires pooled.Some? ==> PolicyOf(pooled.value) == LastWriteWins
    ensures MergeItems(LastWriteWins, pooled, [x]).result == x
    ensures !MergeItems(LastWriteWins, pooled, [x]).changed
  {
    MergeItemsIsFold(LastWriteWins, pooled, [x]);
  }

  /**
    The interface promise `Changed()` iff `Result()` differs from the first
    item holds for every list under last-write-wins, and for the stores'
    pairs under the corrected table merger whenever the stored row decodes.
    The source's table merger reports a change only when the fields differ:
    a result that differs from the stored row in its floor alone goes
    unreported.
   */
  lemma ChangedIffResultDiffers(p: Policy, items: seq<Item>)
    requires |items| > 0
    requires p != LastWriteWins ==> |items| == 2 && DecodeRow(items[0]).Some?
    ensures p != TableRows ==> (MergeItems(p, None, items).changed <==> MergeItems(p, None, items).result != items[0])
    ensures p == TableRows ==> MergeItems(p, None, items).result.Tabular?
    ensures p == TableRows ==>
      (MergeItems(p, None, items).changed <==> MergeItems(p, None, items).result.row.fields != items[0].row.fields)
  {
    MergeItemsIsFold(p, None, items);
    match p
    case LastWriteWins => Lww.ChangedIffResultDiffers(items[0], items[1..]);
    case TableRows =>
      assert items[1..] == [items[1]];
      Table.AsWrittenChangedIffFieldsDiffer(items[0], items[1]);
    case CorrectedTableRows =>
      assert items[1..] == [items[1]];
      Table.ChangedIffResultDiffersPair(items[0], items[1]);
  }

  /**
    The stores' rule: write the merged value only when the merger reports a
    change. For a stored value the policy can read, the value kept is then
    always the merge result.
   */
  function WriteIfChanged(p: Policy, stored: Item, incoming: Item): Item
  {
    var (r, ch) := MergePair(p, stored, incoming);
    if ch then r else stored
  }

  /**
    What a store holds under a key after an item is submitted onto the value
    `stored` already there: an empty stored value is simply replaced, any
    other is merged with the item and rewritten only when the merger reports
    a change.
   */
  function Absorb(p: Policy, stored: Item, incoming: Item): Item
  {
    if IsEmpty(stored) then incoming else WriteIfChanged(p, stored, incoming)
  }

  /**
    What a write-if-changed store keeps for a stored value the policy can
    read: the merge result under last-write-wins and the corrected table
    merger; under the source's table merger the merge result only when its
    fields differ from the stored row's, and otherwise the stored row with
    its old floor.
   */
  lemma WriteIfChangedKeepsResult(p: Policy, stored: Item, incoming: Item)
    requires p != LastWriteWins ==> DecodeRow(stored).Some?
    ensures p != TableRows ==> WriteIfChanged(p, stored, incoming) == MergePair(p, stored, incoming).0
    ensures p == TableRows ==> MergePair(p, stored, incoming).0.Tabular?
    ensures p == TableRows ==> (
      WriteIfChanged(p, stored, incoming) ==
        if MergePair(p, stored, incoming).0.row.fields != stored.row.fields then MergePair(p, stored, incoming).0 else stored)
  {
    ChangedIffResultDiffers(p, [stored, incoming]);
  }
}

=== FILE: sqllog.dfy ===
/**
  The SQL-backed time vector and update log (`DbTimeVec`, `DbLocalUpdateLog`).
  Both are one table with a unique key column and a time column; the SQL text
  is written with `${...}` placeholders that `subst` fills in per database
  dialect. The database is modelled by the table's contents.
 */
module SqlLog {
  import opened Types

  /** `DBType`: ql, PostgreSQL, or any other driver. */
  datatype DBType = QL | PQ | OtherDb

  /** `sqlArg`: a numbered placeholder for ql and PostgreSQL, `?` for anything else. */
  function SqlArg(t: DBType, s: string): (r: string)
    ensures t != OtherDb ==> r == "$" + s
    ensures t == OtherDb ==> r == "?"
  {
    match t
    case QL => "$" + s
    case PQ => "$" + s
    case OtherDb => "?"
  }

  /** `sqlType`: PostgreSQL renames three column types; other dialects keep the name. */
  function SqlType(t: DBType, s: string): (r: string)
    ensures t != PQ ==> r == s
    ensures t == PQ && s !in {"string", "time", "blob"} ==> r == s
  {
    if t == PQ then
      if s == "string" then "text"
      else if s == "time" then "timestamp"
      else if s == "blob" then "bytea"
      else s
    else s
  }

  /**
    `subst`, the variable mapper of `Expand`: `a-N` and `aN` become argument
    placeholders, `t-NAME` a column type, `now` and `unique` their SQL
    spelling; every other name expands to nothing. The two-character prefixes
    are tried before the one-character one.
   */
  function Subst(t: DBType, s: string): (r: string)
    ensures |s| >= 2 && s[..2] == "a-" ==> r == SqlArg(t, s[2..])
    ensures |s| >= 2 && s[..2] == "t-" ==> r == SqlType(t, s[2..])
    ensures |s| >= 1 && s[0] == 'a' && !(|s| >= 2 && s[..2] == "a-") ==> r == SqlArg(t, s[1..])
    ensures s == "now" ==> r == "now()"
    ensures s == "unique" ==> r == "UNIQUE"
    ensures Unknown(s) ==> r == ""
  {
    if |s| >= 2 && s[..2] == "a-" then SqlArg(t, s[2..])
    else if |s| >= 2 && s[..2] == "t-" then SqlType(t, s[2..])
    else if |s| >= 1 && s[0] == 'a' then SqlArg(t, s[1..])
    else if s == "now" then "now()"
    else if s == "unique" then "UNIQUE"
    else ""
  }

  /** `aN` names the N-th argument: numbered for ql and PostgreSQL, positional otherwise. */
  lemma ArgumentPlaceholder(t: DBType, n: string)
    requires |n| > 0 && n[0] != '-'
    ensures Subst(t, "a" + n) == (if t == OtherDb then "?" else "$" + n)
  {
    var s := "a" + n;
    assert s[1..] == n;
    assert s[..2] == ['a', n[0]];
  }

  /** `a1` is `$1` for both dialects the log is written for. */
  lemma FirstArgument()
    ensures Subst(QL, "a1") == "$1" && Subst(PQ, "a1") == "$1"
  {
    ArgumentPlaceholder(QL, "1");
    ArgumentPlaceholder(PQ, "1");
  }

  /** The column types of the two tables, per dialect. */
  lemma ColumnTypes()
    ensures Subst(PQ, "t-string") == "text" && Subst(PQ, "t-time") == "timestamp" && Subst(PQ, "t-blob") == "bytea"
    ensures Subst(QL, "t-string") == "string" && Subst(QL, "t-time") == "time" && Subst(QL, "t-blob") == "blob"
  {
    assert "t-string"[..2] == "t-" && "t-string"[2..] == "string";
    assert "t-time"[..2] == "t-" && "t-time"[2..] == "time";
    assert "t-blob"[..2] == "t-" && "t-blob"[2..] == "blob";
  }

  /** A name `subst` does not understand: no argument, no column type, not `now` or `unique`. */
  predicate Unknown(s: string)
  {
    && (|s| == 0 || s[0] != 'a')
    && !(|s| >= 2 && s[..2] == "t-")
    && s != "now" && s != "unique"
  }

  /**
    A name expands to nothing exactly when `subst` does not understand it, or
    it is the bare prefix `t-`: argument placeholders and the SQL spellings
    are never empty, and no dialect renames a type to nothing.
   */
  lemma UnknownNameIsEmpty(t: DBType, s: string)
    ensures Subst(t, s) == "" <==> Unknown(s) || s == "t-"
  {
    if |s| >= 2 && s[..2] == "t-" {
      assert s == "t-" <==> s[2..] == "";
    }
  }

  /** A single-row query's outcome: the time found, whether a row exists, and whether an error is returned. */
  datatype Lookup = Lookup(change: Time, exist: bool, err: bool)

  /**
    `Query` on a table with a unique key column: `exist` iff the row was
    scanned; "no rows" is not an error and leaves `change` as given.
    `fails` stands for any other database error.
   */
  function Query<K>(tbl: map<K, Time>, key: K, given: Time, fails: bool): (r: Lookup)
    ensures r.exist <==> !fails && key in tbl
    ensures r.err <==> fails
    ensures r.exist ==> r.change == tbl[key]
    ensures !r.exist ==> r.change == given
  {
    if fails then Lookup(given, false, true)
    else if key in tbl then Lookup(tbl[key], true, false)
    else Lookup(given, false, false)
  }

  /**
    `Update`: an UPDATE when `exist`, which silently changes nothing when the
    row is missing, and an INSERT otherwise, which the unique index refuses
    when the row is already there. `fails` stands for any other execution
    error. Returns the table and whether no error occurred.
   */
  function Update<K>(tbl: map<K, Time>, key: K, change: Time, exist: bool, fails: bool): (r: (map<K, Time>, bool))
    ensures r.1 <==> !fails && (exist || key !in tbl)
    ensures r.1 && (key in tbl || !exist) ==> r.0 == tbl[key := change]
    ensures !r.1 || (exist && key !in tbl) ==> r.0 == tbl
  {
    if fails then (tbl, false)
    else if exist then
      if key in tbl then (tbl[key := change], true) else (tbl, true)
    else if key in tbl then (tbl, false)
    else (tbl[key := change], true)
  }

  /** Querying first and passing on its `exist` flag always picks the statement that writes. */
  lemma QueryThenUpdate<K>(tbl: map<K, Time>, key: K, change: Time)
    ensures var q := Query(tbl, key, 0, false);
      Update(tbl, key, change, q.exist, false) == (tbl[key := change], true)
  {
  }

  /** A stale `exist` flag loses the write without an error: the row stays missing. */
  lemma StaleExistLosesWrite<K>(tbl: map<K, Time>, key: K, change: Time)
    requires key !in tbl
    ensures Update(tbl, key, change, true, false).1
    ensures !Query(Update(tbl, key, change, true, false).0, key, 0, false).exist
  {
  }

  /** One row of the result set of the since-query, with whether it scans into a key and a time. */
  datatype SqlRow = SqlRow(key: Bytes, change: Time, scans: bool)

  /**
    `ReadAllAsync(since, ...)` over the rows the database returns, in its
    order: the query itself filters `u_time > since`, rows that fail to scan
    are skipped, and every entry is sent with `exist` set. None is the
    query's error.
   */
  method ReadAllAsync(rows: seq<SqlRow>, since: Time, fails: bool) returns (r: Option<seq<LogEntry>>)
    ensures fails <==> r.None?
    ensures r.Some? ==> forall e :: e in r.value ==> e.exist && e.change > since
    ensures r.Some? ==> forall e :: e in r.value ==> SqlRow(e.key, e.change, true) in rows
    ensures r.Some? ==> forall x :: x in rows && x.scans && x.change > since ==> LogEntry(x.key, x.change, true) in r.value
    ensures r.Some? ==> |r.value| <= |rows|
  {
    if fails {
      return None;
    }
    var out: seq<LogEntry> := [];
    var i := 0;
    while i < |rows|
      invariant 0 <= i <= |rows|
      invariant |out| <= i
      invariant forall e :: e in out ==> e.exist && e.change > since && SqlRow(e.key, e.change, true) in rows[..i]
      invariant forall j :: 0 <= j < i && rows[j].scans && rows[j].change > since ==>
        LogEntry(rows[j].key, rows[j].change, true) in out
    {
      var x := rows[i];
      if x.scans && x.change > since {
        out := out + [LogEntry(x.key, x.change, true)];
      }
      assert rows[..i + 1] == rows[..i] + [x];
      i := i + 1;
    }
    assert rows[..i] == rows;
    return Some(out);
  }
}

=== FILE: streams.dfy ===
/**
  Reading a msgpack stream: the decoder is called until its first error, so
  what a reader sees is the run of frames before the first that does not
  decode (None), or before the end of the body.
 */
module Streams {
  import opened Types

  /** The values a decode loop reads from `frames`. */
  function Frames<T>(frames: seq<Option<T>>): (ts: seq<T>)
    ensures |ts| <= |frames|
    ensures forall i :: 0 <= i < |ts| ==> frames[i] == Some(ts[i])
    ensures |ts| < |frames| ==> frames[|ts|].None?
    decreases |frames|
  {
    if |frames| == 0 || frames[0].None? then []
    else [frames[0].value] + Frames(frames[1..])
  }

  /** The frames of a stream that arrives intact. */
  function Wire<T>(ts: seq<T>): (frames: seq<Option<T>>)
    ensures |frames| == |ts|
    ensures forall i :: 0 <= i < |ts| ==> frames[i] == Some(ts[i])
  {
    seq(|ts|, i requires 0 <= i < |ts| => Some(ts[i]))
  }

  /**
    Decoding an intact stream reads every value; a stream garbled after `ts`
    still yields `ts`.
   */
  lemma FramesOfWire<T>(ts: seq<T>, rest: seq<Option<T>>)
    ensures Frames(Wire(ts)) == ts
    ensures Frames(Wire(ts) + [None] + rest) == ts
  {
    var w := Wire(ts) + [None] + rest;
    assert w[|ts|].None?;
  }
}

=== FILE: syncer.dfy ===
/**
  The replication client (`replicator/httpi.Syncer`): ask a peer for its
  version, and pull every update since the local cursor for that peer,
  submitting each found item to the local store and advancing the cursor with
  `tmMax` on every successful apply. The cursors live in a time vector keyed
  by node name; the HTTP response is the sequence of frames the decoder
  reads, None standing for a frame that does not decode.
 */
module Syncer {
  import opened Types
  import opened Items
  import opened Buckets
  import SqlLog
  import Merger
  import Bolt
  import SyncServer
  import opened Streams

  /**
    The local storage facade as the syncer sees it: `Submit`, and what
    `startBatch` and `finishBatch` do with it. A facade without batching
    starts as itself and finishes with no error.
   */
  datatype Sink<!F> = Sink(submit: (F, Bytes, Item) -> (F, bool), start: F -> F, finish: F -> (F, bool))

  /** A facade that implements neither `StartBatch` nor `FinishBatch`. */
  function Unbatched<F(!new)>(submit: (F, Bytes, Item) -> (F, bool)): (s: Sink<F>)
    ensures forall f :: s.start(f) == f && s.finish(f) == (f, true)
  {
    Sink(submit, f => f, f => (f, true))
  }

  /**
    `GetVersion`: None on a transport or decode error; otherwise the peer's
    time when it reports one, and no time when it reports none.
   */
  function GetVersion(reply: Option<SyncServer.Version>): (r: Option<Option<Time>>)
    ensures r.None? <==> reply.None?
    ensures reply.Some? ==> (r.value.Some? <==> reply.value.exist)
    ensures reply.Some? && reply.value.exist ==> r.value.value == reply.value.value
  {
    match reply
    case None => None
    case Some(v) => if v.exist then Some(Some(v.value)) else Some(None)
  }

  /** Asking a peer for its version reads back the peer's own time-vector entry. */
  lemma VersionRoundTrip(vec: map<string, Time>, node: string)
    ensures GetVersion(Some(SyncServer.GetVersion(vec, node, false))) == Some(if node in vec then Some(vec[node]) else None)
  {
  }

  /** One tuple of the loop: submit a found item; a tuple not found counts as applied. */
  function Step<F>(s: Sink<F>, f: F, t: SyncServer.Tuple): (r: (F, bool))
    ensures !t.found ==> r == (f, true)
    ensures t.found ==> r == s.submit(f, t.key, t.item)
  {
    if t.found then s.submit(f, t.key, t.item) else (f, true)
  }

  /** The decode loop, as a reference: the facade and cursor after the tuples `ts`. */
  function Pull<F>(s: Sink<F>, f: F, ts: seq<SyncServer.Tuple>, cursor: Time): (F, Time)
    decreases |ts|
  {
    if |ts| == 0 then (f, cursor)
    else
      var (f1, ok) := Step(s, f, ts[0]);
      Pull(s, f1, ts[1..], if ok then TmMax(cursor, ts[0].change) else cursor)
  }

  /** Which of the tuples `ts` were applied, in order. */
  function Applied<F>(s: Sink<F>, f: F, ts: seq<SyncServer.Tuple>): (oks: seq<bool>)
    ensures |oks| == |ts|
    decreases |ts|
  {
    if |ts| == 0 then []
    else
      var (f1, ok) := Step(s, f, ts[0]);
      [ok] + Applied(s, f1, ts[1..])
  }

  /**
    The cursor after a pull is the maximum of the starting cursor and the
    changes of the applied tuples: never below any of them, and equal to one.
   */
  lemma {:induction false} PullCursor<F>(s: Sink<F>, f: F, ts: seq<SyncServer.Tuple>, cursor: Time)
    ensures var c := Pull(s, f, ts, cursor).1;
      var oks := Applied(s, f, ts);
      && c >= cursor
      && (forall i :: 0 <= i < |ts| && oks[i] ==> c >= ts[i].change)
      && (c == cursor || exists i :: 0 <= i < |ts| && oks[i] && c == ts[i].change)
    decreases |ts|
  {
    if |ts| > 0 {
      var (f1, ok) := Step(s, f, ts[0]);
      var c1 := if ok then TmMax(cursor, ts[0].change) else cursor;
      PullCursor(s, f1, ts[1..], c1);
      var c := Pull(s, f, ts, cursor).1;
      var oks := Applied(s, f, ts);
      var rest := Applied(s, f1, ts[1..]);
      assert oks == [ok] + rest;
      assert forall i :: 1 <= i < |ts| ==> oks[i] == rest[i - 1] && ts[i] == ts[1..][i - 1];
      if c != cursor && c != c1 {
        var j :| 0 <= j < |ts[1..]| && rest[j] && c == ts[1..][j].change;
        assert oks[j + 1] && c == ts[j + 1].change;
      }
    }
  }

  /** Faults of the time vector: its query and its update. */
  datatype VecFaults = VecFaults(queryFails: bool, updateFails: bool)

  const NoVecFaults := VecFaults(false, false)

  /** What `SyncWith` leaves behind: whether it returned an error, the time vector, and the facade. */
  datatype Outcome<F> = Outcome(err: bool, vec: map<string, Time>, api: F)

  /** The local cursor for `node`: the zero time while the vector has no entry. */
  function Cursor(vec: map<string, Time>, node: string): Time
  {
    if node in vec then vec[node] else 0
  }

  /**
    `SyncWith(node, addr, remote)`: query the cursor (an error returns it);
    skip a peer whose known version is not after the cursor; pull (a transport
    error returns it); apply the tuples through a batch; finish the batch (an
    error returns it before the cursor is written); write the cursor back.
   */
  function Sync<F>(s: Sink<F>, api: F, vec: map<string, Time>, node: string, remote: Option<Time>,
                   response: Option<seq<Option<SyncServer.Tuple>>>, vf: VecFaults): (r: Outcome<F>)
    ensures vf.queryFails ==> r == Outcome(true, vec, api)
    ensures !vf.queryFails && remote.Some? && remote.value <= Cursor(vec, node) ==> r == Outcome(false, vec, api)
    ensures !vf.queryFails && (remote.None? || remote.value > Cursor(vec, node)) && response.None? ==> r == Outcome(true, vec, api)
    ensures r.vec != vec ==> !r.err && node in r.vec && r.vec == vec[node := r.vec[node]] && r.vec[node] >= Cursor(vec, node)
  {
    var q := SqlLog.Query(vec, node, 0, vf.queryFails);
    if q.err then Outcome(true, vec, api)
    else if remote.Some? && remote.value <= q.change then Outcome(false, vec, api)
    else
      match response
      case None => Outcome(true, vec, api)
      case Some(frames) =>
        var ts := Frames(frames);
        var (f, cursor) := Pull(s, s.start(api), ts, q.change);
        PullCursor(s, s.start(api), ts, q.change);
        var (f', finished) := s.finish(f);
        if !finished then Outcome(true, vec, f')
        else
          var (vec', ok) := SqlLog.Update(vec, node, cursor, q.exist, vf.updateFails);
          Outcome(!ok, vec', f')
  }

  /**
    Without faults, a pull that gets past the staleness check commits the
    batch and writes for `node` the maximum of the old cursor and every
    applied tuple's change, creating the entry if there was none.
   */
  lemma SyncWritesCursor<F>(s: Sink<F>, api: F, vec: map<string, Time>, node: string, remote: Option<Time>, frames: seq<Option<SyncServer.Tuple>>)
    requires remote.None? || remote.value > Cursor(vec, node)
    requires s.finish(Pull(s, s.start(api), Frames(frames), Cursor(vec, node)).0).1
    ensures var r := Sync(s, api, vec, node, remote, Some(frames), NoVecFaults);
      var ts := Frames(frames);
      var oks := Applied(s, s.start(api), ts);
      && !r.err
      && r.vec == vec[node := Pull(s, s.start(api), ts, Cursor(vec, node)).1]
      && r.vec[node] >= Cursor(vec, node)
      && (forall i :: 0 <= i < |ts| && oks[i] ==> r.vec[node] >= ts[i].change)
      && (r.vec[node] == Cursor(vec, node) || exists i :: 0 <= i < |ts| && oks[i] && r.vec[node] == ts[i].change)
  {
    PullCursor(s, s.start(api), Frames(frames), Cursor(vec, node));
  }

  /** A failed finish of the batch leaves the cursor where it was. */
  lemma FinishFailureKeepsCursor<F>(s: Sink<F>, api: F, vec: map<string, Time>, node: string, frames: seq<Option<SyncServer.Tuple>>)
    requires !s.finish(Pull(s, s.start(api), Frames(frames), Cursor(vec, node)).0).1
    ensures var r := Sync(s, api, vec, node, None, Some(frames), NoVecFaults);
      r.err && r.vec == vec
  {
  }

  /**
    The loop of `SyncWith` as the source writes it: decode until the first
    error, submit found items, advance the cursor on success.
   */
  method SyncWith<F>(s: Sink<F>, api: F, vec: map<string, Time>, node: string, remote: Option<Time>,
                     response: Option<seq<Option<SyncServer.Tuple>>>, vf: VecFaults) returns (r: Outcome<F>)
    ensures r == Sync(s, api, vec, node, remote, response, vf)
  {
    var q := SqlLog.Query(vec, node, 0, vf.queryFails);
    if q.err {
      return Outcome(true, vec, api);
    }
    if remote.Some? && remote.value <= q.change {
      return Outcome(false, vec, api);
    }
    if response.None? {
      return Outcome(true, vec, api);
    }
    var frames := response.value;
    var batch := s.start(api);
    var cursor := q.change;
    var i := 0;
    while i < |frames| && frames[i].Some?
      invariant 0 <= i <= |frames|
      invariant Pull(s, s.start(api), Frames(frames), q.change) == Pull(s, batch, Frames(frames[i..]), cursor)
      decreases |frames| - i
    {
      var t := frames[i].value;
      assert frames[i..][1..] == frames[i + 1..];
      var ts := Frames(frames[i..]);
      assert ts == [t] + Frames(frames[i + 1..]);
      assert ts[1..] == Frames(frames[i + 1..]);
      var ok;
      if t.found {
        batch, ok := s.submit(batch, t.key, t.item).0, s.submit(batch, t.key, t.item).1;
      } else {
        ok := true;
      }
      if ok {
        cursor := TmMax(cursor, t.change);
      }
      i := i + 1;
    }
    assert Frames(frames[i..]) == [];
    var finished;
    batch, finished := s.finish(batch).0, s.finish(batch).1;
    if !finished {
      return Outcome(true, vec, batch);
    }
    var (vec', ok) := SqlLog.Update(vec, node, cursor, q.exist, vf.updateFails);
    return Outcome(!ok, vec', batch);
  }

  /** A Bolt facade the syncer can hold: its buckets are well formed. */
  type GoodFacade = f: Bolt.Facade | Bolt.WfFacade(f) witness Bolt.Plain(Bolt.Db(None))

  /**
    The Bolt store as a sink: `StartBatch` opens a write transaction (or falls
    back to the plain store when `beginOk` is false), `BoltBatch.Submit`
    writes into it with the status the source returns (`fixed` false) or the
    corrected one, and `FinishBatch` commits it.
   */
  function BoltSink(p: Merger.Policy, writable: bool, fixed: bool, beginOk: bool, commitOk: bool): Sink<GoodFacade>
  {
    Sink(
      (f: GoodFacade, k: Bytes, i: Item) =>
        var r := Bolt.FacadeSubmit(p, f, k, i, writable, fixed);
        var g: GoodFacade := r.0;
        (g, r.1),
      (f: GoodFacade) =>
        var g: GoodFacade := if f.Plain? then Bolt.StartBatch(f.db, beginOk) else f;
        g,
      (f: GoodFacade) =>
        var r := Bolt.FinishBatch(f, commitOk);
        var g: GoodFacade := Bolt.Plain(r.0);
        (g, r.1))
  }

  /**
    Pulling one found tuple into a batched Bolt store with the status as
    written: the item is committed, but the inverted status keeps the cursor
    at zero, so every later pull fetches the same tuple again.
   */
  lemma BatchedPullKeepsCursor(p: Merger.Policy, node: string, key: Bytes, item: Item, change: Time)
    requires ValidKey(key) && change > 0
    ensures var r := Sync(BoltSink(p, true, false, true, true), Bolt.Plain(Bolt.Db(Some([]))), map[], node, None,
                          Some([Some(SyncServer.Tuple(key, change, true, item))]), NoVecFaults);
      && !r.err
      && r.vec == map[node := 0]
      && Bolt.Obtain(r.api.db, key, true).item == item
  {
    BatchedPull(p, false, node, key, item, change);
    Bolt.BatchStatusInverted(p, key, item);
  }

  /** With the corrected status the same pull advances the cursor to the tuple's change. */
  lemma BatchedPullAdvancesCursor(p: Merger.Policy, node: string, key: Bytes, item: Item, change: Time)
    requires ValidKey(key) && change > 0
    ensures var r := Sync(BoltSink(p, true, true, true, true), Bolt.Plain(Bolt.Db(Some([]))), map[], node, None,
                          Some([Some(SyncServer.Tuple(key, change, true, item))]), NoVecFaults);
      && !r.err
      && r.vec == map[node := change]
      && Bolt.Obtain(r.api.db, key, true).item == item
  {
    BatchedPull(p, true, node, key, item, change);
    assert View<Item>([]) == map[];
  }

  /** The steps of a one-tuple pull into a freshly started Bolt batch. */
  lemma BatchedPull(p: Merger.Policy, fixed: bool, node: string, key: Bytes, item: Item, change: Time)
    requires ValidKey(key) && change > 0
    ensures var s := BoltSink(p, true, fixed, true, true);
      var api: GoodFacade := Bolt.Plain(Bolt.Db(Some([])));
      var t := SyncServer.Tuple(key, change, true, item);
      var (tx', ok) := Bolt.BatchSubmitWith(p, Some([]), key, item, fixed);
      var r := Sync(s, api, map[], node, None, Some([Some(t)]), NoVecFaults);
      !r.err && r.vec == map[node := if ok then change else 0] && r.api == Bolt.Plain(Bolt.Db(tx'))
  {
    var s := BoltSink(p, true, fixed, true, true);
    var api: GoodFacade := Bolt.Plain(Bolt.Db(Some([])));
    var t := SyncServer.Tuple(key, change, true, item);
    var batch := Bolt.Batch(Bolt.Db(Some([])), Some([]));
    assert s.start(api) == batch;
    assert Frames([Some(t)]) == [t];
    var (tx', ok) := Bolt.BatchSubmitWith(p, Some([]), key, item, fixed);
    assert Step(s, batch, t) == (Bolt.Batch(Bolt.Db(Some([])), tx'), ok);
    var c := if ok then TmMax(0, change) else 0;
    assert Pull(s, batch, [t], 0) == Pull(s, Bolt.Batch(Bolt.Db(Some([])), tx'), [], c);
    assert s.finish(Bolt.Batch(Bolt.Db(Some([])), tx')) == (Bolt.Plain(Bolt.Db(tx')), true);
  }
}

=== FILE: syncserver.dfy ===
/**
  The replication server (`replicator/httpi.Server`): `getSince` answers a
  peer's pull with one `(key, change, found, item)` tuple per update-log entry
  at or after the requested time, and `getVersion` reports the node's own
  time-vector entry. Base64 and msgpack decoding of the path parameter are a
  parameter `since` (None when either fails); the log scan and the store's
  `Obtain` are parameters too.
 */
module SyncServer {
  import opened Types
  import opened Items
  import opened Buckets
  import SqlLog
  import Bolt
  import BoltLog
  import Tsf

  /** One tuple of the pull stream. */
  datatype Tuple = Tuple(key: Bytes, change: Time, found: bool, item: Item)

  /** The answer to a pull: a status without a body, or status 200 with tuples. */
  datatype SinceReply = BadRequest | ServerError | Tuples(tuples: seq<Tuple>)
  {
    function Status(): int
    {
      match this
      case BadRequest => 400
      case ServerError => 500
      case Tuples(_) => 200
    }
  }

  /** The tuple for one log entry: found only when the store could be read and had the key. */
  function Serve(e: LogEntry, obtain: Bytes -> Read): (t: Tuple)
    ensures t.key == e.key && t.change == e.change
    ensures t.found <==> obtain(e.key).ok && obtain(e.key).readable
    ensures !t.found ==> t.item == Nil
  {
    var r := obtain(e.key);
    var ok := r.ok && r.readable;
    Tuple(e.key, e.change, ok, if ok then r.item else Nil)
  }

  /**
    `getSince`: 400 for an undecodable `since` (the log is not read), 500 when
    the log scan fails, otherwise one tuple per entry in log order. An encode
    error on the `failsAt`-th tuple ends the stream before it.
   */
  function GetSince(since: Option<Time>, readAll: Time -> Option<seq<LogEntry>>, obtain: Bytes -> Read, failsAt: Option<nat>): (r: SinceReply)
    ensures since.None? ==> r == BadRequest
    ensures since.Some? && readAll(since.value).None? ==> r == ServerError
    ensures since.Some? && readAll(since.value).Some? ==> r.Tuples?
    ensures since.Some? && readAll(since.value).Some? ==> (
      var es := readAll(since.value).value;
      && (failsAt.None? ==> |r.tuples| == |es|)
      && (failsAt.Some? ==> |r.tuples| == if failsAt.value < |es| then failsAt.value else |es|)
      && forall i :: 0 <= i < |r.tuples| ==> r.tuples[i] == Serve(es[i], obtain))
  {
    match since
    case None => BadRequest
    case Some(t) =>
      match readAll(t)
      case None => ServerError
      case Some(es) =>
        var n := if failsAt.Some? && failsAt.value < |es| then failsAt.value else |es|;
        Tuples(seq(n, i requires 0 <= i < n => Serve(es[i], obtain)))
  }

  /** What `getVersion` encodes: the entry's `Exist` and `Value`. */
  datatype Version = Version(exist: bool, value: Time)

  /**
    `getVersion` over the time vector `vec`: a failed query is ignored and
    reports the untouched query, absent at the zero time.
   */
  function GetVersion(vec: map<string, Time>, node: string, queryFails: bool): (r: Version)
    ensures r.exist <==> !queryFails && node in vec
    ensures r.exist ==> r.value == vec[node]
    ensures !r.exist ==> r.value == 0
  {
    var q := SqlLog.Query(vec, node, 0, queryFails);
    Version(q.exist, q.change)
  }

  /**
    Served from a good Bolt log and a readable Bolt store, a pull reports
    exactly the keys logged at or after `since`, each with its logged time, and
    marks a key found exactly when the store holds a non-empty value for it.
   */
  lemma ServedFromBolt(log: BoltLog.Log, db: Bolt.Db, since: Time)
    requires BoltLog.Good(log) && BoltLog.TimesInRange(Contents(log.table)) && Tsf.InRange(since) && log.index.Some?
    requires db.pairs.Some?
    ensures BoltLog.PrefixedKeys(log.index.value)
    ensures var r := GetSince(Some(since), t => Some(BoltLog.ReadAllAsync(log, t)), k => Bolt.Obtain(db, k, true), None);
      var t := Contents(log.table);
      && r.Tuples?
      && (forall i :: 0 <= i < |r.tuples| ==>
            var x := r.tuples[i];
            && x.key in t && x.change == TimeOrZero(t[x.key]) && x.change >= since
            && (x.found <==> x.key in Contents(db.pairs) && !IsEmpty(Contents(db.pairs)[x.key])))
      && (forall k :: k in t && TimeOrZero(t[k]) >= since ==> exists i :: 0 <= i < |r.tuples| && r.tuples[i].key == k)
  {
    BoltLog.GoodIndexPrefixed(log);
    BoltLog.ReadAllSound(log, since);
    BoltLog.ReadAllComplete(log, since);
  }
}

=== FILE: table.dfy ===
/**
  The table merger (`TableMerger`): field-level last-write-wins with a row
  floor timestamp. A merged row keeps, per field, the strictly newest field not
  older than the floor, where the floor is the later of the two rows' own
  timestamps; every held field older than the floor is dropped, which lets an
  empty row with a fresh timestamp delete all older fields.
 */
module Table {
  import opened Types
  import opened Items

  /**
    The merger's fields: `changed`, `currentRow` (None is Go's nil map, the
    state after an undecodable seed) and the floor `dts`.
   */
  datatype State = State(changed: bool, current: Option<map<string, Field>>, dts: Time)

  /** A freshly allocated merger, as `Table_Factory` returns it. */
  const Fresh: State := State(false, None, 0)

  /** `Init`: clear the state, then hold the decoded seed row if it decodes. */
  function Init(item: Item): (s: State)
    ensures !s.changed
    ensures DecodeRow(item).None? ==> s.current.None? && s.dts == 0
    ensures DecodeRow(item).Some? ==> s.current == Some(DecodeRow(item).value.fields) && s.dts == DecodeRow(item).value.dts
  {
    match DecodeRow(item)
    case None => State(false, None, 0)
    case Some(row) => State(false, Some(row.fields), row.dts)
  }

  /**
    The field kept under name `k` when the held fields `m0` meet the incoming
    fields `m`: the incoming one only if the name is new or it is strictly newer.
   */
  function Pick(m0: map<string, Field>, m: map<string, Field>, k: string): Field
    requires k in m0 || k in m
  {
    if k in m && (k !in m0 || m0[k].ts < m[k].ts) then m[k] else m0[k]
  }

  /**
    The two loops of `Merge` on a decoded row, per field: the held and the
    incoming field compete, the strictly newer wins (a tie keeps the held one),
    and the winner survives only if it is not older than the floor.
   */
  function Combine(m0: map<string, Field>, m: map<string, Field>, floor: Time): (r: map<string, Field>)
    ensures forall k :: k in r ==> r[k].ts >= floor
    ensures forall k :: k in r ==> (k in m0 && r[k] == m0[k]) || (k in m && r[k] == m[k])
    ensures forall k :: k in m0 && m0[k].ts >= floor ==> k in r && r[k].ts >= m0[k].ts
    ensures forall k :: k in m && m[k].ts >= floor ==> k in r && r[k].ts >= m[k].ts
    ensures forall k :: k in m0 && k in m && m0[k].ts == m[k].ts && m0[k].ts >= floor ==> r[k] == m0[k]
  {
    map k | k in m0.Keys + m.Keys && Pick(m0, m, k).ts >= floor :: Pick(m0, m, k)
  }

  /**
    `Merge`; `corrected` selects between the source and the corrected merger,
    which differ in two places. Raising the floor alone sets `changed` only
    when corrected (table.go:69). A row adopted onto a nil row brings its own
    floor only when corrected; the source keeps the floor `Init` left
    (table.go:65-67).
   */
  function MergeWith(s: State, item: Item, corrected: bool): (r: State)
    ensures DecodeRow(item).None? ==> r == s
    ensures DecodeRow(item).Some? && s.current.None? ==>
      r == State(true, Some(DecodeRow(item).value.fields), if corrected then DecodeRow(item).value.dts else s.dts)
    ensures DecodeRow(item).Some? && s.current.Some? ==>
      && r.dts == TmMax(s.dts, DecodeRow(item).value.dts)
      && r.current.Some?
      && (forall k :: k in r.current.value ==> r.current.value[k].ts >= r.dts)
  {
    match DecodeRow(item)
    case None => s
    case Some(row) =>
      if s.current.None? then State(true, Some(row.fields), if corrected then row.dts else s.dts)
      else
        var floor := TmMax(s.dts, row.dts);
        var m' := Combine(s.current.value, row.fields, floor);
        State(s.changed || m' != s.current.value || (corrected && floor != s.dts), Some(m'), floor)
  }

  /**
    `Merge` exactly as written: only a field added, replaced or dropped sets
    `changed`, and an adopted row keeps the held floor.
   */
  function MergeAsWritten(s: State, item: Item): State
  {
    MergeWith(s, item, false)
  }

  /** The corrected `Merge`: raising the floor also sets `changed`, and an adopted row brings its floor. */
  function Merge(s: State, item: Item): State
  {
    MergeWith(s, item, true)
  }

  function Changed(s: State): bool { s.changed }

  /**
    `Result` encodes the floor and the held fields. A nil map (the state after
    an undecodable seed and undecodable items) is shown as a row without
    fields, where msgpack would encode nil; such a state reports no change,
    so no store writes it.
   */
  function Result(s: State): Item
  {
    Tabular(Row(s.dts, match s.current case Some(m) => m case None => map[]))
  }

  /** `Cleanup` drops the held row but keeps the flag and the floor. */
  function Cleanup(s: State): (r: State)
    ensures r.current.None? && r.changed == s.changed && r.dts == s.dts
  {
    s.(current := None)
  }

  /** The corrected merger after `Init(seed)` and one `Merge` per item of `rest`. */
  function Fold(seed: Item, rest: seq<Item>): State
    decreases |rest|
  {
    if |rest| == 0 then Init(seed)
    else Merge(Fold(seed, rest[..|rest| - 1]), rest[|rest| - 1])
  }

  /** The merger as written after `Init(seed)` and one `MergeAsWritten` per item. */
  function FoldAsWritten(seed: Item, rest: seq<Item>): State
    decreases |rest|
  {
    if |rest| == 0 then Init(seed)
    else MergeAsWritten(FoldAsWritten(seed, rest[..|rest| - 1]), rest[|rest| - 1])
  }

  // ---------------------------------------------------------------------------
  // The two loops of `Merge`, step by step, over Go's unordered map iteration.

  /** Whether the first loop stores the incoming field under `k`. */
  predicate Takes(m0: map<string, Field>, m: map<string, Field>, floor: Time, k: string)
  {
    k in m && m[k].ts >= floor && (k !in m0 || m0[k].ts < m[k].ts)
  }

  /** The held fields once the first loop has visited the incoming names in `seen`. */
  function Overlay(m0: map<string, Field>, m: map<string, Field>, floor: Time, seen: set<string>): map<string, Field>
  {
    map k | k in m0.Keys + seen && (k in m0 || Takes(m0, m, floor, k)) ::
      if k in seen && Takes(m0, m, floor, k) then m[k] else m0[k]
  }

  /** One visit of the first loop: the name's entry is still the held one before it. */
  lemma OverlayStep(m0: map<string, Field>, m: map<string, Field>, floor: Time, seen: set<string>, k: string)
    requires k in m && k !in seen
    ensures var cur := Overlay(m0, m, floor, seen);
      && (k in cur <==> k in m0)
      && (k in cur ==> cur[k] == m0[k])
      && Overlay(m0, m, floor, seen + {k}) == if Takes(m0, m, floor, k) then cur[k := m[k]] else cur
  {
    var cur := Overlay(m0, m, floor, seen);
    var next := Overlay(m0, m, floor, seen + {k});
    var want := if Takes(m0, m, floor, k) then cur[k := m[k]] else cur;
    assert next.Keys == want.Keys;
    assert forall j :: j in next ==> next[j] == want[j];
  }

  /** After the first loop, deleting the fields older than the floor yields `Combine`. */
  lemma OverlayThenPrune(m0: map<string, Field>, m: map<string, Field>, floor: Time)
    ensures var s1 := Overlay(m0, m, floor, m.Keys);
      (map k | k in s1 && s1[k].ts >= floor :: s1[k]) == Combine(m0, m, floor)
  {
    var s1 := Overlay(m0, m, floor, m.Keys);
    var p := map k | k in s1 && s1[k].ts >= floor :: s1[k];
    var c := Combine(m0, m, floor);
    forall k | k in m0.Keys + m.Keys
      ensures (k in p <==> k in c) && (k in p ==> p[k] == c[k])
    {
      if Takes(m0, m, floor, k) {
        assert s1[k] == m[k] == Pick(m0, m, k);
      } else if k in m0 {
        assert s1[k] == m0[k];
      }
    }
    assert p.Keys == c.Keys;
  }

  /**
    The flag the loops raise (a field stored in the first loop, or a field
    older than the floor deleted in the second) is raised exactly when the
    field map ends up different from the held one.
   */
  lemma FlagMeansFieldsDiffer(m0: map<string, Field>, m: map<string, Field>, floor: Time)
    ensures var s1 := Overlay(m0, m, floor, m.Keys);
      ((exists k :: Takes(m0, m, floor, k)) || (exists k :: k in s1 && s1[k].ts < floor))
      <==> Combine(m0, m, floor) != m0
  {
    var s1 := Overlay(m0, m, floor, m.Keys);
    var c := Combine(m0, m, floor);
    if k :| Takes(m0, m, floor, k) {
      assert k in c && c[k] == m[k];
      assert k !in m0 || m0[k] != m[k];
    } else if k :| k in s1 && s1[k].ts < floor {
      assert k in m0 && k !in c;
    } else {
      forall k | k in m0 ensures k in c && c[k] == m0[k] {
        assert k in s1 && s1[k] == m0[k];
        assert Pick(m0, m, k) == m0[k];
      }
      forall k | k in c ensures k in m0 {
        assert !Takes(m0, m, floor, k);
      }
      assert c.Keys == m0.Keys;
    }
  }

  /** The first loop of `Merge`: store every incoming field that wins against the held one. */
  method VisitIncoming(m0: map<string, Field>, m: map<string, Field>, floor: Time)
    returns (cur: map<string, Field>, changed: bool)
    ensures cur == Overlay(m0, m, floor, m.Keys)
    ensures changed <==> exists k :: Takes(m0, m, floor, k)
  {
    cur := m0;
    changed := false;
    var todo := m.Keys;
    assert cur == Overlay(m0, m, floor, {});
    while todo != {}
      invariant todo <= m.Keys
      invariant cur == Overlay(m0, m, floor, m.Keys - todo)
      invariant changed <==> exists k :: k in m.Keys - todo && Takes(m0, m, floor, k)
      decreases todo
    {
      var k :| k in todo;
      OverlayStep(m0, m, floor, m.Keys - todo, k);
      assert m.Keys - (todo - {k}) == (m.Keys - todo) + {k};
      var v := m[k];
      if v.ts >= floor {
        if k !in cur {
          cur := cur[k := v];
          changed := true;
        } else if cur[k].ts < v.ts {
          cur := cur[k := v];
          changed := true;
        }
      }
      todo := todo - {k};
    }
    assert m.Keys - todo == m.Keys;
  }

  /** The second loop of `Merge`: list the held names whose field is older than the floor. */
  method CollectOlder(cur: map<string, Field>, floor: Time) returns (lst: set<string>)
    ensures lst == set k | k in cur && cur[k].ts < floor
  {
    lst := {};
    var scan := cur.Keys;
    while scan != {}
      invariant scan <= cur.Keys
      invariant lst == set k | k in cur.Keys - scan && cur[k].ts < floor
      decreases scan
    {
      var k :| k in scan;
      if cur[k].ts < floor {
        lst := lst + {k};
      }
      scan := scan - {k};
    }
  }

  /** The third loop of `Merge`: delete the listed names, marking a change for each. */
  method DeleteNames(stage: map<string, Field>, all: set<string>, changedIn: bool)
    returns (cur: map<string, Field>, changed: bool)
    ensures cur == map k | k in stage && k !in all :: stage[k]
    ensures changed <==> changedIn || all != {}
  {
    cur := stage;
    changed := changedIn;
    var lst := all;
    while lst != {}
      invariant lst <= all
      invariant cur == map k | k in stage && k !in all - lst :: stage[k]
      invariant changed <==> changedIn || all - lst != {}
      decreases lst
    {
      var k :| k in lst;
      cur := cur - {k};
      changed := true;
      lst := lst - {k};
    }
    assert all - lst == all;
  }

  /**
    The source's loops over Go's unordered maps: visit the incoming fields,
    storing each one that is not older than the floor and is new or strictly
    newer; then delete every held field older than the floor. Whatever the
    visiting order, the result is `Combine`, and the flag the loops raise says
    exactly whether the field map changed.
   */
  method MergeFields(m0: map<string, Field>, m: map<string, Field>, floor: Time)
    returns (cur: map<string, Field>, changed: bool)
    ensures cur == Combine(m0, m, floor)
    ensures changed <==> cur != m0
  {
    var stage, taken := VisitIncoming(m0, m, floor);
    var all := CollectOlder(stage, floor);
    cur, changed := DeleteNames(stage, all, taken);
    OverlayThenPrune(m0, m, floor);
    FlagMeansFieldsDiffer(m0, m, floor);
    assert cur == map k | k in stage && stage[k].ts >= floor :: stage[k];
    assert all != {} <==> exists k :: k in stage && stage[k].ts < floor;
  }

  // ---------------------------------------------------------------------------
  // Writing and reading rows.

  /** `Table_Put`: every field stamped with `now`, row floor zero. */
  function Put(src: map<string, Bytes>, now: Time): (item: Item)
    ensures DecodeRow(item).Some?
    ensures DecodeRow(item).value.dts == 0
    ensures DecodeRow(item).value.fields.Keys == src.Keys
    ensures forall k :: k in src ==> DecodeRow(item).value.fields[k] == Field(now, src[k])
  {
    Tabular(Row(0, map k | k in src :: Field(now, src[k])))
  }

  /** `Table_Delete`: no fields, floor `now`. */
  function Delete(now: Time): (item: Item)
    ensures DecodeRow(item) == Some(Row(now, map[]))
  {
    Tabular(Row(now, map[]))
  }

  /**
    `Table_Decode`: nothing unless the read found an item and the store was
    readable, the item decodes as a row and the row has a field; otherwise the
    field values by name.
   */
  function Decode(item: Item, inOk: bool, readable: bool): (r: Option<map<string, Bytes>>)
    ensures r.Some? <==> inOk && readable && DecodeRow(item).Some? && |DecodeRow(item).value.fields| > 0
    ensures r.Some? ==> r.value.Keys == DecodeRow(item).value.fields.Keys
    ensures r.Some? ==> forall k :: k in r.value ==> r.value[k] == DecodeRow(item).value.fields[k].value
  {
    if !(inOk && readable) then None
    else match DecodeRow(item)
      case None => None
      case Some(row) =>
        if |row.fields| == 0 then None
        else Some(map k | k in row.fields :: row.fields[k].value)
  }

  /** Reading back a written row gives the written values; an empty row reads as nothing. */
  lemma DecodePut(src: map<string, Bytes>, now: Time)
    ensures Decode(Put(src, now), true, true) == if |src| == 0 then None else Some(src)
  {
    var fields := DecodeRow(Put(src, now)).value.fields;
    assert |fields| == |src| by {
      assert fields.Keys == src.Keys;
      assert |fields| == |fields.Keys| && |src| == |src.Keys|;
    }
    if |src| > 0 {
      var d := Decode(Put(src, now), true, true).value;
      assert d.Keys == src.Keys;
      assert forall k :: k in d ==> d[k] == src[k];
      assert d == src;
    }
  }

  /**
    A delete merged into a decoded row drops exactly the fields older than the
    new floor, the later of the held floor and the delete's time.
   */
  lemma DeleteDropsOlderFields(s: State, now: Time)
    requires s.current.Some?
    ensures var r := Merge(s, Delete(now));
      && r.dts == TmMax(s.dts, now)
      && r.current == Some(map k | k in s.current.value && s.current.value[k].ts >= TmMax(s.dts, now) :: s.current.value[k])
  {
    var m0 := s.current.value;
    var floor := TmMax(s.dts, now);
    var c := Combine(m0, map[], floor);
    var want := map k | k in m0 && m0[k].ts >= floor :: m0[k];
    assert forall k :: k in m0 ==> Pick(m0, map[], k) == m0[k];
    assert c.Keys == want.Keys;
    assert c == want;
  }

  // ---------------------------------------------------------------------------
  // The merger's interface promise: `Changed()` iff `Result()` differs from the
  // seed. Stores merge exactly two items (stored value, incoming item).

  /** The corrected merger keeps the promise for a decodable seed and any incoming item. */
  lemma ChangedIffResultDiffersPair(seed: Item, x: Item)
    requires DecodeRow(seed).Some?
    ensures Changed(Fold(seed, [x])) <==> Result(Fold(seed, [x])) != seed
  {
    assert [x][..0] == [];
  }

  /**
    The merger as written breaks the promise: raising the floor alone leaves
    `changed` false although `Result()` now carries the later floor.
   */
  lemma FloorRaiseUnreported()
    ensures var seed := Tabular(Row(1, map["a" := Field(5, [])]));
      var s := FoldAsWritten(seed, [Delete(2)]);
      && !Changed(s)
      && Result(s) == Tabular(Row(2, map["a" := Field(5, [])]))
      && Result(s) != seed
  {
    var seed := Tabular(Row(1, map["a" := Field(5, [])]));
    assert [Delete(2)][..0] == [];
    var m0 := map["a" := Field(5, [])];
    assert Combine(m0, map[], 2) == m0;
  }

  /**
    The source's merger keeps the promise in weakened form: for a decodable
    seed and any incoming item, `Changed()` holds exactly when the result's
    fields differ from the seed's, whatever happened to the floor.
   */
  lemma AsWrittenChangedIffFieldsDiffer(seed: Item, x: Item)
    requires DecodeRow(seed).Some?
    ensures Result(FoldAsWritten(seed, [x])).Tabular?
    ensures Changed(FoldAsWritten(seed, [x])) <==> Result(FoldAsWritten(seed, [x])).row.fields != seed.row.fields
  {
    assert [x][..0] == [];
  }

  /**
    From a decodable seed the two mergers differ only in the `changed` flag:
    after the same items they hold the same floor and the same fields, so
    their results agree, and the source's merger reports a change only when
    the corrected one does.
   */
  lemma {:induction false} AsWrittenAgreesOnRow(seed: Item, rest: seq<Item>)
    requires DecodeRow(seed).Some?
    ensures FoldAsWritten(seed, rest).current == Fold(seed, rest).current
    ensures FoldAsWritten(seed, rest).dts == Fold(seed, rest).dts
    ensures Result(FoldAsWritten(seed, rest)) == Result(Fold(seed, rest))
    ensures Changed(FoldAsWritten(seed, rest)) ==> Changed(Fold(seed, rest))
    decreases |rest|
  {
    if |rest| > 0 {
      AsWrittenAgreesOnRow(seed, rest[..|rest| - 1]);
      FoldHoldsRow(seed, rest[..|rest| - 1]);
    }
  }

  /** From a decodable seed, both mergers always hold a row (never Go's nil map). */
  lemma {:induction false} FoldHoldsRow(seed: Item, rest: seq<Item>)
    requires DecodeRow(seed).Some?
    ensures Fold(seed, rest).current.Some?
    decreases |rest|
  {
    if |rest| > 0 {
      FoldHoldsRow(seed, rest[..|rest| - 1]);
    }
  }

  /**
    Continuing a fold from its own result, re-read as the seed, merges the
    next item to the same result: what a store writes back is all the merger
    needs to carry on.
   */
  lemma ResumeFromResult(seed: Item, rest: seq<Item>, x: Item)
    requires DecodeRow(seed).Some?
    ensures Result(Fold(Result(Fold(seed, rest)), [x])) == Result(Fold(seed, rest + [x]))
  {
    FoldHoldsRow(seed, rest);
    assert [x][..0] == [];
    assert (rest + [x])[..|rest|] == rest;
  }
}

=== FILE: table_join.dfy ===
/**
  Convergence of the table merger: folding a list of rows computes a join
  described independently of the order of the list — the greatest floor, and
  per field name the newest field not older than that floor. With distinct
  field timestamps the join is unique, so every order of the same rows merges
  to the same result, and merging a row twice is the same as merging it once.
 */
module TableJoin {
  import opened Types
  import opened Items
  import opened Table

  /** A row whose fields are none of them older than its own floor (all rows the system writes). */
  ghost predicate Normalized(x: Item)
  {
    x.Tabular? && forall k :: k in x.row.fields ==> x.row.fields[k].ts >= x.row.dts
  }

  /** Two rows of the list never hold different fields under one name with one timestamp. */
  ghost predicate DistinctFieldStamps(xs: seq<Item>)
  {
    forall x, y, k ::
      x in xs && y in xs && x.Tabular? && y.Tabular? && k in x.row.fields && k in y.row.fields
      && x.row.fields[k].ts == y.row.fields[k].ts
      ==> x.row.fields[k] == y.row.fields[k]
  }

  /**
    `(floor, fields)` is the join of the decodable rows of `xs`: the floor is
    their greatest floor; a name is held iff some row has a field under it not
    older than the floor; and the held field is one of those, with the greatest
    timestamp under that name.
   */
  ghost predicate IsJoin(xs: seq<Item>, floor: Time, fields: map<string, Field>)
  {
    && (forall x :: x in xs && x.Tabular? ==> x.row.dts <= floor)
    && (exists x :: x in xs && x.Tabular? && x.row.dts == floor)
    && (forall k :: k in fields ==> fields[k].ts >= floor)
    && (forall k :: k in fields ==> exists x :: x in xs && x.Tabular? && k in x.row.fields && x.row.fields[k] == fields[k])
    && (forall x, k :: x in xs && x.Tabular? && k in x.row.fields && x.row.fields[k].ts >= floor ==>
          k in fields && x.row.fields[k].ts <= fields[k].ts)
  }

  /** A normalized seed alone is its own join. */
  lemma JoinSeed(seed: Item)
    requires Normalized(seed)
    ensures IsJoin([seed], seed.row.dts, seed.row.fields)
  {
    assert seed in [seed];
    forall k | k in seed.row.fields
      ensures exists x :: x in [seed] && x.Tabular? && k in x.row.fields && x.row.fields[k] == seed.row.fields[k]
    {
      assert seed in [seed];
    }
  }

  /** Merging one more decodable row extends the join to that row. */
  lemma JoinStep(xs: seq<Item>, floor: Time, fields: map<string, Field>, x: Item)
    requires IsJoin(xs, floor, fields) && x.Tabular?
    ensures var f := TmMax(floor, x.row.dts);
      IsJoin(xs + [x], f, Combine(fields, x.row.fields, f))
  {
    var f := TmMax(floor, x.row.dts);
    var c := Combine(fields, x.row.fields, f);
    var ys := xs + [x];
    assert forall y :: y in ys <==> y in xs || y == x;
    if floor < x.row.dts {
      assert x in ys;
    } else {
      var w :| w in xs && w.Tabular? && w.row.dts == floor;
      assert w in ys;
    }
    forall k | k in c
      ensures exists y :: y in ys && y.Tabular? && k in y.row.fields && y.row.fields[k] == c[k]
    {
      if k in x.row.fields && c[k] == x.row.fields[k] {
        assert x in ys;
      } else {
        var w :| w in xs && w.Tabular? && k in w.row.fields && w.row.fields[k] == fields[k];
        assert w in ys;
      }
    }
    forall y, k | y in ys && y.Tabular? && k in y.row.fields && y.row.fields[k].ts >= f
      ensures k in c && y.row.fields[k].ts <= c[k].ts
    {
      if y != x {
        assert y in xs;
      }
    }
  }

  /** An undecodable item leaves the join as it was. */
  lemma JoinSkip(xs: seq<Item>, floor: Time, fields: map<string, Field>, x: Item)
    requires IsJoin(xs, floor, fields) && !x.Tabular?
    ensures IsJoin(xs + [x], floor, fields)
  {
    var ys := xs + [x];
    assert forall y :: y in ys <==> y in xs || y == x;
    var w :| w in xs && w.Tabular? && w.row.dts == floor;
    assert w in ys;
    forall k | k in fields
      ensures exists y :: y in ys && y.Tabular? && k in y.row.fields && y.row.fields[k] == fields[k]
    {
      var v :| v in xs && v.Tabular? && k in v.row.fields && v.row.fields[k] == fields[k];
      assert v in ys;
    }
  }

  /** From a normalized seed, every fold of the corrected merger holds the join of all rows merged. */
  lemma {:induction false} FoldIsJoin(seed: Item, rest: seq<Item>)
    requires Normalized(seed)
    ensures Fold(seed, rest).current.Some?
    ensures IsJoin([seed] + rest, Fold(seed, rest).dts, Fold(seed, rest).current.value)
    decreases |rest|
  {
    if |rest| == 0 {
      assert [seed] + rest == [seed];
      JoinSeed(seed);
    } else {
      var front := rest[..|rest| - 1];
      var x := rest[|rest| - 1];
      FoldIsJoin(seed, front);
      assert [seed] + rest == ([seed] + front) + [x];
      var s := Fold(seed, front);
      if x.Tabular? {
        JoinStep([seed] + front, s.dts, s.current.value, x);
      } else {
        JoinSkip([seed] + front, s.dts, s.current.value, x);
      }
    }
  }

  /** The source's merger holds the same join: it differs from the corrected one only in `changed`. */
  lemma AsWrittenFoldIsJoin(seed: Item, rest: seq<Item>)
    requires Normalized(seed)
    ensures FoldAsWritten(seed, rest).current.Some?
    ensures IsJoin([seed] + rest, FoldAsWritten(seed, rest).dts, FoldAsWritten(seed, rest).current.value)
  {
    FoldIsJoin(seed, rest);
    AsWrittenAgreesOnRow(seed, rest);
  }

  /** Lists with the same multiset have the same length and the same members. */
  lemma SameRows(xs: seq<Item>, ys: seq<Item>)
    requires multiset(xs) == multiset(ys)
    ensures |xs| == |ys|
    ensures forall x :: x in xs <==> x in ys
  {
    assert forall x :: x in xs <==> x in multiset(xs);
    assert forall x :: x in ys <==> x in multiset(ys);
    assert |ys| == |multiset(ys)| == |multiset(xs)| == |xs|;
  }

  /** Only one floor is the greatest floor of the rows. */
  lemma JoinFloorUnique(xs: seq<Item>, f1: Time, m1: map<string, Field>, f2: Time, m2: map<string, Field>)
    requires IsJoin(xs, f1, m1) && IsJoin(xs, f2, m2)
    ensures f1 == f2
  {
    var w1 :| w1 in xs && w1.Tabular? && w1.row.dts == f1;
    var w2 :| w2 in xs && w2.Tabular? && w2.row.dts == f2;
    assert f1 <= f2 && f2 <= f1;
  }

  /** Under one floor, the held field of each name is the same in any two joins. */
  lemma JoinFieldUnique(xs: seq<Item>, f: Time, m1: map<string, Field>, m2: map<string, Field>, k: string)
    requires IsJoin(xs, f, m1) && IsJoin(xs, f, m2) && DistinctFieldStamps(xs)
    requires k in m1
    ensures k in m2 && m2[k] == m1[k]
  {
    var v1 :| v1 in xs && v1.Tabular? && k in v1.row.fields && v1.row.fields[k] == m1[k];
    assert v1.row.fields[k].ts >= f;
    assert k in m2 && m1[k].ts <= m2[k].ts;
    var v2 :| v2 in xs && v2.Tabular? && k in v2.row.fields && v2.row.fields[k] == m2[k];
    assert v2.row.fields[k].ts >= f;
    assert m2[k].ts <= m1[k].ts;
    assert v1.row.fields[k] == v2.row.fields[k];
  }

  /** Every name held in `m1` is held in `m2` with the same field. */
  ghost predicate Within(m1: map<string, Field>, m2: map<string, Field>)
  {
    forall k :: k in m1 ==> k in m2 && m2[k] == m1[k]
  }

  lemma JoinFieldsWithin(xs: seq<Item>, f: Time, m1: map<string, Field>, m2: map<string, Field>)
    requires IsJoin(xs, f, m1) && IsJoin(xs, f, m2) && DistinctFieldStamps(xs)
    ensures Within(m1, m2)
  {
    forall k | k in m1
      ensures k in m2 && m2[k] == m1[k]
    {
      JoinFieldUnique(xs, f, m1, m2, k);
    }
  }

  lemma WithinBothWays(m1: map<string, Field>, m2: map<string, Field>)
    requires Within(m1, m2) && Within(m2, m1)
    ensures m1 == m2
  {
    assert m1.Keys == m2.Keys;
  }

  /** With distinct field timestamps there is only one join. */
  lemma JoinUnique(xs: seq<Item>, f1: Time, m1: map<string, Field>, f2: Time, m2: map<string, Field>)
    requires IsJoin(xs, f1, m1) && IsJoin(xs, f2, m2) && DistinctFieldStamps(xs)
    ensures f1 == f2 && m1 == m2
  {
    JoinFloorUnique(xs, f1, m1, f2, m2);
    JoinFieldsWithin(xs, f1, m1, m2);
    JoinFieldsWithin(xs, f1, m2, m1);
    WithinBothWays(m1, m2);
  }

  /** The join depends on the rows only through which rows there are. */
  lemma JoinSameMembers(xs: seq<Item>, ys: seq<Item>, f: Time, m: map<string, Field>)
    requires forall x :: x in xs <==> x in ys
    requires IsJoin(ys, f, m)
    ensures IsJoin(xs, f, m)
  {
  }

  /**
    Order independence: any two orders of the same rows, each starting from
    a normalized seed, merge to the same result when field timestamps are
    distinct.
   */
  lemma ResultOrderIndependent(xs: seq<Item>, ys: seq<Item>)
    requires |xs| > 0 && multiset(xs) == multiset(ys)
    requires Normalized(xs[0]) && Normalized(ys[0])
    requires DistinctFieldStamps(xs)
    ensures Result(Fold(xs[0], xs[1..])) == Result(Fold(ys[0], ys[1..]))
  {
    SameRows(xs, ys);
    assert [xs[0]] + xs[1..] == xs;
    assert [ys[0]] + ys[1..] == ys;
    FoldIsJoin(xs[0], xs[1..]);
    FoldIsJoin(ys[0], ys[1..]);
    var a, b := Fold(xs[0], xs[1..]), Fold(ys[0], ys[1..]);
    JoinSameMembers(xs, ys, b.dts, b.current.value);
    JoinUnique(xs, a.dts, a.current.value, b.dts, b.current.value);
  }

  /** The source's merger is order independent in the same sense. */
  lemma AsWrittenOrderIndependent(xs: seq<Item>, ys: seq<Item>)
    requires |xs| > 0 && multiset(xs) == multiset(ys)
    requires Normalized(xs[0]) && Normalized(ys[0])
    requires DistinctFieldStamps(xs)
    ensures Result(FoldAsWritten(xs[0], xs[1..])) == Result(FoldAsWritten(ys[0], ys[1..]))
  {
    ResultOrderIndependent(xs, ys);
    SameRows(xs, ys);
    AsWrittenAgreesOnRow(xs[0], xs[1..]);
    AsWrittenAgreesOnRow(ys[0], ys[1..]);
  }

  /**
    Idempotence: merging again a row that is already folded in leaves the
    whole merger state as it was, the `changed` flag included.
   */
  lemma MergeIdempotent(seed: Item, rest: seq<Item>, x: Item)
    requires Normalized(seed) && (x == seed || x in rest)
    requires DistinctFieldStamps([seed] + rest)
    ensures Fold(seed, rest + [x]) == Fold(seed, rest)
  {
    var xs := [seed] + rest;
    assert (rest + [x])[..|rest|] == rest;
    FoldIsJoin(seed, rest);
    FoldIsJoin(seed, rest + [x]);
    assert [seed] + (rest + [x]) == xs + [x];
    assert forall y :: y in xs <==> y in xs + [x];
    var a, b := Fold(seed, rest), Fold(seed, rest + [x]);
    JoinSameMembers(xs, xs + [x], b.dts, b.current.value);
    JoinUnique(xs, a.dts, a.current.value, b.dts, b.current.value);
  }

  /** The source's merger is idempotent in the same sense, its `changed` flag included. */
  lemma AsWrittenMergeIdempotent(seed: Item, rest: seq<Item>, x: Item)
    requires Normalized(seed) && (x == seed || x in rest)
    requires DistinctFieldStamps([seed] + rest)
    ensures FoldAsWritten(seed, rest + [x]) == FoldAsWritten(seed, rest)
  {
    MergeIdempotent(seed, rest, x);
    AsWrittenAgreesOnRow(seed, rest);
    assert (rest + [x])[..|rest|] == rest;
    assert Fold(seed, rest + [x]) == Merge(Fold(seed, rest), x);
    assert FoldAsWritten(seed, rest + [x]) == MergeAsWritten(FoldAsWritten(seed, rest), x);
  }

  /**
    The worked example: row {floor 1, a:(1,"x"), b:(1,"y")} merged with
    {floor 2, a:(2,"z")} gives {floor 2, a:(2,"z")}; `b` falls below the floor.
   */
  lemma FieldLevelExample()
    ensures var r1 := Tabular(Row(1, map["a" := Field(1, [120]), "b" := Field(1, [121])]));
      var r2 := Tabular(Row(2, map["a" := Field(2, [122])]));
      Result(Fold(r1, [r2])) == Tabular(Row(2, map["a" := Field(2, [122])]))
  {
    var m1 := map["a" := Field(1, [120]), "b" := Field(1, [121])];
    var m2 := map["a" := Field(2, [122])];
    var r1 := Tabular(Row(1, m1));
    var r2 := Tabular(Row(2, m2));
    assert [r2][..0] == [];
    assert Fold(r1, [r2]) == Merge(Init(r1), r2);
    ExampleCombine(m1, m2);
  }

  lemma ExampleCombine(m1: map<string, Field>, m2: map<string, Field>)
    requires m1 == map["a" := Field(1, [120]), "b" := Field(1, [121])]
    requires m2 == map["a" := Field(2, [122])]
    ensures Combine(m1, m2, 2) == m2
  {
    var c := Combine(m1, m2, 2);
    assert "a" != "b";
    assert Pick(m1, m2, "a") == Field(2, [122]);
    assert Pick(m1, m2, "b") == Field(1, [121]);
    assert m1.Keys + m2.Keys == {"a", "b"};
    assert c.Keys == {"a"};
  }
}

=== FILE: tsf.dfy ===
/**
  The time prefix of the Bolt update log's index keys. The log renders a time
  with the fixed-width layout `20060102150405.000000000` (24 bytes: fourteen
  digits, a dot, nine digits of nanoseconds) and appends the key. The model
  renders the whole seconds since the zero time in the fourteen digits and
  the nanoseconds in the nine; times outside that range render as 24 bytes
  the parser rejects.
 */
module Tsf {
  import opened Types
  import opened Buckets

  /** `len(TSF)`. */
  const Width: nat := 24

  const SecDigits: nat := 14
  const NanoDigits: nat := 9

  function Pow10(n: nat): (r: nat)
    ensures r >= 1
  {
    if n == 0 then 1 else 10 * Pow10(n - 1)
  }

  /** The times the layout can render: zero up to the largest fourteen-digit second. */
  predicate InRange(t: Time)
  {
    0 <= t < Pow10(SecDigits) * Pow10(NanoDigits)
  }

  const Zero: byte := 48
  const Dot: byte := 46
  /** What an out-of-range time renders as: no digit, so parsing fails. */
  const Unrenderable: byte := 63

  predicate IsDigit(b: byte)
  {
    Zero <= b <= Zero + 9
  }

  /** `n` in exactly `w` decimal digits, most significant first. */
  function Digits(n: nat, w: nat): (s: Bytes)
    requires n < Pow10(w)
    ensures |s| == w
    ensures forall i :: 0 <= i < |s| ==> IsDigit(s[i])
  {
    if w == 0 then []
    else Digits(n / 10, w - 1) + [(Zero as int + n % 10) as byte]
  }

  /** The number a run of digits spells. */
  function Value(s: Bytes): nat
    requires forall i :: 0 <= i < |s| ==> IsDigit(s[i])
  {
    if |s| == 0 then 0
    else
      assert IsDigit(s[|s| - 1]);
      10 * Value(s[..|s| - 1]) + (s[|s| - 1] as int - Zero as int)
  }

  /** `t.UTC().AppendFormat(nil, TSF)`: always `Width` bytes. */
  function Format(t: Time): (s: Bytes)
    ensures |s| == Width
  {
    if InRange(t) then
      Digits(t / Pow10(NanoDigits), SecDigits) + [Dot] + Digits(t % Pow10(NanoDigits), NanoDigits)
    else seq(Width, _ => Unrenderable)
  }

  /** `time.Parse(TSF, string(s))`: accepts exactly the rendered shape. */
  function Parse(s: Bytes): (r: Option<Time>)
    ensures r.Some? ==> InRange(r.value)
  {
    if |s| == Width && s[SecDigits] == Dot
       && (forall i :: 0 <= i < SecDigits ==> IsDigit(s[i]))
       && (forall i :: SecDigits < i < Width ==> IsDigit(s[i]))
    then
      var secs, nanos := s[..SecDigits], s[SecDigits + 1..];
      assert forall i :: 0 <= i < |nanos| ==> nanos[i] == s[SecDigits + 1 + i];
      ValueBound(secs);
      ValueBound(nanos);
      SplitBound(Value(secs), Value(nanos), Pow10(SecDigits), Pow10(NanoDigits));
      Some(Value(secs) * Pow10(NanoDigits) + Value(nanos))
    else None
  }

  /** Seconds and nanoseconds in range combine to a time in range. */
  lemma SplitBound(x: nat, y: nat, a: nat, b: nat)
    requires x < a && y < b
    ensures x * b + y < a * b
  {
    MulMono(b, x + 1, a);
    assert b * (x + 1) == x * b + b;
  }

  lemma {:induction false} ValueBound(s: Bytes)
    requires forall i :: 0 <= i < |s| ==> IsDigit(s[i])
    ensures Value(s) < Pow10(|s|)
    decreases |s|
  {
    if |s| > 0 {
      ValueBound(s[..|s| - 1]);
    }
  }

  lemma {:induction false} ValueDigits(n: nat, w: nat)
    requires n < Pow10(w)
    ensures Value(Digits(n, w)) == n
    decreases w
  {
    if w > 0 {
      var s := Digits(n, w);
      assert s[..|s| - 1] == Digits(n / 10, w - 1);
      ValueDigits(n / 10, w - 1);
    }
  }

  /** Parsing a rendered time gives the time back; an unrenderable one does not parse. */
  lemma ParseFormat(t: Time)
    ensures InRange(t) ==> Parse(Format(t)) == Some(t)
    ensures !InRange(t) ==> Parse(Format(t)).None?
  {
    var s := Format(t);
    if InRange(t) {
      var secs, nanos := t / Pow10(NanoDigits), t % Pow10(NanoDigits);
      var a, b := Digits(secs, SecDigits), Digits(nanos, NanoDigits);
      assert s == a + [Dot] + b;
      assert s[..SecDigits] == a;
      assert s[SecDigits + 1..] == b;
      ValueDigits(secs, SecDigits);
      ValueDigits(nanos, NanoDigits);
    } else {
      assert s[SecDigits] == Unrenderable;
    }
  }

  /** Fixed-width digit strings order like the numbers they spell. */
  lemma {:induction false} DigitsOrder(a: nat, b: nat, w: nat)
    requires a < b < Pow10(w)
    ensures Less(Digits(a, w), Digits(b, w))
    decreases w
  {
    var da, db := Digits(a / 10, w - 1), Digits(b / 10, w - 1);
    var la, lb: Bytes := [(Zero as int + a % 10) as byte], [(Zero as int + b % 10) as byte];
    if a / 10 < b / 10 {
      DigitsOrder(a / 10, b / 10, w - 1);
      LessPrefixDecides(da, db, la, lb);
    } else {
      assert da == db;
      LessCommonPrefix(da, la, lb);
    }
  }

  lemma DivModOrder(a: nat, b: nat, n: nat)
    requires a < b && n > 0
    ensures a / n < b / n || (a / n == b / n && a % n < b % n)
  {
    var q1, q2 := a / n, b / n;
    assert a == n * q1 + a % n;
    assert b == n * q2 + b % n;
    if q1 > q2 {
      MulMono(n, q2 + 1, q1);
    }
  }

  lemma MulMono(n: nat, x: nat, y: nat)
    requires x <= y
    ensures n * x <= n * y
  {
    var d: nat := y - x;
    assert n * y == n * x + n * d;
  }

  /** Rendering preserves the order of times in range. */
  lemma FormatOrder(a: Time, b: Time)
    requires InRange(a) && InRange(b) && a < b
    ensures Less(Format(a), Format(b))
  {
    var n := Pow10(NanoDigits);
    DivModOrder(a, b, n);
    var sa, sb := Digits(a / n, SecDigits), Digits(b / n, SecDigits);
    var ta, tb := [Dot] + Digits(a % n, NanoDigits), [Dot] + Digits(b % n, NanoDigits);
    assert Format(a) == sa + ta && Format(b) == sb + tb;
    if a / n < b / n {
      DigitsOrder(a / n, b / n, SecDigits);
      LessPrefixDecides(sa, sb, ta, tb);
    } else {
      DigitsOrder(a % n, b % n, NanoDigits);
      LessCommonPrefix([Dot], Digits(a % n, NanoDigits), Digits(b % n, NanoDigits));
      LessCommonPrefix(sa, ta, tb);
    }
  }

  /** `makeKey2(buf, &t, key)`: the rendered time followed by the key. */
  function MakeKey2(t: Time, key: Bytes): (r: Bytes)
    ensures |r| == Width + |key|
    ensures r[..Width] == Format(t) && r[Width..] == key
  {
    Format(t) + key
  }

  /** The key can be read back from an index key: two index keys of different keys differ. */
  lemma MakeKey2Injective(t1: Time, k1: Bytes, t2: Time, k2: Bytes)
    requires MakeKey2(t1, k1) == MakeKey2(t2, k2)
    ensures k1 == k2 && Format(t1) == Format(t2)
  {
    assert k1 == MakeKey2(t1, k1)[Width..];
  }

  /** Index keys order first by time: a key's bytes matter only between equal times. */
  lemma MakeKey2Order(t1: Time, k1: Bytes, t2: Time, k2: Bytes)
    requires InRange(t1) && InRange(t2) && t1 < t2
    ensures Less(MakeKey2(t1, k1), MakeKey2(t2, k2))
  {
    FormatOrder(t1, t2);
    LessPrefixDecides(Format(t1), Format(t2), k1, k2);
  }

  /** An index key sorts below the bare prefix of a later time, and not below that of an earlier or equal one. */
  lemma MakeKey2AgainstPrefix(t: Time, k: Bytes, since: Time)
    requires InRange(t) && InRange(since)
    ensures Less(MakeKey2(t, k), Format(since)) <==> t < since
  {
    if t < since {
      FormatOrder(t, since);
      LessPrefixDecides(Format(t), Format(since), k, []);
      assert Format(since) + [] == Format(since);
    } else if t == since {
      LessCommonPrefix(Format(t), k, []);
      assert Format(t) + [] == Format(t);
    } else {
      FormatOrder(since, t);
      LessPrefixDecides(Format(since), Format(t), [], k);
      assert Format(since) + [] == Format(since);
      LessAsymmetric(Format(since), MakeKey2(t, k));
    }
  }
}

=== FILE: types.dfy ===
/** Shared vocabulary of the replication engine: bytes, timestamps, optional values. */
module Types {

  /** One byte of a key or of an encoded value. */
  newtype byte = x: int | 0 <= x < 256

  type Bytes = seq<byte>

  /**
    A point in time, counted in nanoseconds. The value 0 stands for Go's zero
    `time.Time`, which is what an undecodable or missing timestamp becomes.
   */
  type Time = int

  datatype Option<+T> = None | Some(value: T)

  /**
    `tmMax`: the later of two times, the first one when neither is before the
    other. For `time.Time` "not before" and "equal" coincide on the instants
    modelled here, so this is the maximum.
   */
  function TmMax(a: Time, b: Time): (r: Time)
    ensures r >= a && r >= b
    ensures r == a || r == b
    ensures a == b ==> r == a
  {
    if a < b then b else a
  }

  /**
    One entry of a node's local update log (`LocalUpdateEntry`): the key, the
    time of its latest local write, and whether the log holds the key.
   */
  datatype LogEntry = LogEntry(key: Bytes, change: Time, exist: bool)
}

=== FILE: updater.dfy ===
/**
  The update tracker (`Updater`): a facade in front of a store that, before
  every write, stamps the key in the local update log with a fresh time from
  the node's logical clock and persists the clock in the time vector. The
  log, the time vector and the store are parameters; the clock reads the
  wall clock as the parameter `now`.
 */
module Updater {
  import opened Types
  import opened Items
  import SqlLog
  import Badger
  import Merger

  /** The node's own time-vector entry (`Local`): the clock and whether the vector holds it. */
  datatype Clock = Clock(value: Time, exist: bool)

  /**
    `time()`: advance the clock to the later of one nanosecond past its value
    and the wall clock, and hand out that time.
   */
  function Tick(c: Clock, now: Time): (r: (Clock, Time))
    ensures r.1 > c.value && r.1 >= now
    ensures r.1 == c.value + 1 || r.1 == now
    ensures r.0 == c.(value := r.1)
  {
    var tm := TmMax(c.value + 1, now);
    (c.(value := tm), tm)
  }

  /** The times handed out by successive `time()` calls with wall-clock readings `nows`. */
  function Ticks(c: Clock, nows: seq<Time>): (ts: seq<Time>)
    ensures |ts| == |nows|
    decreases |nows|
  {
    if |nows| == 0 then []
    else
      var (c', t) := Tick(c, nows[0]);
      [t] + Ticks(c', nows[1..])
  }

  /**
    The clock never repeats or goes back, whatever the wall clock does: the
    handed-out times strictly increase, start past the clock's value, and each
    is at least its wall-clock reading.
   */
  lemma {:induction false} TicksIncrease(c: Clock, nows: seq<Time>)
    ensures var ts := Ticks(c, nows);
      && (forall i :: 0 <= i < |ts| ==> ts[i] > c.value && ts[i] >= nows[i])
      && (forall i, j :: 0 <= i < j < |ts| ==> ts[i] < ts[j])
    decreases |nows|
  {
    if |nows| > 0 {
      var (c', t) := Tick(c, nows[0]);
      TicksIncrease(c', nows[1..]);
      var ts := Ticks(c, nows);
      assert ts == [t] + Ticks(c', nows[1..]);
      assert forall i :: 1 <= i < |ts| ==> ts[i] == Ticks(c', nows[1..])[i - 1] && nows[i] == nows[1..][i - 1];
    }
  }

  /**
    The operations the updater calls: the update log's `Query` (the entry, and
    whether it failed) and `Update` (whether it succeeded), the time vector's
    `Update`, and the store's `Submit`.
   */
  datatype Ops<!L, !V, !S> = Ops(
    logQuery: (L, LogEntry) -> (LogEntry, bool),
    logUpdate: (L, LogEntry) -> (L, bool),
    vecUpdate: (V, Clock) -> (V, bool),
    storeSubmit: (S, Bytes, Item) -> (S, bool))

  datatype State<L, V, S> = State(local: Clock, log: L, vec: V, store: S)

  /**
    `Submit` = `bump` then the store: take a time, record it for the key in the
    update log (query first, abort on a query error, then update with the
    queried `exist` flag), write the clock back to the time vector, and only
    then submit to the store. The clock stays advanced whatever fails.
   */
  function Submit<L, V, S>(ops: Ops<L, V, S>, u: State<L, V, S>, key: Bytes, item: Item, now: Time): (r: (State<L, V, S>, bool))
    ensures r.0.local.value == TmMax(u.local.value + 1, now)
    ensures r.1 ==> r.0.local.exist
    ensures u.local.exist ==> r.0.local.exist
    ensures !r.0.local.exist ==> r.0.store == u.store && !r.1
  {
    var (c1, tm) := Tick(u.local, now);
    var (q, qerr) := ops.logQuery(u.log, LogEntry(key, 0, false));
    if qerr then (u.(local := c1), false)
    else
      var (log1, lok) := ops.logUpdate(u.log, q.(change := tm));
      if !lok then (u.(local := c1, log := log1), false)
      else
        var (vec1, vok) := ops.vecUpdate(u.vec, c1);
        if !vok then (u.(local := c1, log := log1, vec := vec1), false)
        else
          var (store1, sok) := ops.storeSubmit(u.store, key, item);
          (State(c1.(exist := true), log1, vec1, store1), sok)
  }

  /** How far a submit got before its first failure. */
  datatype Reached = QueryFailed | LogFailed | VectorFailed | StoreCalled

  ghost function Progress<L, V, S>(ops: Ops<L, V, S>, u: State<L, V, S>, key: Bytes, now: Time): Reached
  {
    var (c1, tm) := Tick(u.local, now);
    var (q, qerr) := ops.logQuery(u.log, LogEntry(key, 0, false));
    if qerr then QueryFailed
    else if !ops.logUpdate(u.log, q.(change := tm)).1 then LogFailed
    else if !ops.vecUpdate(u.vec, c1).1 then VectorFailed
    else StoreCalled
  }

  /**
    The write order: the store is reached only after the log update and the
    time-vector writeback both succeeded; any earlier failure returns false
    with the store untouched, and `exist` is set exactly when the writeback
    succeeded.
   */
  lemma WriteOrder<L, V, S>(ops: Ops<L, V, S>, u: State<L, V, S>, key: Bytes, item: Item, now: Time)
    ensures var r := Submit(ops, u, key, item, now);
      var p := Progress(ops, u, key, now);
      && (p != StoreCalled ==> !r.1 && r.0.store == u.store && r.0.local.exist == u.local.exist)
      && (p == StoreCalled ==> r.0.local.exist && r == (r.0, ops.storeSubmit(u.store, key, item).1))
      && (p == StoreCalled ==> r.0.store == ops.storeSubmit(u.store, key, item).0)
      && (p == QueryFailed ==> r.0.log == u.log && r.0.vec == u.vec)
      && (p == LogFailed ==> r.0.vec == u.vec)
  {
  }

  /**
    The updater over the SQL update log and time vector and the source's
    Badger store, with the given fault switches.
   */
  function SqlOps(node: string, p: Merger.Policy, logFails: bool, vecFails: bool, f: Badger.Faults): Ops<map<Bytes, Time>, map<string, Time>, map<Bytes, Item>>
  {
    Ops(
      (l: map<Bytes, Time>, q: LogEntry) =>
        var k := SqlLog.Query(l, q.key, q.change, logFails);
        (LogEntry(q.key, k.change, k.exist), k.err),
      (l: map<Bytes, Time>, q: LogEntry) => SqlLog.Update(l, q.key, q.change, q.exist, logFails),
      (v: map<string, Time>, c: Clock) => SqlLog.Update(v, node, c.value, c.exist, vecFails),
      (s: map<Bytes, Item>, k: Bytes, i: Item) => Badger.SubmitAsWritten(p, s, k, i, f))
  }

  /**
    `Init`: read the node's clock from the time vector, starting from the
    zero clock. A failing read is returned as an error and leaves the clock
    at zero and not existing.
   */
  function Init(vec: map<string, Time>, node: string, fails: bool): (r: (Clock, bool))
    ensures r.1 <==> fails
    ensures r.0.exist <==> !fails && node in vec
    ensures r.0.exist ==> r.0.value == vec[node]
    ensures !r.0.exist ==> r.0.value == 0
  {
    var q := SqlLog.Query(vec, node, 0, fails);
    (Clock(q.change, q.exist), q.err)
  }

  /** The clock's `exist` flag tells the truth about the time vector. */
  ghost predicate InSync<L, S>(u: State<L, map<string, Time>, S>, node: string)
  {
    u.local.exist <==> node in u.vec
  }

  /**
    Over SQL and Badger with no faults, a submit stamps the key in the log and
    the clock in the vector with the same fresh time, stores the absorbed item,
    and keeps the clock's `exist` flag true to the vector, so the next
    writeback's UPDATE cannot silently miss its row.
   */
  lemma SqlSubmit(node: string, p: Merger.Policy, u: State<map<Bytes, Time>, map<string, Time>, map<Bytes, Item>>, key: Bytes, item: Item, now: Time)
    requires InSync(u, node)
    ensures var r := Submit(SqlOps(node, p, false, false, Badger.NoFaults), u, key, item, now);
      var tm := TmMax(u.local.value + 1, now);
      && r.1
      && InSync(r.0, node)
      && r.0.log == u.log[key := tm]
      && r.0.vec == u.vec[node := tm]
      && r.0.store[key] == (if key in u.store then Merger.WriteIfChanged(p, u.store[key], item) else item)
  {
  }

  /**
    A log failure after `time()` still consumes the time: the next submit
    hands out a later one.
   */
  lemma FailedBumpAdvancesClock(node: string, p: Merger.Policy, u: State<map<Bytes, Time>, map<string, Time>, map<Bytes, Item>>, key: Bytes, item: Item, now: Time)
    ensures var r := Submit(SqlOps(node, p, true, false, Badger.NoFaults), u, key, item, now);
      !r.1 && r.0.store == u.store && r.0.local.value > u.local.value
  {
  }

  /**
    Over the source's Badger store, a failed lookup is reported as success:
    the submit returns true and the log records the key as changed at the
    fresh time, but the store still holds what it held before.
   */
  lemma LookupErrorLogsUnwrittenKey(node: string, p: Merger.Policy, u: State<map<Bytes, Time>, map<string, Time>, map<Bytes, Item>>, key: Bytes, item: Item, now: Time)
    requires InSync(u, node)
    ensures var r := Submit(SqlOps(node, p, false, false, Badger.Faults(true, false, false)), u, key, item, now);
      && r.1
      && r.0.log == u.log[key := TmMax(u.local.value + 1, now)]
      && r.0.store == u.store
  {
  }
}
